=== FILE: README.md ===
# WebAssembly dependence graphs: a Dafny model

This project models the graph core of `wasm-dependence-analysis`
(`src/graph.py`). That core has four parts:

- the adjacency-list `Graph`: `add_node`, `add_edge`, `get_edges` and
  `simplify`;
- the three reconstructors, one per tool dump. The wassail dump is read
  from instruction records. The wasma dump is read from `#k+index` headers,
  with edges reversed. The binaryen dump (`wasm-opt`) is collapsed onto
  debug lines, and a recursive helper skips the nodes that have no debug
  location;
- the dispatch on the tool mark;
- the pairwise Frobenius comparison of adjacency matrices
  (`compareAdjacentMatrix`).

Modules, one file each:

| module | file | what it holds |
|---|---|---|
| `Wrappers` | wrappers.dfy | `Option` and `Result` |
| `Text` | text.dfy | `At(s, i, lit)`: a literal occurs at a position |
| `Digits` | digits.dfy | decimal digit strings, `int()` as `Value` and `str()` as `Show`, and a greedy digit-run scanner |
| `AdjGraph` | graph.dfy | `Graph<N>`: insertion order plus `adj: map<N, Entry(text, succs)>`, with `add_node`, `add_edge` and `get_edges` |
| `Simplify` | simplify.dfy | `simplify` as written, which can raise, and a corrected version |
| `Closure` | closure.dfy | `nx.transitive_closure` as the least transitive superset R⁺ |
| `Dot` | dot.dfy | the parsed dump, and the two edge patterns as scanners |
| `Wassail`, `Wasma`, `Binaryen` | wassail.dfy, wasma.dfy, binaryen.dfy | the three reconstructors |
| `Dispatch` | dispatch.dfy | `build_graph_from_dot` |
| `Compare` | compare.dfy | adjacency matrices, the squared Frobenius distance and the dissimilarity matrix; the node order of each networkx graph, and the comparison as written over those orders |

A graph is `Valid` when all of these hold:

- its key order has no duplicates and lists exactly its keys;
- no successor list repeats a node;
- every successor is a node.

Every operation of `AdjGraph` preserves `Valid`.

A reconstructor returns the transitive closure of its graph's edge set, as
a `set<(nat, nat)>`. This is what `nx.transitive_closure(ret.to_NetworkX())`
holds, because `reflexive=False`: a pair `(a, a)` is present only when `a`
lies on a cycle.

The code has none of the following, so neither does the model:

- **Local-variable merge.** `build_graph_from_dot_wassail` has no pass
  that merges local-variable nodes.
- **Weighted resolution.** `build_graph_from_dot_wasma` resolves edges
  without weights.
- **Errors.** No parse error becomes an empty graph. An edge that does not
  match is skipped, and an unknown mark raises `ValueError`.
- **Edges outside the node count.** No edge is dropped because an endpoint
  lies beyond `node_count`. A registered node is kept in the result only
  when it has an edge or its id is below `node_count`: `to_NetworkX` adds
  `range(node_count)` and the ends of the edges, nothing else. The model's
  result, a set of pairs, likewise holds only nodes that have edges.

One worked comparison: three tools report the chain `0->1, 1->2`, the
shortcut graph `0->1, 1->2, 0->2` and the single edge `0->1`. After
closure, the first two are `{(0,1),(1,2),(0,2)}` and the third is
`{(0,1)}`. Over the shared node list `[0, 1, 2, 3]`, the first and the
third differ in two cells, so the Frobenius norm is √2.
`Compare.ThreeToolScenario` proves that the squared distance is 2. This
needs all three graphs to share that node list, as they do when each
reconstructor is called with `count=4`. Through `build_graph_from_dot`
the count is 0. Then `to_NetworkX` gives the first graph the nodes
`{0,1,2}` and the third the nodes `{0,1}`. The subtraction at
src/graph.py:254 then fails on matrices of shapes 3×3 and 2×2.

`nx.adjacency_matrix` is called without a node list, so each matrix is
indexed by its own graph's node insertion order. `to_NetworkX` inserts
`range(node_count)` first, then the ends of the edges in `get_edges`
order, and `nx.transitive_closure` keeps that order.
`Compare.NetworkXOrder` models that order and `Compare.OwnOrderDistance`
the comparison over it. When every node with an edge lies below a common
`count`, every graph gets the order `range(count)`, and the comparison
is the one over a shared node list (`Compare.AlignedComparison`).
Otherwise equal graphs can get a nonzero entry and different graphs a
zero one (`Compare.MisalignedComparison`); this is a third Finding. The
rest of `Compare` (`Dissimilarity`, `CompareAdjacentMatrix`,
`EntryZeroIffEqual`, `IdenticalGraphsZero`, `FrobeniusIsSymDiff`) is the
corrected comparison: all graphs share one node list.

Three places where the code is evidently wrong are listed under Findings.
There, the model has both the code as written and a corrected version.
The binaryen self-edge guard is one of them: `Binaryen.Build` and
`Dispatch.BuildGraphFromDot` follow the code and compare debug lines as
text. `Binaryen.BuildFixed` compares them as numbers.

## Model

| member | source | states |
|---|---|---|
| AdjGraph.Empty | src/graph.py:8-14 | a new graph is valid and has no nodes and no edges |
| AdjGraph.EdgeList | src/graph.py:16-22 | the edge sequence lists every edge of the graph, lists nothing else, and lists no edge twice |
| AdjGraph.EdgesAreBetweenNodes | src/graph.py:40-42 | both endpoints of every edge of a valid graph are nodes |
| AdjGraph.AddNode | src/graph.py:25-32 | `add_node` keeps the graph valid and adds exactly `id` to the keys. An existing id leaves the whole graph unchanged, so the first label wins. A new id gets the label and no successors and goes to the end of the key order. The edges and the other entries do not change |
| AdjGraph.AddNodeIdempotent | src/graph.py:31-32 | adding the same id twice is the same as adding it once, and the label kept is the first one given |
| AdjGraph.AddEdge | src/graph.py:34-42 | `add_edge` keeps the graph valid and changes no node, key order or label. When both ends are nodes and `b` is not yet a successor of `a`, `b` is appended to the end of `a`'s successor list. In every other case the graph is unchanged. The edge set gains exactly `(a, b)` when both ends are nodes |
| AdjGraph.AddEdgeIdempotent | src/graph.py:41-42 | adding an edge a second time changes nothing, because the successor list never holds a duplicate |
| AdjGraph.AddEdgeCommutes | src/graph.py:34-42 | the edge set after two `add_edge` calls does not depend on their order |
| AdjGraph.AddNodes | src/graph.py:25-32 | a run of `add_node` calls adds exactly the listed ids, keeps the existing entries and adds no edge |
| AdjGraph.AddNodesText | src/graph.py:31-32 | after a run of `add_node` calls, a new id carries the label of its first occurrence |
| AdjGraph.AddEdgesEdges | src/graph.py:40-42 | a run of `add_edge` calls adds exactly the listed pairs whose two ends are nodes |
| AdjGraph.FromListsEdges | src/graph.py:113-123 | a graph built by registering nodes and then edges has as edges exactly the listed pairs between registered ids |
| AdjGraph.FromListsText | src/graph.py:113-117 | in such a graph each id carries the label of its first registration |
| Simplify.RemoveFirstSpec | src/graph.py:53 | `list.remove(x)` on a list holding `x` gives a list one shorter with one copy of `x` fewer. Elements before the first `x` stay in place and elements after it move one place left |
| Simplify.RemoveFromNoDup | src/graph.py:53 | removing from a duplicate-free list leaves a duplicate-free list holding every other element |
| Simplify.Simplify | src/graph.py:44-54 | when `simplify` does not raise, the graph stays valid and the nodes, key order and labels do not change. No edge is added. Every edge `a -> y` it removes is implied by a path `a -> x -> y` with `x != y`. No such shortcut is left: if `x` and `y` are distinct successors of `a`, then `y` is not a successor of `x`. It raises only if some node `a` of the input has three successors `x1`, `x2` and `y`, all distinct, with `y` listed by both `x1` and `x2` |
| Simplify.PairsErr | src/graph.py:48-53 | the pair loop of one node `a` raises only if, at the start of its row, `a` has three distinct successors `x1`, `x2` and `y`, and both `x1` and `x2` list `y` |
| Simplify.SimplifyRaises | src/graph.py:48-53 | take a valid graph whose first node `a` has the successors `[x1, x2, y]`, three distinct nodes. Suppose `x1` and `x2` both list `y`, and neither lists the other. Then `simplify` raises `ValueError` while removing `y` from `a` a second time |
| Simplify.SimplifyRaisesOnDiamond | src/graph.py:44-54 | on the diamond `0->1, 0->2, 0->3, 1->3, 2->3`, `simplify` raises |
| Simplify.SimplifyFixed | src/graph.py:44-54 | the corrected pass never fails. It keeps the graph valid, changes no node, order or label, and adds no edge. Every removal is justified as above, and no shortcut is left |
| Simplify.SimplifyFixedAgrees | src/graph.py:44-54 | whenever the pass as written does not raise, it returns exactly what the corrected pass returns |
| Simplify.SimplifyFixedRemovesOnce | src/graph.py:48-53 | in the failing shape above, suppose also that `y` has no successors and every other node has at most one. Then the corrected pass removes exactly the edge `a -> y` |
| Simplify.FixedNoShortcuts | src/graph.py:46-53 | after the corrected pass over every node, no node `a` has distinct successors `x` and `y` with `y` a successor of `x` |
| Simplify.SimplifyFixedOnDiamond | src/graph.py:44-54 | on the diamond, the corrected pass removes exactly the edge `0 -> 3` |
| Closure.TransClosure | src/graph.py:124 | the closure contains the relation, is transitive, and mentions only nodes of the relation |
| Closure.ClosureLeast | src/graph.py:124 | the closure is contained in every transitive relation that contains the relation |
| Closure.ClosureIsReachability | src/graph.py:124 | `(a, b)` is in the closure exactly when a path of one or more edges leads from `a` to `b` |
| Closure.ClosureIdempotent | src/graph.py:124 | taking the closure twice gives the same result as taking it once |
| Closure.ClosureMonotone | src/graph.py:124 | a larger relation has a larger closure |
| Digits.ValueOfShow | src/graph.py:117 | `int(str(n)) == n` |
| Digits.ShowOfValue | src/graph.py:117 | `str(int(s)) == s` for a digit string without a leading zero |
| Digits.CanonicalTextEqualsValueEq | src/graph.py:197 | two digit strings without leading zeros are equal as text exactly when they are equal as numbers |
| Digits.ScanNat | src/graph.py:140 | the greedy `\d+` scan fails exactly when no digit comes next; otherwise it stops at the first non-digit |
| Digits.ScanDigits | src/graph.py:140-142 | scanning a maximal run of digits returns the run's value and its end |
| Dot.ScanLiteralSpec | src/graph.py:119 | the literal scan succeeds exactly when the next characters spell the literal, and then it ends just after the literal |
| Dot.Matches | src/graph.py:118-123 | the matched pairs are exactly the results of the edges on which the pattern succeeds |
| Dot.WassailEdgeRoundTrip | src/graph.py:119-122 | the edge from `block<b1>:instr<x>` to `block<b2>:instr<y>` followed by anything that does not start with a digit matches the wassail pattern as `(x, y)` |
| Dot.WasmaEdgeRoundTrip | src/graph.py:140-143 | the edge from `<a>` to `<b>` followed by anything that does not start with a digit matches the wasma pattern as `(a, b)` |
| Wassail.Records | src/graph.py:113-117 | the listed records are exactly the records of all node labels |
| Wassail.BuildGraph | src/graph.py:111-123 | the graph's nodes are exactly the record indices. `(a, b)` is an edge exactly when `a` and `b` are nodes and some dump edge matches as `(a, b)` |
| Wassail.Build | src/graph.py:107-124 | the result contains every matched edge between registered instructions, is transitive, and mentions only registered instructions |
| Wassail.EdgeDirection | src/graph.py:118-123 | a dump edge from instruction `x` to instruction `y` gives the dependence `(x, y)` |
| Wassail.UnregisteredEndpointDropped | src/graph.py:40 | a pair with an unregistered end is never in the result |
| Wassail.BuildIsReachability | src/graph.py:124 | the result is exactly reachability along the constructed edges, and taking its closure again changes nothing |
| Wasma.Headers | src/graph.py:133-138 | the listed headers are exactly the `(index, content)` captures of the node labels |
| Wasma.BuildGraph | src/graph.py:131-144 | the graph's nodes are exactly the header indices. `(b, a)` is an edge exactly when both are nodes and some dump edge matches as `a -> b` |
| Wasma.Build | src/graph.py:127-145 | the result contains the reversed pair of every matched edge between registered instructions, is transitive, and mentions only registered instructions |
| Wasma.EdgeReversed | src/graph.py:139-144 | the dump edge `a -> b` gives the dependence `(b, a)` |
| Wasma.UnregisteredEndpointDropped | src/graph.py:40 | a pair with an unregistered end is never in the result |
| Wasma.BuildIsReachability | src/graph.py:145 | the result is exactly reachability along the constructed edges, and taking its closure again changes nothing |
| Binaryen.Unquote | src/graph.py:181 | `label[1:len(label)-1]` is the label without its first and last character, and it is empty for a label shorter than two |
| Binaryen.DebugMap | src/graph.py:169-179 | a node name is in `debugLocMap` exactly when some node of that name carries a debug line |
| Binaryen.DebugMapLastWins | src/graph.py:179 | the line recorded for a name is that of its last located node |
| Binaryen.RawGraphSpec | src/graph.py:171-186 | `tmp` has exactly the dump's node names as nodes, and exactly the dump's edges between them |
| Binaryen.Collect | src/graph.py:148-161 | the helper returns only located nodes of the graph, and it leaves `visited` as it found it, apart from the start node |
| Binaryen.CollectFinds | src/graph.py:148-161 | from any visited set, the helper finds exactly the located nodes at the end of a path whose inner nodes are unlocated, unvisited and not the start |
| Binaryen.HelperFinds | src/graph.py:190-194 | called from a located root with an empty visited set, the helper finds exactly the located nodes reached through unlocated nodes, and it leaves the shared set empty |
| Binaryen.LinkFound | src/graph.py:196-199 | the loop over the found nodes adds exactly one line edge per found node whose line the guard sees as different |
| Binaryen.CollapseRoot | src/graph.py:192-199 | one located root adds exactly its own line edges, and the shared visited set stays empty |
| Binaryen.Collapse | src/graph.py:189-199 | the loop over `tmp` keeps `ret` valid and produces exactly the collapsed line edges |
| Binaryen.CollapsedEdgesSpec | src/graph.py:189-199 | a line pair is collapsed exactly when a located node reaches a located node through unlocated nodes and the guard sees their lines as different. This holds whatever the key order and whatever order the found nodes are visited in |
| Binaryen.NoSelfEdges | src/graph.py:197 | when lines are compared by number, no self-edge is produced |
| Binaryen.CanonicalLinesAgree | src/graph.py:197 | when every line is written without leading zeros, comparing texts and comparing numbers give the same edges |
| Binaryen.TextGuardLetsSelfEdge | src/graph.py:197-199 | two linked located nodes whose lines differ in text but not in number give a self-edge under the text guard |
| Binaryen.SelfEdgeAsWritten | src/graph.py:197-199 | with debug lines `"5"` and `"05"` on the two ends of an edge, the guard as written links line 5 to itself |
| Binaryen.BuildWith | src/graph.py:163-200 | for either line comparison, the result is the closure of the collapsed line edges, contains every linked line pair, and is transitive |
| Binaryen.Build | src/graph.py:163-200 | as written, with lines compared as text: the result is the closure of the collapsed line edges, contains every pair of lines linked under the text guard, and is transitive |
| Binaryen.BuildFixed | src/graph.py:163-200 | with lines compared as numbers: the same closure and containment, and no line edge is a self-edge |
| Binaryen.LineEdgesNoSelf | src/graph.py:197 | with lines compared as numbers, no line edge of a dump is a self-edge |
| Binaryen.BuildsAgree | src/graph.py:197 | when every debug line of a dump is written without leading zeros, both comparisons give the same line edges |
| Binaryen.LinkedInClosure | src/graph.py:200 | every linked line pair is in the closure |
| Dispatch.ParseMark | src/graph.py:87-95 | a known mark names its tool. Any other mark is rejected with `UnknownMark`, and only such marks are rejected |
| Dispatch.MarkRoundTrip | src/graph.py:87-95 | reading back the mark of a tool gives the tool |
| Dispatch.BuildGraphFromDot | src/graph.py:87-95 | the result is an error exactly for an unknown mark. Each known mark runs its own reconstructor, binaryen with the text guard as written. Every result is transitive |
| Compare.SymDiff | src/graph.py:254 | the symmetric difference holds exactly the pairs in one relation but not the other |
| Compare.FrobeniusIsSymDiff | src/graph.py:254 | the squared Frobenius norm of the difference of two adjacency matrices is the number of edges on which the graphs disagree |
| Compare.ZeroIffEqual | src/graph.py:254 | the distance is zero exactly when the two relations are equal |
| Compare.DistanceSymmetric | src/graph.py:254-255 | the distance does not depend on the order of the two graphs |
| Compare.DistanceTriangle | src/graph.py:254 | the squared distance between two graphs is at most the sum of their squared distances to any third graph |
| Compare.SymDiffTriangle | src/graph.py:254 | a symmetric difference is no larger than the sum of the two through any third relation |
| Compare.SetBoth | src/graph.py:255 | setting `[i, j]` and `[j, i]` changes exactly those two cells |
| Compare.CompareAdjacentMatrix | src/graph.py:239-257 | the matrix is `n × n`, its diagonal is zero, and it is symmetric. Each entry off the diagonal is the squared distance of its pair |
| Compare.IdenticalGraphsZero | src/graph.py:253-255 | identical graphs get distance zero |
| Compare.EntryZeroIffEqual | src/graph.py:253-255 | an entry is zero exactly when its two graphs are equal, and entries `[i, j]` and `[j, i]` agree |
| Compare.ThreeToolScenario | src/graph.py:239-257 | three tools report chain, shortcut and first-edge graphs. After closure, the first two agree and each differs from the third by a squared distance of 2 |
| Compare.NetworkXOrder | src/graph.py:56-66 | the node order of `to_NetworkX`, kept by `nx.transitive_closure`, has no duplicates, starts with `range(count)`, and holds exactly the ids below `count` and the ends of the edges |
| Compare.InsertSpec | src/graph.py:65 | adding a node keeps the order duplicate-free, keeps every old node in place, and adds exactly the new node |
| Compare.InsertEdgesSpec | src/graph.py:63-65 | after `add_edge` over a list of edges, the old nodes keep their places, no node is listed twice, and the nodes are the old ones and the ends of the edges |
| Compare.InsertKnown | src/graph.py:63-65 | edges between nodes already present leave the node order unchanged |
| Compare.AlignedBelowCount | src/graph.py:61-66 | when every node with an edge is below `count`, the node order is exactly `range(count)` |
| Compare.AdjacencyIsPositions | src/graph.py:254 | the matrix over a graph's own node order is the matrix of the index pairs of its edges |
| Compare.OwnOrderDistance | src/graph.py:254 | as written, the matrices are indexed by each graph's own node order: different sizes do not subtract; otherwise the squared norm counts the index pairs on which the graphs disagree, and is zero exactly when the graphs put edges at the same index pairs |
| Compare.OwnOrderShared | src/graph.py:254 | over one shared duplicate-free order, the comparison as written counts the disagreeing edges |
| Compare.AlignedComparison | src/graph.py:254 | when both graphs' nodes with edges are below a common `count`, the comparison as written counts the disagreeing edges and is zero exactly for equal relations |
| Compare.MisalignedComparison | src/graph.py:254 | two walks of the same three edges give the node orders `[0, 1, 2]` and `[1, 2, 0]`, and the comparison as written gives them a squared distance of 4; `{0 -> 1}` and `{1 -> 0}` in the orders `[0, 1]` and `[1, 0]` get 0 |

## Left out

- DOT parsing by `pydot` is not modelled. A dump is given already parsed:
  node names, labels, edge endpoints, and what the label patterns capture.
- The node-label patterns are not re-implemented: the `<instrX>` records
  with `split(":")` and `strip()`, the `#k+index:content` header, and the
  `Line: (\d+)` debug location. Each node carries the captured values.
  Both edge patterns are modelled.
- `to_dot`, `__repr__`, the `node_count` and `orignate` fields, and the
  isolated nodes `to_NetworkX` adds up to `node_count` are not modelled. A
  result is modelled as a set of pairs, so an isolated node has no effect
  on it.
- Compare.CompareAdjacentMatrix, Compare.EntryZeroIffEqual,
  Compare.IdenticalGraphsZero, Compare.FrobeniusIsSymDiff: these take one
  node list shared by every graph. The source passes no node list to
  `nx.adjacency_matrix`, so each matrix is indexed by its own graph's node
  insertion order: `range(node_count)`, then the ends of the edges in
  `get_edges` order, which `nx.transitive_closure` copies. These members
  describe the source only when every graph's node order is that shared
  list, for example when every node with an edge is below a common
  `count` (`Compare.AlignedComparison`). The source as written is
  `Compare.OwnOrderDistance`, and the Findings table has a row for it.
- Compare.CompareAdjacentMatrix: entries are the SQUARED Frobenius norm,
  an exact natural number, because `np.linalg.norm` takes a floating-point
  square root. Every entry of the source is the square root of the
  model's entry.
- Compare.FrobeniusIsSymDiff: requires a duplicate-free node list that
  covers both relations. Without that, cells outside the list are not
  counted.
- Set iteration order is not modelled. The helper's found set is visited
  in an arbitrary order (`:|`), and every contract holds for any order.
- `extract_all_instr_from_label` is not modelled beyond the records it
  captures. The commented-out Jaccard code, the utilities, the process
  orchestration and the dumping code are outside this model.
- A node without a label (`get_label()` returning `None`) is not modelled.
  Labels are always strings.
- Binaryen.RawGraph: its own contract states only validity. The node and
  edge facts are in `Binaryen.RawGraphSpec`.
- Binaryen.Collect: Python's recursion limit (about 1000 frames) is not
  modelled. The source's helper raises `RecursionError` on a long enough
  chain of nodes without debug location; the model always returns.
- Digits.IsDigit: only the ASCII digits 0-9 are digits. Python's `\d` and
  `int()` also accept other Unicode decimal digits, which the model
  rejects.
- Simplify.Simplify: on `ValueError` the model returns only the error.
  The source has by then already removed edges from `adj_list`, and the
  model does not describe that partly simplified graph. Its failure
  condition is necessary, not sufficient: an earlier row can delete
  `x1 -> y` before the row of `a` is reached. `Simplify.SimplifyRaises`
  gives a shape that always raises.
- Compare.OwnOrderDistance: numpy broadcasting is not modelled. A
  1 × 1 matrix (a graph with a single node) is subtracted from a larger
  one cell by cell instead of raising; the model reports every size
  mismatch as `None`.
- Compare.MisalignedComparison: it starts from the two `get_edges` walks.
  That an adjacency list with the keys `0` and `1` inserted in either
  order is walked that way is stated, not proved.
- Simplify.SimplifyFixed: not called by any reconstructor, because
  `simplify` is not called in the core either.

## Findings

| source | as written | input that shows it | evidently intended | confidence | as-written member | corrected member |
|---|---|---|---|---|---|---|
| src/graph.py:48-53 | `simplify` calls `remove(to_id2)` once for every pair `(to_id, to_id2)` of the snapshot that implies `to_id2`. Take a node `a` with no duplicate successors. Suppose two of its successors `x1` and `x2`, other than `a` and `y`, both list `y` when `a`'s row is processed. Then `y` is removed twice, and the second `list.remove` raises `ValueError` | the diamond `0->1, 0->2, 0->3, 1->3, 2->3` | remove each implied successor once, skipping a successor that is already gone | not executed; high | Simplify.SimplifyRaisesOnDiamond | Simplify.SimplifyFixedOnDiamond |
| src/graph.py:197-199 | the self-edge guard compares the captured debug-line texts, but the edge joins their `int()` values | two located nodes joined by an edge, with lines written `5` and `05` | compare the line numbers, so that no self-edge `(n, n)` is added | not executed; low, as it depends on whether dumps ever pad line numbers | Binaryen.SelfEdgeAsWritten | Binaryen.BuildFixed |
| src/graph.py:254 | `nx.adjacency_matrix(g)` gets no node list, so each matrix follows its own graph's node insertion order. `to_NetworkX` (src/graph.py:61-66) inserts `range(node_count)` and then the edge ends in `get_edges` order. Two graphs whose ids are not all below a common `node_count` are compared cell by cell under different node labellings | with `count=0`, the closure `{0->1, 1->2, 0->2}` stored with key `0` first and with key `1` first: node orders `[0, 1, 2]` and `[1, 2, 0]`, entry 2.0 for equal graphs | compare the matrices over one shared node list, such as `nodelist=sorted(union of the nodes)` | not executed; medium, as callers that pass a `count` covering every id get aligned matrices | Compare.MisalignedComparison | Compare.EntryZeroIffEqual |

=== FILE: binaryen.dfy ===
/**
 * `build_graph_from_dot_wasmOpt`: a raw graph over the dump's node names is
 * built first; then every node with a debug location is joined to the
 * debug-located nodes it reaches through nodes without one, and the result
 * is re-keyed by source line, with self-edges suppressed. The result is the
 * transitive closure of the re-keyed edges.
 */
module Binaryen {
  import opened Wrappers
  import opened AdjGraph
  import opened Closure
  import opened Digits
  import opened Dot

  /** `label[1:len(label)-1]`: the label without its first and last character. */
  function Unquote(s: string): (r: string)
    ensures |s| >= 2 ==> s == [s[0]] + r + [s[|s| - 1]]
    ensures |s| < 2 ==> r == []
  {
    if |s| < 2 then [] else s[1..|s| - 1]
  }

  /**
   * `debugLocMap`: each node name with a debug location, mapped to its line;
   * a later located node of the same name overwrites an earlier one.
   */
  function DebugMap(nodes: seq<DotNode>): (m: map<string, DigitString>)
    ensures forall n :: n in m <==> exists k :: 0 <= k < |nodes| && nodes[k].name == n && nodes[k].debugLine.Some?
    decreases |nodes|
  {
    if |nodes| == 0 then map[]
    else
      var init := nodes[..|nodes| - 1];
      var m := DebugMap(init);
      var last := nodes[|nodes| - 1];
      assert forall k :: 0 <= k < |init| ==> init[k] == nodes[k];
      match last.debugLine
      case None => m
      case Some(line) => m[last.name := line]
  }

  /** The line recorded for a name is that of its last located occurrence. */
  lemma {:induction false} DebugMapLastWins(nodes: seq<DotNode>, k: nat)
    requires k < |nodes| && nodes[k].debugLine.Some?
    requires forall i :: k < i < |nodes| && nodes[i].name == nodes[k].name ==> nodes[i].debugLine.None?
    ensures nodes[k].name in DebugMap(nodes) && DebugMap(nodes)[nodes[k].name] == nodes[k].debugLine.value
    decreases |nodes|
  {
    var init := nodes[..|nodes| - 1];
    if k < |nodes| - 1 {
      assert forall i :: k < i < |init| ==> init[i] == nodes[i];
      DebugMapLastWins(init, k);
    }
  }

  function Labels(nodes: seq<DotNode>): (ps: seq<(string, string)>)
    ensures |ps| == |nodes|
    ensures forall k :: 0 <= k < |nodes| ==> ps[k] == (nodes[k].name, Unquote(nodes[k].text))
  {
    seq(|nodes|, k requires 0 <= k < |nodes| => (nodes[k].name, Unquote(nodes[k].text)))
  }

  function Endpoints(edges: seq<DotEdge>): (ps: seq<(string, string)>)
    ensures |ps| == |edges|
    ensures forall k :: 0 <= k < |edges| ==> ps[k] == (edges[k].source, edges[k].destination)
  {
    seq(|edges|, k requires 0 <= k < |edges| => (edges[k].source, edges[k].destination))
  }

  lemma EndpointsListed(edges: seq<DotEdge>, a: string, b: string)
    ensures (a, b) in Endpoints(edges) <==> exists k :: 0 <= k < |edges| && edges[k] == DotEdge(a, b)
  {
    var ps := Endpoints(edges);
    if (a, b) in ps {
      var k :| 0 <= k < |ps| && ps[k] == (a, b);
    }
    if exists k :: 0 <= k < |edges| && edges[k] == DotEdge(a, b) {
      var k :| 0 <= k < |edges| && edges[k] == DotEdge(a, b);
      assert ps[k] == (a, b);
    }
  }

  lemma RawNode(dot: DotGraph, n: string)
    ensures n in FromLists(Labels(dot.nodes), Endpoints(dot.edges)).adj <==>
            exists k :: 0 <= k < |dot.nodes| && dot.nodes[k].name == n
  {
    var nodes := Labels(dot.nodes);
    if n in Ids(nodes) {
      var k :| 0 <= k < |nodes| && nodes[k].0 == n;
    }
  }

  lemma RawEdge(dot: DotGraph, a: string, b: string)
    ensures var g := FromLists(Labels(dot.nodes), Endpoints(dot.edges));
      (a, b) in EdgeSet(g) <==> a in g.adj && b in g.adj && exists k :: 0 <= k < |dot.edges| && dot.edges[k] == DotEdge(a, b)
  {
    FromListsEdges(Labels(dot.nodes), Endpoints(dot.edges));
    EndpointsListed(dot.edges, a, b);
  }

  /** The graph `tmp`: every dump node by name, and every dump edge between two of them. */
  function RawGraph(dot: DotGraph): (g: Graph<string>)
    ensures Valid(g)
  {
    FromLists(Labels(dot.nodes), Endpoints(dot.edges))
  }

  /** `tmp` registers exactly the dump's node names and holds exactly the dump's edges between them. */
  lemma RawGraphSpec(dot: DotGraph)
    ensures forall n :: n in RawGraph(dot).adj <==> exists k :: 0 <= k < |dot.nodes| && dot.nodes[k].name == n
    ensures forall a, b :: (a, b) in EdgeSet(RawGraph(dot)) <==>
      a in RawGraph(dot).adj && b in RawGraph(dot).adj && exists k :: 0 <= k < |dot.edges| && dot.edges[k] == DotEdge(a, b)
  {
    forall n ensures n in RawGraph(dot).adj <==> exists k :: 0 <= k < |dot.nodes| && dot.nodes[k].name == n {
      RawNode(dot, n);
    }
    forall a, b ensures (a, b) in EdgeSet(RawGraph(dot)) <==>
      a in RawGraph(dot).adj && b in RawGraph(dot).adj && exists k :: 0 <= k < |dot.edges| && dot.edges[k] == DotEdge(a, b)
    {
      RawEdge(dot, a, b);
    }
  }

  lemma Shrinks<T>(all: set<T>, w: set<T>, x: T)
    requires x in all && x !in w
    ensures |all - (w + {x})| < |all - w|
  {
    assert all - (w + {x}) == (all - w) - {x};
  }

  /**
   * `build_graph_from_dot_wasmOpt_helper(g, node, debugLocMap, visited)`:
   * the `located` nodes found from `node`, and the visited set the call
   * leaves behind. The node is added to `visited` on entry and removed on
   * exit, so a call that starts with `node` not visited leaves `visited` as
   * it found it. The search never enters a node already on the current
   * path, which is why it stops on cycles.
   */
  function Collect(g: Graph<string>, located: set<string>, node: string, visited: set<string>): (r: (set<string>, set<string>))
    requires Valid(g) && node in g.adj
    ensures r.0 <= located && r.0 <= g.adj.Keys
    ensures r.1 == visited - {node}
    decreases |g.adj.Keys - (visited + {node})|, 1
  {
    var inner := CollectSuccs(g, located, g.adj[node].succs, visited + {node});
    (inner.0, inner.1 - {node})
  }

  /** The loop of the helper over the successors `succs`, threading the visited set. */
  function CollectSuccs(g: Graph<string>, located: set<string>, succs: seq<string>, visited: set<string>): (r: (set<string>, set<string>))
    requires Valid(g) && forall s :: s in succs ==> s in g.adj
    ensures r.0 <= located && r.0 <= g.adj.Keys
    ensures r.1 == visited
    decreases |g.adj.Keys - visited|, 0, |succs|
  {
    if |succs| == 0 then ({}, visited)
    else
      var to := succs[0];
      if to in located then
        var rest := CollectSuccs(g, located, succs[1..], visited);
        ({to} + rest.0, rest.1)
      else if to in visited then
        CollectSuccs(g, located, succs[1..], visited)
      else
        Shrinks(g.adj.Keys, visited, to);
        var sub := Collect(g, located, to, visited);
        var rest := CollectSuccs(g, located, succs[1..], sub.1);
        (sub.0 + rest.0, rest.1)
  }

  /** What the successor `s` contributes to the helper's result: itself if located, else what a search from it finds. */
  ghost predicate Contributes(g: Graph<string>, located: set<string>, visited: set<string>, s: string, t: string)
    requires Valid(g) && s in g.adj
  {
    if s in located then t == s else s !in visited && t in Collect(g, located, s, visited).0
  }

  /** The helper's loop finds what the first successor contributes, then what the rest of the loop finds. */
  lemma SuccsStep(g: Graph<string>, located: set<string>, succs: seq<string>, visited: set<string>, t: string)
    requires Valid(g) && |succs| > 0 && forall s :: s in succs ==> s in g.adj
    ensures t in CollectSuccs(g, located, succs, visited).0 <==>
            Contributes(g, located, visited, succs[0], t) || t in CollectSuccs(g, located, succs[1..], visited).0
  {
    var to := succs[0];
    if to !in located && to !in visited {
      var sub := Collect(g, located, to, visited);
      assert sub.1 == visited;
    }
  }

  lemma {:induction false} SuccsFind(g: Graph<string>, located: set<string>, succs: seq<string>, visited: set<string>, t: string)
    requires Valid(g) && forall s :: s in succs ==> s in g.adj
    ensures t in CollectSuccs(g, located, succs, visited).0 <==>
            exists i :: 0 <= i < |succs| && Contributes(g, located, visited, succs[i], t)
    decreases |succs|
  {
    if |succs| > 0 {
      SuccsStep(g, located, succs, visited, t);
      SuccsFind(g, located, succs[1..], visited, t);
      if exists i :: 0 <= i < |succs[1..]| && Contributes(g, located, visited, succs[1..][i], t) {
        var i :| 0 <= i < |succs[1..]| && Contributes(g, located, visited, succs[1..][i], t);
        assert succs[1..][i] == succs[i + 1];
      }
      if exists i :: 0 <= i < |succs| && Contributes(g, located, visited, succs[i], t) {
        var i :| 0 <= i < |succs| && Contributes(g, located, visited, succs[i], t);
        if i > 0 {
          assert succs[1..][i - 1] == succs[i];
        }
      }
    }
  }

  /**
   * `p` leads from `p[0]` to its last node in one or more steps, and every
   * node strictly between is not located, not visited and not `p[0]` again.
   */
  ghost predicate Detour(g: Graph<string>, located: set<string>, visited: set<string>, p: seq<string>) {
    && |p| >= 2
    && (forall i :: 0 <= i < |p| - 1 ==> p[i] in g.adj && p[i + 1] in g.adj[p[i]].succs)
    && (forall i :: 0 < i < |p| - 1 ==> p[i] !in located && p[i] !in visited && p[i] != p[0])
  }

  /** The last position in `[lo, hi)` that holds `x`. */
  function LastIndex<T(==)>(p: seq<T>, x: T, lo: nat, hi: nat): (j: nat)
    requires lo < hi <= |p| && p[lo] == x
    ensures lo <= j < hi && p[j] == x
    ensures forall i :: j < i < hi ==> p[i] != x
    decreases hi
  {
    if p[hi - 1] == x then hi - 1 else LastIndex(p, x, lo, hi - 1)
  }

  /** A single step is a detour. */
  lemma FirstStep(g: Graph<string>, located: set<string>, visited: set<string>, node: string, s: string)
    requires node in g.adj && s in g.adj[node].succs
    ensures exists p :: Detour(g, located, visited, p) && p[0] == node && p[|p| - 1] == s
  {
    assert Detour(g, located, visited, [node, s]);
  }

  /** A detour with its first step put in front of it. */
  lemma DetourCons(g: Graph<string>, located: set<string>, visited: set<string>, node: string, q: seq<string>, t: string)
    requires Valid(g) && node in g.adj
    requires Detour(g, located, visited + {node}, q) && q[0] in g.adj[node].succs && q[|q| - 1] == t
    requires q[0] !in located && q[0] !in visited && q[0] != node
    ensures exists p :: Detour(g, located, visited, p) && p[0] == node && p[|p| - 1] == t
  {
    var p := [node] + q;
    assert p[0] == node && p[|p| - 1] == t;
    forall i | 0 < i < |p| - 1 ensures p[i] !in located && p[i] !in visited && p[i] != p[0] {
      assert p[i] == q[i - 1];
    }
    forall i | 0 <= i < |p| - 1 ensures p[i] in g.adj && p[i + 1] in g.adj[p[i]].succs {
      if i > 0 {
        assert p[i] == q[i - 1] && p[i + 1] == q[i];
      }
    }
  }

  /** The tail of a detour from its last visit to `p[1]` on is a detour from `p[1]`. */
  lemma DetourTail(g: Graph<string>, located: set<string>, visited: set<string>, p: seq<string>)
    requires Detour(g, located, visited, p) && |p| > 2
    ensures var j := LastIndex(p, p[1], 1, |p| - 1);
      Detour(g, located, visited + {p[0]}, p[j..]) && p[j..][0] == p[1] && p[j..][|p[j..]| - 1] == p[|p| - 1]
  {
    var j := LastIndex(p, p[1], 1, |p| - 1);
    var q := p[j..];
    forall i | 0 <= i < |q| - 1 ensures q[i] in g.adj && q[i + 1] in g.adj[q[i]].succs {
      assert q[i] == p[j + i] && q[i + 1] == p[j + i + 1];
    }
    forall i | 0 < i < |q| - 1 ensures q[i] !in located && q[i] !in visited + {p[0]} && q[i] != q[0] {
      assert q[i] == p[j + i];
    }
  }

  /** Soundness of the helper: whatever it finds is located and at the end of a detour from `node`. */
  lemma {:induction false} CollectSound(g: Graph<string>, located: set<string>, node: string, visited: set<string>, t: string)
    requires Valid(g) && node in g.adj
    requires t in Collect(g, located, node, visited).0
    ensures t in located
    ensures exists p :: Detour(g, located, visited, p) && p[0] == node && p[|p| - 1] == t
    decreases |g.adj.Keys - (visited + {node})|
  {
    assert t in located;
    var w := visited + {node};
    var succs := g.adj[node].succs;
    SuccsFind(g, located, succs, w, t);
    var i :| 0 <= i < |succs| && Contributes(g, located, w, succs[i], t);
    var s := succs[i];
    if s in located {
      assert t == s;
      FirstStep(g, located, visited, node, t);
    } else {
      Shrinks(g.adj.Keys, w, s);
      CollectSound(g, located, s, w, t);
      var q :| Detour(g, located, w, q) && q[0] == s && q[|q| - 1] == t;
      DetourCons(g, located, visited, node, q, t);
    }
  }

  /** Completeness of the helper: the located end of every detour from `node` is found. */
  lemma {:induction false} CollectComplete(g: Graph<string>, located: set<string>, node: string, visited: set<string>, p: seq<string>)
    requires Valid(g) && node in g.adj
    requires Detour(g, located, visited, p) && p[0] == node && p[|p| - 1] in located
    ensures p[|p| - 1] in Collect(g, located, node, visited).0
    decreases |g.adj.Keys - (visited + {node})|
  {
    var w := visited + {node};
    var succs := g.adj[node].succs;
    var t := p[|p| - 1];
    var s := p[1];
    var i :| 0 <= i < |succs| && succs[i] == s;
    if |p| > 2 {
      DetourTail(g, located, visited, p);
      var q := p[LastIndex(p, s, 1, |p| - 1)..];
      Shrinks(g.adj.Keys, w, s);
      CollectComplete(g, located, s, w, q);
    }
    assert Contributes(g, located, w, succs[i], t);
    SuccsFind(g, located, succs, w, t);
  }

  /**
   * Soundness and completeness of the helper, for any starting visited set:
   * it finds exactly the located nodes `t` at the end of a detour from
   * `node` that avoids `visited`.
   */
  lemma CollectFinds(g: Graph<string>, located: set<string>, node: string, visited: set<string>, t: string)
    requires Valid(g) && node in g.adj
    ensures t in Collect(g, located, node, visited).0 <==>
            t in located && exists p :: Detour(g, located, visited, p) && p[0] == node && p[|p| - 1] == t
  {
    if t in Collect(g, located, node, visited).0 {
      CollectSound(g, located, node, visited, t);
    }
    if t in located && exists p :: Detour(g, located, visited, p) && p[0] == node && p[|p| - 1] == t {
      var p :| Detour(g, located, visited, p) && p[0] == node && p[|p| - 1] == t;
      CollectComplete(g, located, node, visited, p);
    }
  }

  /** A path of one or more steps from `a` to `b` whose nodes strictly between have no debug location. */
  ghost predicate UndebuggedPath(g: Graph<string>, located: set<string>, a: string, b: string) {
    exists p :: IsPath(g, p) && p[0] == a && p[|p| - 1] == b && forall i :: 0 < i < |p| - 1 ==> p[i] !in located
  }

  /**
   * The helper as `build_graph_from_dot_wasmOpt` calls it, from a located
   * root with an empty visited set: it finds exactly the located nodes at
   * the end of an undebugged path from the root, and leaves the shared
   * visited set empty for the next root.
   */
  lemma HelperFinds(g: Graph<string>, located: set<string>, root: string, t: string)
    requires Valid(g) && root in g.adj && root in located
    ensures t in Collect(g, located, root, {}).0 <==> t in located && UndebuggedPath(g, located, root, t)
    ensures Collect(g, located, root, {}).1 == {}
  {
    CollectFinds(g, located, root, {}, t);
    if t in located && UndebuggedPath(g, located, root, t) {
      var p :| IsPath(g, p) && p[0] == root && p[|p| - 1] == t && forall i :: 0 < i < |p| - 1 ==> p[i] !in located;
      assert Detour(g, located, {}, p);
    }
  }

  /** How the self-edge guard compares two debug lines: as written, by their text; as intended, by their number. */
  datatype LineCompare = ByText | ByNumber

  predicate Differ(cmp: LineCompare, a: DigitString, b: DigitString) {
    match cmp
    case ByText => a != b
    case ByNumber => Value(a) != Value(b)
  }

  /** The line edges from the root `n` to the nodes of `targets` whose lines the guard sees as different. */
  function LinesTo(dmap: map<string, DigitString>, cmp: LineCompare, n: string, targets: set<string>): set<(nat, nat)>
    requires n in dmap && targets <= dmap.Keys
  {
    set t | t in targets && Differ(cmp, dmap[n], dmap[t]) :: (Value(dmap[n]), Value(dmap[t]))
  }

  lemma LinesToAdd(dmap: map<string, DigitString>, cmp: LineCompare, n: string, targets: set<string>, t: string)
    requires n in dmap && targets <= dmap.Keys && t in dmap
    ensures LinesTo(dmap, cmp, n, targets + {t}) ==
            LinesTo(dmap, cmp, n, targets) + (if Differ(cmp, dmap[n], dmap[t]) then {(Value(dmap[n]), Value(dmap[t]))} else {})
  {
  }

  lemma LinkedStep(dmap: map<string, DigitString>, cmp: LineCompare, n: string, done: set<string>, t: string,
                    before: set<(nat, nat)>, current: set<(nat, nat)>, next: set<(nat, nat)>)
    requires n in dmap && done <= dmap.Keys && t in dmap
    requires current == before + LinesTo(dmap, cmp, n, done)
    requires next == current + if Differ(cmp, dmap[n], dmap[t]) then {(Value(dmap[n]), Value(dmap[t]))} else {}
    ensures next == before + LinesTo(dmap, cmp, n, done + {t})
  {
    LinesToAdd(dmap, cmp, n, done, t);
  }

  /** The line edges the collapse adds for the located root `n`. */
  function LinkedFrom(g: Graph<string>, dmap: map<string, DigitString>, cmp: LineCompare, n: string): set<(nat, nat)>
    requires Valid(g) && n in g.adj && n in dmap
  {
    LinesTo(dmap, cmp, n, Collect(g, dmap.Keys, n, {}).0)
  }

  /** The line edges the collapse adds for the first `k` roots, in key order. */
  function CollapsedEdges(g: Graph<string>, dmap: map<string, DigitString>, cmp: LineCompare, k: nat): set<(nat, nat)>
    requires Valid(g) && k <= |g.order|
  {
    if k == 0 then {}
    else
      CollapsedEdges(g, dmap, cmp, k - 1) +
      (if g.order[k - 1] in dmap then LinkedFrom(g, dmap, cmp, g.order[k - 1]) else {})
  }

  /** Registers the node `to` (first text wins) and adds the edge from the registered node `from`. */
  function Link(g: Graph<nat>, from: nat, to: nat, text: string): (r: Graph<nat>)
    requires Valid(g) && from in g.adj
    ensures Valid(r) && from in r.adj && to in r.adj
    ensures EdgeSet(r) == EdgeSet(g) + {(from, to)}
  {
    AddEdge(AddNode(g, to, text), from, to)
  }

  /** One step of the inner loop: the guard, then `add_node` and `add_edge` for the found node `t`. */
  function LinkUnlessSameLine(r: Graph<nat>, dmap: map<string, DigitString>, cmp: LineCompare, n: string, t: string, text: string)
    : (r': Graph<nat>)
    requires Valid(r) && n in dmap && t in dmap && Value(dmap[n]) in r.adj
    ensures Valid(r') && Value(dmap[n]) in r'.adj
    ensures EdgeSet(r') == EdgeSet(r) + if Differ(cmp, dmap[n], dmap[t]) then {(Value(dmap[n]), Value(dmap[t]))} else {}
  {
    if Differ(cmp, dmap[n], dmap[t]) then Link(r, Value(dmap[n]), Value(dmap[t]), text) else r
  }

  /**
   * The inner loop for the located root `n`: for each found node, in no
   * particular order, link the root's line to the found node's line unless
   * the guard sees the same line.
   */
  method LinkFound(ret: Graph<nat>, dmap: map<string, DigitString>, cmp: LineCompare, n: string, found: set<string>, g: Graph<string>)
    returns (r: Graph<nat>)
    requires Valid(ret) && n in dmap && Value(dmap[n]) in ret.adj
    requires found <= dmap.Keys && found <= g.adj.Keys
    ensures Valid(r)
    ensures EdgeSet(r) == EdgeSet(ret) + LinesTo(dmap, cmp, n, found)
  {
    r := ret;
    var line := Value(dmap[n]);
    var rest, done := found, {};
    while rest != {}
      invariant rest + done == found
      invariant Valid(r) && line in r.adj
      invariant EdgeSet(r) == EdgeSet(ret) + LinesTo(dmap, cmp, n, done)
      decreases rest
    {
      var t :| t in rest;
      ghost var edges := EdgeSet(r);
      r := LinkUnlessSameLine(r, dmap, cmp, n, t, g.adj[t].text);
      LinkedStep(dmap, cmp, n, done, t, EdgeSet(ret), edges, EdgeSet(r));
      rest, done := rest - {t}, done + {t};
    }
  }

  /**
   * One located root of the collapse: register its line, run the helper
   * from it with the shared visited set, and link the nodes it finds.
   */
  method CollapseRoot(ret: Graph<nat>, g: Graph<string>, dmap: map<string, DigitString>, cmp: LineCompare, n: string,
                      visited: set<string>)
    returns (r: Graph<nat>, after: set<string>)
    requires Valid(ret) && Valid(g) && n in g.adj && n in dmap && visited == {}
    ensures Valid(r) && after == {}
    ensures EdgeSet(r) == EdgeSet(ret) + LinkedFrom(g, dmap, cmp, n)
  {
    r := AddNode(ret, Value(dmap[n]), g.adj[n].text);
    var res := Collect(g, dmap.Keys, n, visited);
    after := res.1;
    r := LinkFound(r, dmap, cmp, n, res.0, g);
  }

  /**
   * The loop of `build_graph_from_dot_wasmOpt` that builds `ret`: for every
   * located node in key order, register its line, run the helper from it
   * and, for each node found (in no particular order), register that node's
   * line and add the line edge unless the guard sees the same line.
   */
  method Collapse(g: Graph<string>, dmap: map<string, DigitString>, cmp: LineCompare) returns (ret: Graph<nat>)
    requires Valid(g)
    ensures Valid(ret)
    ensures EdgeSet(ret) == CollapsedEdges(g, dmap, cmp, |g.order|)
  {
    ret := Empty();
    var visited: set<string> := {};
    var k := 0;
    while k < |g.order|
      invariant k <= |g.order|
      invariant Valid(ret) && visited == {}
      invariant EdgeSet(ret) == CollapsedEdges(g, dmap, cmp, k)
    {
      var n := g.order[k];
      if n in dmap {
        ret, visited := CollapseRoot(ret, g, dmap, cmp, n, visited);
      }
      k := k + 1;
    }
  }

  /**
   * The line edge `(a, b)` links the line of a located node `n` to the line
   * of a located node `t` at the end of an undebugged path from `n`, and
   * the guard sees the two lines as different.
   */
  ghost predicate LineLinked(g: Graph<string>, dmap: map<string, DigitString>, cmp: LineCompare, a: nat, b: nat) {
    exists n, t :: n in g.adj && n in dmap && t in dmap && UndebuggedPath(g, dmap.Keys, n, t)
                   && Differ(cmp, dmap[n], dmap[t]) && a == Value(dmap[n]) && b == Value(dmap[t])
  }

  lemma LinkedFromSpec(g: Graph<string>, dmap: map<string, DigitString>, cmp: LineCompare, n: string, a: nat, b: nat)
    requires Valid(g) && n in g.adj && n in dmap
    ensures (a, b) in LinkedFrom(g, dmap, cmp, n) <==>
            exists t :: t in dmap && UndebuggedPath(g, dmap.Keys, n, t) && Differ(cmp, dmap[n], dmap[t])
                        && a == Value(dmap[n]) && b == Value(dmap[t])
  {
    var found := Collect(g, dmap.Keys, n, {}).0;
    if (a, b) in LinkedFrom(g, dmap, cmp, n) {
      var t :| t in found && Differ(cmp, dmap[n], dmap[t]) && (a, b) == (Value(dmap[n]), Value(dmap[t]));
      HelperFinds(g, dmap.Keys, n, t);
    }
    if exists t :: t in dmap && UndebuggedPath(g, dmap.Keys, n, t) && Differ(cmp, dmap[n], dmap[t])
                   && a == Value(dmap[n]) && b == Value(dmap[t]) {
      var t :| t in dmap && UndebuggedPath(g, dmap.Keys, n, t) && Differ(cmp, dmap[n], dmap[t])
               && a == Value(dmap[n]) && b == Value(dmap[t]);
      HelperFinds(g, dmap.Keys, n, t);
      assert t in found;
    }
  }

  lemma {:induction false} CollapsedUpTo(g: Graph<string>, dmap: map<string, DigitString>, cmp: LineCompare, k: nat, a: nat, b: nat)
    requires Valid(g) && k <= |g.order|
    ensures (a, b) in CollapsedEdges(g, dmap, cmp, k) <==>
            exists i :: 0 <= i < k && g.order[i] in dmap && (a, b) in LinkedFrom(g, dmap, cmp, g.order[i])
  {
    if k > 0 {
      CollapsedUpTo(g, dmap, cmp, k - 1, a, b);
    }
  }

  /** Every collapsed line pair is linked. */
  lemma CollapsedEdgesSound(g: Graph<string>, dmap: map<string, DigitString>, cmp: LineCompare, a: nat, b: nat)
    requires Valid(g) && (a, b) in CollapsedEdges(g, dmap, cmp, |g.order|)
    ensures LineLinked(g, dmap, cmp, a, b)
  {
    CollapsedUpTo(g, dmap, cmp, |g.order|, a, b);
    var i :| 0 <= i < |g.order| && g.order[i] in dmap && (a, b) in LinkedFrom(g, dmap, cmp, g.order[i]);
    LinkedFromSpec(g, dmap, cmp, g.order[i], a, b);
  }

  lemma CollapsedEdgesComplete(g: Graph<string>, dmap: map<string, DigitString>, cmp: LineCompare, a: nat, b: nat)
    requires Valid(g) && LineLinked(g, dmap, cmp, a, b)
    ensures (a, b) in CollapsedEdges(g, dmap, cmp, |g.order|)
  {
    var n, t :| n in g.adj && n in dmap && t in dmap && UndebuggedPath(g, dmap.Keys, n, t)
                && Differ(cmp, dmap[n], dmap[t]) && a == Value(dmap[n]) && b == Value(dmap[t]);
    var i :| 0 <= i < |g.order| && g.order[i] == n;
    LinkedFromSpec(g, dmap, cmp, n, a, b);
    CollapsedUpTo(g, dmap, cmp, |g.order|, a, b);
  }

  /**
   * What the collapse computes, independently of key order and of the order
   * in which found nodes are visited: exactly the linked line pairs.
   */
  lemma CollapsedEdgesSpec(g: Graph<string>, dmap: map<string, DigitString>, cmp: LineCompare, a: nat, b: nat)
    requires Valid(g)
    ensures (a, b) in CollapsedEdges(g, dmap, cmp, |g.order|) <==> LineLinked(g, dmap, cmp, a, b)
  {
    if (a, b) in CollapsedEdges(g, dmap, cmp, |g.order|) {
      CollapsedEdgesSound(g, dmap, cmp, a, b);
    }
    if LineLinked(g, dmap, cmp, a, b) {
      CollapsedEdgesComplete(g, dmap, cmp, a, b);
    }
  }

  /** With lines compared by number, the collapse never produces a self-edge. */
  lemma NoSelfEdges(g: Graph<string>, dmap: map<string, DigitString>, line: nat)
    requires Valid(g)
    ensures (line, line) !in CollapsedEdges(g, dmap, ByNumber, |g.order|)
  {
    CollapsedEdgesSpec(g, dmap, ByNumber, line, line);
  }

  /** When every recorded line is written the way `str` prints numbers, comparing texts and numbers agree. */
  lemma {:induction false} CanonicalLinesAgree(g: Graph<string>, dmap: map<string, DigitString>, k: nat)
    requires Valid(g) && k <= |g.order|
    requires forall n :: n in dmap ==> Canonical(dmap[n])
    ensures CollapsedEdges(g, dmap, ByText, k) == CollapsedEdges(g, dmap, ByNumber, k)
  {
    if k > 0 {
      CanonicalLinesAgree(g, dmap, k - 1);
      var n := g.order[k - 1];
      if n in dmap {
        forall t | t in dmap ensures Differ(ByText, dmap[n], dmap[t]) == Differ(ByNumber, dmap[n], dmap[t]) {
          CanonicalTextEqualsValueEq(dmap[n], dmap[t]);
        }
        assert LinkedFrom(g, dmap, ByText, n) == LinkedFrom(g, dmap, ByNumber, n);
      }
    }
  }

  /**
   * Two located nodes whose debug locations name line 5, written "5" and
   * "05", joined by an edge.
   */
  function PaddedLines(): DotGraph {
    DotGraph(
      [DotNode("a", "\"i32.add\"", [], None, Some("5")), DotNode("b", "\"local.get\"", [], None, Some("05"))],
      [DotEdge("a", "b")])
  }

  /** A dump edge between two declared nodes is a one-step path of the raw graph. */
  lemma DumpEdgeIsPath(dot: DotGraph, i: nat, j: nat, k: nat)
    requires i < |dot.nodes| && j < |dot.nodes| && k < |dot.edges|
    requires dot.edges[k] == DotEdge(dot.nodes[i].name, dot.nodes[j].name)
    ensures IsPath(RawGraph(dot), [dot.nodes[i].name, dot.nodes[j].name])
  {
    var g, a, b := RawGraph(dot), dot.nodes[i].name, dot.nodes[j].name;
    RawGraphSpec(dot);
    assert a in g.adj && b in g.adj;
    assert (a, b) in EdgeSet(g);
    OneStepPath(g, a, b);
  }

  lemma PaddedLinesGraph()
    ensures IsPath(RawGraph(PaddedLines()), ["a", "b"])
  {
    DumpEdgeIsPath(PaddedLines(), 0, 1, 0);
  }

  lemma PaddedLinesMap()
    ensures var m := DebugMap(PaddedLines().nodes); "a" in m && "b" in m && m["a"] == "5" && m["b"] == "05"
  {
    DebugMapLastWins(PaddedLines().nodes, 0);
    DebugMapLastWins(PaddedLines().nodes, 1);
  }

  /** An edge between two located nodes whose lines differ in text but not in number gives a self-edge under text comparison. */
  lemma TextGuardLetsSelfEdge(g: Graph<string>, dmap: map<string, DigitString>, n: string, t: string)
    requires Valid(g) && IsPath(g, [n, t]) && n in dmap && t in dmap
    requires dmap[n] != dmap[t] && Value(dmap[n]) == Value(dmap[t])
    ensures (Value(dmap[n]), Value(dmap[n])) in CollapsedEdges(g, dmap, ByText, |g.order|)
  {
    assert UndebuggedPath(g, dmap.Keys, n, t);
    assert LineLinked(g, dmap, ByText, Value(dmap[n]), Value(dmap[n]));
    CollapsedEdgesSpec(g, dmap, ByText, Value(dmap[n]), Value(dmap[n]));
  }

  /**
   * As written, the guard compares the captured texts, which differ, so the
   * collapse links line 5 to itself.
   */
  lemma SelfEdgeAsWritten()
    ensures var dot := PaddedLines(); var g := RawGraph(dot);
      (5, 5) in CollapsedEdges(g, DebugMap(dot.nodes), ByText, |g.order|)
  {
    PaddedLinesGraph();
    PaddedLinesMap();
    PaddedDigitsSameValue();
    TextGuardLetsSelfEdge(RawGraph(PaddedLines()), DebugMap(PaddedLines().nodes), "a", "b");
  }

  /** The line edges of `ret` for a dump, with the guard comparing as `cmp` says. */
  function LineEdges(dot: DotGraph, cmp: LineCompare): set<(nat, nat)> {
    var g := RawGraph(dot);
    CollapsedEdges(g, DebugMap(dot.nodes), cmp, |g.order|)
  }

  /** The collapse and closure of `build_graph_from_dot_wasmOpt`, with the guard comparing as `cmp` says. */
  method BuildWith(dot: DotGraph, cmp: LineCompare) returns (c: set<(nat, nat)>)
    ensures c == TransClosure(LineEdges(dot, cmp))
    ensures forall a: nat, b: nat :: LineLinked(RawGraph(dot), DebugMap(dot.nodes), cmp, a, b) ==> (a, b) in c
    ensures Transitive(c)
  {
    var g := RawGraph(dot);
    var ret := Collapse(g, DebugMap(dot.nodes), cmp);
    c := TransClosure(EdgeSet(ret));
    LinkedInClosure(dot, cmp);
  }

  /**
   * `build_graph_from_dot_wasmOpt` as written, the self-edge guard comparing
   * the captured line texts.
   */
  method Build(dot: DotGraph) returns (c: set<(nat, nat)>)
    ensures c == TransClosure(LineEdges(dot, ByText))
    ensures forall a: nat, b: nat :: LineLinked(RawGraph(dot), DebugMap(dot.nodes), ByText, a, b) ==> (a, b) in c
    ensures Transitive(c)
  {
    c := BuildWith(dot, ByText);
  }

  /**
   * `build_graph_from_dot_wasmOpt` with the guard comparing line numbers, as
   * intended: the same closure, built from line edges that are never self-edges.
   */
  method BuildFixed(dot: DotGraph) returns (c: set<(nat, nat)>)
    ensures c == TransClosure(LineEdges(dot, ByNumber))
    ensures forall a: nat, b: nat :: LineLinked(RawGraph(dot), DebugMap(dot.nodes), ByNumber, a, b) ==> (a, b) in c
    ensures forall line: nat :: (line, line) !in LineEdges(dot, ByNumber)
    ensures Transitive(c)
  {
    c := BuildWith(dot, ByNumber);
    LineEdgesNoSelf(dot);
  }

  /** With lines compared by number, no line edge of a dump is a self-edge. */
  lemma LineEdgesNoSelf(dot: DotGraph)
    ensures forall line: nat :: (line, line) !in LineEdges(dot, ByNumber)
  {
    var g := RawGraph(dot);
    forall line: nat ensures (line, line) !in LineEdges(dot, ByNumber) {
      NoSelfEdges(g, DebugMap(dot.nodes), line);
    }
  }

  /** When every debug line of the dump is written the way `str` prints numbers, both builds agree. */
  lemma BuildsAgree(dot: DotGraph)
    requires forall n :: n in DebugMap(dot.nodes) ==> Canonical(DebugMap(dot.nodes)[n])
    ensures LineEdges(dot, ByText) == LineEdges(dot, ByNumber)
  {
    var g := RawGraph(dot);
    CanonicalLinesAgree(g, DebugMap(dot.nodes), |g.order|);
  }

  /** Every linked line pair is in the closure of the line edges. */
  lemma LinkedInClosure(dot: DotGraph, cmp: LineCompare)
    ensures forall a: nat, b: nat :: LineLinked(RawGraph(dot), DebugMap(dot.nodes), cmp, a, b) ==>
      (a, b) in TransClosure(LineEdges(dot, cmp))
  {
    var g, dmap := RawGraph(dot), DebugMap(dot.nodes);
    forall a: nat, b: nat | LineLinked(g, dmap, cmp, a, b) ensures (a, b) in TransClosure(LineEdges(dot, cmp)) {
      CollapsedEdgesComplete(g, dmap, cmp, a, b);
    }
  }
}

=== FILE: closure.dfy ===
/**
 * Transitive closure of a finite relation, the `nx.transitive_closure`
 * every reconstructor applies to its graph. With networkx's default
 * `reflexive=False` a pair (a, b) is in the closure exactly when b can be
 * reached from a in one or more steps, so a node gets a self-loop only when
 * it lies on a cycle.
 */
module Closure {

  /** Closed under composition: (a, b) and (b, c) give (a, c). */
  ghost predicate Transitive(r: set<(nat, nat)>) {
    forall a, b, c :: (a, b) in r && (b, c) in r ==> (a, c) in r
  }

  /** The nodes a relation mentions. */
  function Field(r: set<(nat, nat)>): set<nat> {
    (set p | p in r :: p.0) + (set p | p in r :: p.1)
  }

  function Square(f: set<nat>): set<(nat, nat)> {
    set a, b | a in f && b in f :: (a, b)
  }

  /** Relational composition: (a, c) whenever (a, b) in r and (b, c) in s. */
  function Compose(r: set<(nat, nat)>, s: set<(nat, nat)>): set<(nat, nat)> {
    set p, q | p in r && q in s && p.1 == q.0 :: (p.0, q.1)
  }

  lemma ComposeWitness(r: set<(nat, nat)>, s: set<(nat, nat)>, e: (nat, nat))
    requires e in Compose(r, s)
    ensures exists b :: (e.0, b) in r && (b, e.1) in s
  {
    var p, q :| p in r && q in s && p.1 == q.0 && (p.0, q.1) == e;
    assert (e.0, p.1) in r;
  }

  /** `x` is in the field of `r` exactly when some pair of `r` starts or ends at `x`. */
  lemma FieldMember(r: set<(nat, nat)>, x: nat)
    ensures x in Field(r) <==> exists b :: (x, b) in r || (b, x) in r
  {
    if x in (set p | p in r :: p.0) {
      var p :| p in r && p.0 == x;
      assert (x, p.1) in r;
    } else if x in (set p | p in r :: p.1) {
      var p :| p in r && p.1 == x;
      assert (p.0, x) in r;
    }
    if exists b :: (x, b) in r || (b, x) in r {
      var b :| (x, b) in r || (b, x) in r;
      if (x, b) in r {
        assert (x, b).0 in (set p | p in r :: p.0);
      } else {
        assert (b, x).1 in (set p | p in r :: p.1);
      }
    }
  }

  lemma SquareMember(f: set<nat>, a: nat, b: nat)
    ensures (a, b) in Square(f) <==> a in f && b in f
  {
  }

  /** A relation lies in the square of its own field. */
  lemma InOwnSquare(r: set<(nat, nat)>)
    ensures r <= Square(Field(r))
  {
    forall e | e in r ensures e in Square(Field(r)) {
      FieldMember(r, e.0);
      FieldMember(r, e.1);
      SquareMember(Field(r), e.0, e.1);
    }
  }

  lemma StepStaysInField(r: set<(nat, nat)>)
    ensures Field(r + Compose(r, r)) == Field(r)
    ensures r + Compose(r, r) <= Square(Field(r))
  {
    var next := r + Compose(r, r);
    forall e | e in Compose(r, r) ensures e.0 in Field(r) && e.1 in Field(r) {
      ComposeWitness(r, r, e);
      var b :| (e.0, b) in r && (b, e.1) in r;
      FieldMember(r, e.0);
      FieldMember(r, e.1);
    }
    forall x | x in Field(next) ensures x in Field(r) {
      FieldMember(next, x);
      var b :| (x, b) in next || (b, x) in next;
      if (x, b) in r || (b, x) in r {
        FieldMember(r, x);
      }
    }
    forall x | x in Field(r) ensures x in Field(next) {
      FieldMember(r, x);
      FieldMember(next, x);
    }
    InOwnSquare(r);
    forall e | e in Compose(r, r) ensures e in Square(Field(r)) {
      SquareMember(Field(r), e.0, e.1);
    }
  }

  lemma FewerMissing(full: set<(nat, nat)>, r: set<(nat, nat)>, next: set<(nat, nat)>)
    requires r < next <= full
    ensures |full - next| < |full - r|
  {
    var e :| e in next && e !in r;
    var small, big := full - next, full - r;
    assert small <= big && e in big && e !in small;
    assert big == small + (big - small);
    assert |big - small| >= 1;
  }

  /**
   * The transitive closure, computed by adding two-step pairs until nothing
   * changes. Each round stays inside the square of the relation's field,
   * which bounds the number of rounds.
   */
  function TransClosure(r: set<(nat, nat)>): (c: set<(nat, nat)>)
    ensures r <= c
    ensures Transitive(c)
    ensures c <= Square(Field(r))
    decreases |Square(Field(r)) - r|
  {
    var next := r + Compose(r, r);
    if next == r then
      assert Transitive(r) by {
        forall a, b, c | (a, b) in r && (b, c) in r ensures (a, c) in r {
          assert (a, c) in Compose(r, r);
        }
      }
      InOwnSquare(r);
      r
    else
      StepStaysInField(r);
      FewerMissing(Square(Field(r)), r, next);
      TransClosure(next)
  }

  /** The closure is the least transitive relation containing `r`. */
  lemma {:induction false} ClosureLeast(r: set<(nat, nat)>, t: set<(nat, nat)>)
    requires r <= t && Transitive(t)
    ensures TransClosure(r) <= t
    decreases |Square(Field(r)) - r|
  {
    var next := r + Compose(r, r);
    forall e | e in Compose(r, r) ensures e in t {
      ComposeWitness(r, r, e);
    }
    if next != r {
      StepStaysInField(r);
      FewerMissing(Square(Field(r)), r, next);
      ClosureLeast(next, t);
    }
  }

  /** A relation that is already transitive is its own closure. */
  lemma ClosureOfTransitive(t: set<(nat, nat)>)
    requires Transitive(t)
    ensures TransClosure(t) == t
  {
    ClosureLeast(t, t);
  }

  /** Closing twice is closing once. */
  lemma ClosureIdempotent(r: set<(nat, nat)>)
    ensures TransClosure(TransClosure(r)) == TransClosure(r)
  {
    ClosureOfTransitive(TransClosure(r));
  }

  /** Closure is monotone: a larger relation has a larger closure. */
  lemma ClosureMonotone(r: set<(nat, nat)>, s: set<(nat, nat)>)
    requires r <= s
    ensures TransClosure(r) <= TransClosure(s)
  {
    ClosureLeast(r, TransClosure(s));
  }

  /** A walk of one or more steps along pairs of `r`. */
  ghost predicate RelPath(r: set<(nat, nat)>, p: seq<nat>) {
    |p| >= 2 && forall i :: 0 <= i < |p| - 1 ==> (p[i], p[i + 1]) in r
  }

  ghost predicate Reaches(r: set<(nat, nat)>, a: nat, b: nat) {
    exists p :: RelPath(r, p) && p[0] == a && p[|p| - 1] == b
  }

  lemma ReachesTrans(r: set<(nat, nat)>, a: nat, b: nat, c: nat)
    requires Reaches(r, a, b) && Reaches(r, b, c)
    ensures Reaches(r, a, c)
  {
    var p :| RelPath(r, p) && p[0] == a && p[|p| - 1] == b;
    var q :| RelPath(r, q) && q[0] == b && q[|q| - 1] == c;
    var w := p + q[1..];
    forall i | 0 <= i < |w| - 1 ensures (w[i], w[i + 1]) in r {
      if i < |p| - 1 {
      } else {
        assert w[i] == q[i - |p| + 1];
        assert w[i + 1] == q[i - |p| + 2];
      }
    }
    assert RelPath(r, w) && w[0] == a && w[|w| - 1] == c;
  }

  lemma {:induction false} ClosureSoundFrom(r0: set<(nat, nat)>, r: set<(nat, nat)>)
    requires forall e :: e in r ==> Reaches(r0, e.0, e.1)
    ensures forall e :: e in TransClosure(r) ==> Reaches(r0, e.0, e.1)
    decreases |Square(Field(r)) - r|
  {
    var next := r + Compose(r, r);
    if next != r {
      forall e | e in next ensures Reaches(r0, e.0, e.1) {
        if e !in r {
          ComposeWitness(r, r, e);
          var b :| (e.0, b) in r && (b, e.1) in r;
          ReachesTrans(r0, e.0, b, e.1);
        }
      }
      StepStaysInField(r);
      FewerMissing(Square(Field(r)), r, next);
      ClosureSoundFrom(r0, next);
    }
  }

  lemma {:induction false} PathInClosure(r: set<(nat, nat)>, p: seq<nat>)
    requires RelPath(r, p)
    ensures (p[0], p[|p| - 1]) in TransClosure(r)
    decreases |p|
  {
    var c := TransClosure(r);
    if |p| > 2 {
      var q := p[1..];
      assert RelPath(r, q) by {
        forall i | 0 <= i < |q| - 1 ensures (q[i], q[i + 1]) in r {
          assert (p[i + 1], p[i + 2]) in r;
        }
      }
      PathInClosure(r, q);
      assert (p[0], p[1]) in r;
    } else {
      assert (p[0], p[1]) in r;
    }
  }

  /** A pair is in the closure exactly when its second node is reachable from its first. */
  lemma ClosureIsReachability(r: set<(nat, nat)>, a: nat, b: nat)
    ensures (a, b) in TransClosure(r) <==> Reaches(r, a, b)
  {
    forall e | e in r ensures Reaches(r, e.0, e.1) {
      assert RelPath(r, [e.0, e.1]);
    }
    ClosureSoundFrom(r, r);
    if Reaches(r, a, b) {
      var p :| RelPath(r, p) && p[0] == a && p[|p| - 1] == b;
      PathInClosure(r, p);
    }
  }
}

=== FILE: compare.dfy ===
/**
 * `compareAdjacentMatrix`: the pairwise dissimilarity of several dependence
 * relations over one shared list of instructions, measured by the Frobenius
 * norm of the difference of their 0/1 adjacency matrices. The model keeps
 * the SQUARE of that norm, an integer: for 0/1 matrices it is the number of
 * edges on which the two relations disagree.
 */
module Compare {
  import opened Wrappers
  import opened AdjGraph
  import opened Closure

  /** The edges on which two relations disagree. */
  function SymDiff(a: set<(nat, nat)>, b: set<(nat, nat)>): (d: set<(nat, nat)>)
    ensures forall e :: e in d <==> (e in a) != (e in b)
  {
    (a - b) + (b - a)
  }

  /** Every edge of `r` joins two of the listed instructions. */
  predicate Within(r: set<(nat, nat)>, nodes: seq<nat>) {
    forall e :: e in r ==> e.0 in nodes && e.1 in nodes
  }

  /**
   * `nx.adjacency_matrix(g).toarray()`: row `i`, column `j` holds 1 exactly
   * when the edge `nodes[i] -> nodes[j]` is present.
   */
  function Adjacency(r: set<(nat, nat)>, nodes: seq<nat>): (m: seq<seq<int>>)
    ensures |m| == |nodes|
    ensures forall i :: 0 <= i < |nodes| ==> |m[i]| == |nodes|
    ensures forall i, j :: 0 <= i < |nodes| && 0 <= j < |nodes| ==>
      m[i][j] == (if (nodes[i], nodes[j]) in r then 1 else 0)
  {
    seq(|nodes|, i requires 0 <= i < |nodes| =>
      seq(|nodes|, j requires 0 <= j < |nodes| => if (nodes[i], nodes[j]) in r then 1 else 0))
  }

  /** Two matrices of the same `n x n` shape. */
  predicate SameShape(a: seq<seq<int>>, b: seq<seq<int>>) {
    |a| == |b| && forall i :: 0 <= i < |a| ==> |a[i]| == |a| && |b[i]| == |a|
  }

  /** The square of cell `(i, j)` of `a - b`. */
  function CellSq(a: seq<seq<int>>, b: seq<seq<int>>, i: nat, j: nat): nat
    requires SameShape(a, b) && i < |a| && j < |a|
  {
    (a[i][j] - b[i][j]) * (a[i][j] - b[i][j])
  }

  /** The squared differences of the first `k` cells of row `i`. */
  function RowSq(a: seq<seq<int>>, b: seq<seq<int>>, i: nat, k: nat): nat
    requires SameShape(a, b) && i < |a| && k <= |a|
  {
    if k == 0 then 0 else RowSq(a, b, i, k - 1) + CellSq(a, b, i, k - 1)
  }

  /** The squared differences of the first `k` rows. */
  function MatSq(a: seq<seq<int>>, b: seq<seq<int>>, k: nat): nat
    requires SameShape(a, b) && k <= |a|
  {
    if k == 0 then 0 else MatSq(a, b, k - 1) + RowSq(a, b, k - 1, |a|)
  }

  /** The square of the Frobenius norm of `a - b`: the sum of the squares of all cells. */
  function FrobeniusSq(a: seq<seq<int>>, b: seq<seq<int>>): nat
    requires SameShape(a, b)
  {
    MatSq(a, b, |a|)
  }

  /** The disagreeing edges that leave `src` and end in `cols`. */
  function RowEdges(d: set<(nat, nat)>, src: nat, cols: seq<nat>): set<(nat, nat)> {
    set e | e in d && e.0 == src && e.1 in cols
  }

  /** The disagreeing edges that leave one of `rows` and end in `cols`. */
  function BlockEdges(d: set<(nat, nat)>, rows: seq<nat>, cols: seq<nat>): set<(nat, nat)> {
    set e | e in d && e.0 in rows && e.1 in cols
  }

  /**
   * The cells of `a - b` square to 1 on the disagreeing edges `d` and to 0
   * elsewhere, rows and columns being labelled by `nodes`.
   */
  ghost predicate Marks(a: seq<seq<int>>, b: seq<seq<int>>, nodes: seq<nat>, d: set<(nat, nat)>) {
    SameShape(a, b) && |a| == |nodes| &&
    forall i, j {:trigger CellSq(a, b, i, j)} :: 0 <= i < |nodes| && 0 <= j < |nodes| ==>
      CellSq(a, b, i, j) == if (nodes[i], nodes[j]) in d then 1 else 0
  }

  lemma AdjacencyMarks(r1: set<(nat, nat)>, r2: set<(nat, nat)>, nodes: seq<nat>)
    ensures Marks(Adjacency(r1, nodes), Adjacency(r2, nodes), nodes, SymDiff(r1, r2))
  {
    var a, b := Adjacency(r1, nodes), Adjacency(r2, nodes);
    forall i, j | 0 <= i < |nodes| && 0 <= j < |nodes|
      ensures CellSq(a, b, i, j) == if (nodes[i], nodes[j]) in SymDiff(r1, r2) then 1 else 0
    {
      var x, y := a[i][j], b[i][j];
      assert (x == 1) == ((nodes[i], nodes[j]) in r1) && (x == 0) == ((nodes[i], nodes[j]) !in r1);
      assert (y == 1) == ((nodes[i], nodes[j]) in r2) && (y == 0) == ((nodes[i], nodes[j]) !in r2);
    }
  }

  /** Extending the columns by one instruction adds at most its one cell. */
  lemma RowEdgesSnoc(d: set<(nat, nat)>, src: nat, cols: seq<nat>, x: nat)
    requires x !in cols
    ensures |RowEdges(d, src, cols + [x])| == |RowEdges(d, src, cols)| + if (src, x) in d then 1 else 0
  {
    var before := RowEdges(d, src, cols);
    assert (src, x) !in before;
    if (src, x) in d {
      assert RowEdges(d, src, cols + [x]) == before + {(src, x)};
    } else {
      assert RowEdges(d, src, cols + [x]) == before;
    }
  }

  /** Extending the rows by one instruction adds its row, disjoint from the others. */
  lemma BlockEdgesSnoc(d: set<(nat, nat)>, rows: seq<nat>, x: nat, cols: seq<nat>)
    requires x !in rows
    ensures |BlockEdges(d, rows + [x], cols)| == |BlockEdges(d, rows, cols)| + |RowEdges(d, x, cols)|
  {
    var before, row := BlockEdges(d, rows, cols), RowEdges(d, x, cols);
    assert BlockEdges(d, rows + [x], cols) == before + row;
    assert before !! row;
  }

  /** In a list without duplicates, an element does not occur before its position. */
  lemma NotBefore(s: seq<nat>, k: nat)
    requires NoDup(s) && k < |s|
    ensures s[k] !in s[..k] && s[..k + 1] == s[..k] + [s[k]]
  {
    assert s[..k + 1] == s[..k] + [s[k]];
  }

  /** The columns of the first `k + 1` instructions add the cell of instruction `k` to the first `k`. */
  lemma RowEdgesStep(d: set<(nat, nat)>, src: nat, nodes: seq<nat>, k: nat)
    requires NoDup(nodes) && k < |nodes|
    ensures |RowEdges(d, src, nodes[..k + 1])| == |RowEdges(d, src, nodes[..k])| + if (src, nodes[k]) in d then 1 else 0
  {
    NotBefore(nodes, k);
    RowEdgesSnoc(d, src, nodes[..k], nodes[k]);
  }

  /** The rows of the first `k + 1` instructions add the row of instruction `k` to the first `k`. */
  lemma BlockEdgesStep(d: set<(nat, nat)>, nodes: seq<nat>, k: nat)
    requires NoDup(nodes) && k < |nodes|
    ensures |BlockEdges(d, nodes[..k + 1], nodes)| == |BlockEdges(d, nodes[..k], nodes)| + |RowEdges(d, nodes[k], nodes)|
  {
    NotBefore(nodes, k);
    BlockEdgesSnoc(d, nodes[..k], nodes[k], nodes);
  }

  /** No instruction, no edge. */
  lemma EdgesNone(d: set<(nat, nat)>, src: nat, nodes: seq<nat>)
    ensures |RowEdges(d, src, nodes[..0])| == 0 && |BlockEdges(d, nodes[..0], nodes)| == 0
  {
    assert RowEdges(d, src, nodes[..0]) == {};
    assert BlockEdges(d, nodes[..0], nodes) == {};
  }

  /** The first `k` cells of row `i` count the marked edges into the first `k` instructions. */
  lemma {:induction false} RowCount(a: seq<seq<int>>, b: seq<seq<int>>, nodes: seq<nat>, d: set<(nat, nat)>, i: nat, k: nat)
    requires NoDup(nodes) && Marks(a, b, nodes, d) && i < |nodes| && k <= |nodes|
    ensures RowSq(a, b, i, k) == |RowEdges(d, nodes[i], nodes[..k])|
  {
    if k == 0 {
      EdgesNone(d, nodes[i], nodes);
    } else {
      RowCount(a, b, nodes, d, i, k - 1);
      RowEdgesStep(d, nodes[i], nodes, k - 1);
      assert CellSq(a, b, i, k - 1) == if (nodes[i], nodes[k - 1]) in d then 1 else 0;
    }
  }

  /** Every full row of `a - b` counts the marked edges out of its instruction. */
  ghost predicate RowsCount(a: seq<seq<int>>, b: seq<seq<int>>, nodes: seq<nat>, d: set<(nat, nat)>) {
    SameShape(a, b) && |a| == |nodes| &&
    forall i {:trigger RowSq(a, b, i, |nodes|)} :: 0 <= i < |nodes| ==> RowSq(a, b, i, |nodes|) == |RowEdges(d, nodes[i], nodes)|
  }

  lemma AllRowsCount(a: seq<seq<int>>, b: seq<seq<int>>, nodes: seq<nat>, d: set<(nat, nat)>)
    requires NoDup(nodes) && Marks(a, b, nodes, d)
    ensures RowsCount(a, b, nodes, d)
  {
    assert nodes[..|nodes|] == nodes;
    forall i | 0 <= i < |nodes| ensures RowSq(a, b, i, |nodes|) == |RowEdges(d, nodes[i], nodes)| {
      RowCount(a, b, nodes, d, i, |nodes|);
    }
  }

  /** The first `k` rows count the marked edges out of the first `k` instructions. */
  lemma {:induction false} MatCount(a: seq<seq<int>>, b: seq<seq<int>>, nodes: seq<nat>, d: set<(nat, nat)>, k: nat)
    requires NoDup(nodes) && RowsCount(a, b, nodes, d) && k <= |nodes|
    ensures MatSq(a, b, k) == |BlockEdges(d, nodes[..k], nodes)|
  {
    if k == 0 {
      EdgesNone(d, 0, nodes);
      assert MatSq(a, b, k) == 0;
    } else {
      MatCount(a, b, nodes, d, k - 1);
      MatStep(a, b, nodes, d, k);
    }
  }

  lemma MatStep(a: seq<seq<int>>, b: seq<seq<int>>, nodes: seq<nat>, d: set<(nat, nat)>, k: nat)
    requires NoDup(nodes) && RowsCount(a, b, nodes, d) && 0 < k <= |nodes|
    requires MatSq(a, b, k - 1) == |BlockEdges(d, nodes[..k - 1], nodes)|
    ensures MatSq(a, b, k) == |BlockEdges(d, nodes[..k], nodes)|
  {
    var j := k - 1;
    BlockEdgesStep(d, nodes, j);
    assert j + 1 == k;
    assert RowSq(a, b, j, |nodes|) == |RowEdges(d, nodes[j], nodes)|;
    assert MatSq(a, b, k) == MatSq(a, b, j) + RowSq(a, b, j, |nodes|);
  }

  /**
   * The squared Frobenius norm of the difference of two adjacency matrices
   * is the number of edges on which the relations disagree.
   */
  lemma FrobeniusIsSymDiff(r1: set<(nat, nat)>, r2: set<(nat, nat)>, nodes: seq<nat>)
    requires NoDup(nodes) && Within(r1, nodes) && Within(r2, nodes)
    ensures FrobeniusSq(Adjacency(r1, nodes), Adjacency(r2, nodes)) == |SymDiff(r1, r2)|
  {
    var d := SymDiff(r1, r2);
    AdjacencyMarks(r1, r2, nodes);
    AllRowsCount(Adjacency(r1, nodes), Adjacency(r2, nodes), nodes, d);
    MatCount(Adjacency(r1, nodes), Adjacency(r2, nodes), nodes, d, |nodes|);
    assert nodes[..|nodes|] == nodes;
    assert BlockEdges(d, nodes, nodes) == d;
  }

  /** A relation is at distance zero from another exactly when they are equal. */
  lemma ZeroIffEqual(r1: set<(nat, nat)>, r2: set<(nat, nat)>, nodes: seq<nat>)
    requires NoDup(nodes) && Within(r1, nodes) && Within(r2, nodes)
    ensures FrobeniusSq(Adjacency(r1, nodes), Adjacency(r2, nodes)) == 0 <==> r1 == r2
  {
    FrobeniusIsSymDiff(r1, r2, nodes);
    if |SymDiff(r1, r2)| == 0 {
      assert SymDiff(r1, r2) == {};
    } else {
      var e :| e in SymDiff(r1, r2);
    }
  }

  lemma SymDiffSymmetric(r1: set<(nat, nat)>, r2: set<(nat, nat)>)
    ensures SymDiff(r1, r2) == SymDiff(r2, r1)
  {
  }

  /** The distance is symmetric. */
  lemma DistanceSymmetric(r1: set<(nat, nat)>, r2: set<(nat, nat)>, nodes: seq<nat>)
    requires NoDup(nodes) && Within(r1, nodes) && Within(r2, nodes)
    ensures FrobeniusSq(Adjacency(r1, nodes), Adjacency(r2, nodes)) == FrobeniusSq(Adjacency(r2, nodes), Adjacency(r1, nodes))
  {
    FrobeniusIsSymDiff(r1, r2, nodes);
    FrobeniusIsSymDiff(r2, r1, nodes);
    SymDiffSymmetric(r1, r2);
  }

  /** Disagreement is a distance on relations: it obeys the triangle inequality. */
  lemma SymDiffTriangle(r1: set<(nat, nat)>, r2: set<(nat, nat)>, r3: set<(nat, nat)>)
    ensures |SymDiff(r1, r3)| <= |SymDiff(r1, r2)| + |SymDiff(r2, r3)|
  {
    var a, b, c := SymDiff(r1, r3), SymDiff(r1, r2), SymDiff(r2, r3);
    assert b + c == a + ((b + c) - a);
  }

  /** The squared norm of the difference of 0/1 matrices obeys the triangle inequality. */
  lemma DistanceTriangle(r1: set<(nat, nat)>, r2: set<(nat, nat)>, r3: set<(nat, nat)>, nodes: seq<nat>)
    requires NoDup(nodes) && Within(r1, nodes) && Within(r2, nodes) && Within(r3, nodes)
    ensures FrobeniusSq(Adjacency(r1, nodes), Adjacency(r3, nodes))
      <= FrobeniusSq(Adjacency(r1, nodes), Adjacency(r2, nodes)) + FrobeniusSq(Adjacency(r2, nodes), Adjacency(r3, nodes))
  {
    FrobeniusIsSymDiff(r1, r3, nodes);
    FrobeniusIsSymDiff(r1, r2, nodes);
    FrobeniusIsSymDiff(r2, r3, nodes);
    SymDiffTriangle(r1, r2, r3);
  }

  /** The dissimilarity of graphs `i` and `j` over the shared instruction list. */
  function Dissimilarity(graphs: seq<set<(nat, nat)>>, nodes: seq<nat>, i: nat, j: nat): nat
    requires i < |graphs| && j < |graphs|
  {
    FrobeniusSq(Adjacency(graphs[i], nodes), Adjacency(graphs[j], nodes))
  }

  /**
   * `compareAdjacentMatrix`: an `n x n` matrix, zero on the diagonal, whose
   * cells `(i, j)` and `(j, i)` for `i < j` both hold the squared distance
   * of graphs `i` and `j`.
   */
  method CompareAdjacentMatrix(graphs: seq<set<(nat, nat)>>, nodes: seq<nat>) returns (m: seq<seq<nat>>)
    ensures |m| == |graphs|
    ensures forall i :: 0 <= i < |m| ==> |m[i]| == |graphs|
    ensures forall i :: 0 <= i < |m| ==> m[i][i] == 0
    ensures forall i, j :: 0 <= i < j < |m| ==> m[i][j] == m[j][i] == Dissimilarity(graphs, nodes, i, j)
  {
    var n := |graphs|;
    m := Zeros(n);
    var i := 0;
    while i < n
      invariant 0 <= i <= n
      invariant |m| == n && forall r :: 0 <= r < n ==> |m[r]| == n
      invariant forall r :: 0 <= r < n ==> m[r][r] == 0
      invariant forall r, c :: 0 <= r < c < n ==>
        m[r][c] == m[c][r] == if r < i then Dissimilarity(graphs, nodes, r, c) else 0
    {
      var j := i + 1;
      while j < n
        invariant i + 1 <= j <= n
        invariant |m| == n && forall r :: 0 <= r < n ==> |m[r]| == n
        invariant forall r :: 0 <= r < n ==> m[r][r] == 0
        invariant forall r, c :: 0 <= r < c < n ==>
          m[r][c] == m[c][r] == if r < i || (r == i && c < j) then Dissimilarity(graphs, nodes, r, c) else 0
      {
        m := SetBoth(m, i, j, Dissimilarity(graphs, nodes, i, j));
        j := j + 1;
      }
      i := i + 1;
    }
  }

  /** The `n x n` matrix of zeros. */
  function Zeros(n: nat): (m: seq<seq<nat>>)
    ensures |m| == n && forall i :: 0 <= i < n ==> |m[i]| == n
    ensures forall i, j :: 0 <= i < n && 0 <= j < n ==> m[i][j] == 0
  {
    seq(n, i => seq(n, j => 0))
  }

  /** Writes `v` into cells `(i, j)` and `(j, i)`, leaving every other cell. */
  function SetBoth(m: seq<seq<nat>>, i: nat, j: nat, v: nat): (r: seq<seq<nat>>)
    requires i < |m| && j < |m| && i != j
    requires forall k :: 0 <= k < |m| ==> |m[k]| == |m|
    ensures |r| == |m| && forall k :: 0 <= k < |r| ==> |r[k]| == |m|
    ensures r[i][j] == v && r[j][i] == v
    ensures forall a, b :: 0 <= a < |m| && 0 <= b < |m| && !(a == i && b == j) && !(a == j && b == i) ==> r[a][b] == m[a][b]
  {
    var rowI: seq<nat> := m[i][j := v];
    var rowJ: seq<nat> := m[j][i := v];
    m[i := rowI][j := rowJ]
  }

  /** A matrix is at distance zero from itself. */
  lemma {:induction false} SelfZero(a: seq<seq<int>>, k: nat)
    requires SameShape(a, a) && k <= |a|
    ensures MatSq(a, a, k) == 0
  {
    if k > 0 {
      SelfZero(a, k - 1);
      RowSelfZero(a, k - 1, |a|);
    }
  }

  lemma {:induction false} RowSelfZero(a: seq<seq<int>>, i: nat, k: nat)
    requires SameShape(a, a) && i < |a| && k <= |a|
    ensures RowSq(a, a, i, k) == 0
  {
    if k > 0 {
      RowSelfZero(a, i, k - 1);
    }
  }

  /** Identical graphs are at distance zero, whatever the instruction list. */
  lemma IdenticalGraphsZero(graphs: seq<set<(nat, nat)>>, nodes: seq<nat>, i: nat, j: nat)
    requires i < |graphs| && j < |graphs| && graphs[i] == graphs[j]
    ensures Dissimilarity(graphs, nodes, i, j) == 0
  {
    SelfZero(Adjacency(graphs[i], nodes), |nodes|);
  }

  /** Away from the diagonal, the matrix entry is zero exactly for equal graphs. */
  lemma EntryZeroIffEqual(graphs: seq<set<(nat, nat)>>, nodes: seq<nat>, i: nat, j: nat)
    requires i < |graphs| && j < |graphs|
    requires NoDup(nodes) && Within(graphs[i], nodes) && Within(graphs[j], nodes)
    ensures Dissimilarity(graphs, nodes, i, j) == 0 <==> graphs[i] == graphs[j]
    ensures Dissimilarity(graphs, nodes, i, j) == Dissimilarity(graphs, nodes, j, i)
  {
    ZeroIffEqual(graphs[i], graphs[j], nodes);
    DistanceSymmetric(graphs[i], graphs[j], nodes);
  }

  /** `range(count)`. */
  function Upto(count: nat): (s: seq<nat>)
    ensures |s| == count && forall i :: 0 <= i < count ==> s[i] == i
    ensures NoDup(s)
    ensures forall y: nat :: y in s <==> y < count
  {
    var s := seq(count, i requires 0 <= i < count => i);
    forall y: nat | y < count ensures y in s {
      assert s[y] == y;
    }
    s
  }

  /** The instructions an edge of `r` touches. */
  function Touched(r: set<(nat, nat)>): set<nat> {
    (set e | e in r :: e.0) + (set e | e in r :: e.1)
  }

  /** The ends of a non-empty list of edges: those of its head and of its tail. */
  lemma TouchedCons(edges: seq<(nat, nat)>)
    requires edges != []
    ensures Touched(set e | e in edges) == {edges[0].0, edges[0].1} + Touched(set e | e in edges[1..])
  {
    var a, b := set e | e in edges, set e | e in edges[1..];
    assert edges == [edges[0]] + edges[1..];
    assert a == {edges[0]} + b;
  }

  /** `G.add_node(x)`: a node already present keeps its place; a new one goes last. */
  function Insert(order: seq<nat>, x: nat): seq<nat> {
    if x in order then order else order + [x]
  }

  /** `add_node` keeps the nodes distinct and in place, and adds exactly `x`. */
  lemma InsertSpec(order: seq<nat>, x: nat)
    ensures NoDup(order) ==> NoDup(Insert(order, x))
    ensures forall y :: y in Insert(order, x) <==> y in order || y == x
    ensures |order| <= |Insert(order, x)| && Insert(order, x)[..|order|] == order
  {
  }

  /** A prefix of a prefix is a prefix. */
  lemma PrefixOfPrefix(o: seq<nat>, o2: seq<nat>, order: seq<nat>)
    requires |o2| <= |o| && o[..|o2|] == o2
    requires |order| <= |o2| && o2[..|order|] == order
    ensures o[..|order|] == order
  {
    assert o[..|order|] == o[..|o2|][..|order|];
  }

  /**
   * The node order of a networkx graph after `add_edge` over `edges`, in
   * list order.
   */
  function InsertEdges(order: seq<nat>, edges: seq<(nat, nat)>): seq<nat>
    decreases |edges|
  {
    if edges == [] then order
    else InsertEdges(Insert(Insert(order, edges[0].0), edges[0].1), edges[1..])
  }

  /**
   * After `add_edge` over `edges`, the old nodes keep their places, the new
   * ends follow, no node is listed twice, and the nodes are the old ones and
   * the ends of the edges.
   */
  lemma {:induction false} InsertEdgesSpec(order: seq<nat>, edges: seq<(nat, nat)>)
    ensures NoDup(order) ==> NoDup(InsertEdges(order, edges))
    ensures |order| <= |InsertEdges(order, edges)| && InsertEdges(order, edges)[..|order|] == order
    ensures forall y :: y in InsertEdges(order, edges) <==> y in order || y in Touched(set e | e in edges)
    decreases |edges|
  {
    if edges == [] {
      assert (set e | e in edges) == {};
    } else {
      var o1 := Insert(order, edges[0].0);
      var o2 := Insert(o1, edges[0].1);
      InsertSpec(order, edges[0].0);
      InsertSpec(o1, edges[0].1);
      PrefixOfPrefix(o2, o1, order);
      InsertEdgesSpec(o2, edges[1..]);
      PrefixOfPrefix(InsertEdges(o2, edges[1..]), o2, order);
      TouchedCons(edges);
    }
  }

  /**
   * The node order of `to_NetworkX(g)`, which `nx.transitive_closure`
   * copies: `range(count)`, then the ends of the edges that are new, in
   * `get_edges` order. A node without edges is there only below `count`.
   */
  function NetworkXOrder(g: Graph<nat>, count: nat): (o: seq<nat>)
    requires Valid(g)
    ensures NoDup(o)
    ensures forall y: nat :: y in o <==> y < count || y in Touched(EdgeSet(g))
    ensures |o| >= count && o[..count] == Upto(count)
  {
    assert (set e | e in EdgeList(g)) == EdgeSet(g);
    InsertEdgesSpec(Upto(count), EdgeList(g));
    InsertEdges(Upto(count), EdgeList(g))
  }

  /** Adding edges between nodes that are all there already keeps the order. */
  lemma {:induction false} InsertKnown(order: seq<nat>, edges: seq<(nat, nat)>)
    requires forall k :: 0 <= k < |edges| ==> edges[k].0 in order && edges[k].1 in order
    ensures InsertEdges(order, edges) == order
    decreases |edges|
  {
    if edges != [] {
      InsertKnown(order, edges[1..]);
    }
  }

  /**
   * When `count` exceeds every node with an edge, the node order is
   * `range(count)`, the same for every graph built with that `count`.
   */
  lemma AlignedBelowCount(g: Graph<nat>, count: nat)
    requires Valid(g) && forall e :: e in EdgeSet(g) ==> e.0 < count && e.1 < count
    ensures NetworkXOrder(g, count) == Upto(count)
  {
    var es := EdgeList(g);
    forall k | 0 <= k < |es| ensures es[k].0 in Upto(count) && es[k].1 in Upto(count) {
      assert es[k] in es;
      assert Upto(count)[es[k].0] == es[k].0 && Upto(count)[es[k].1] == es[k].1;
    }
    InsertKnown(Upto(count), es);
  }

  /** The index pairs `(i, j)` whose instructions `order[i] -> order[j]` are an edge of `r`. */
  function Positions(r: set<(nat, nat)>, order: seq<nat>): (p: set<(nat, nat)>)
    ensures forall i: nat, j: nat :: (i, j) in p <==> i < |order| && j < |order| && (order[i], order[j]) in r
  {
    set i: nat, j: nat | i < |order| && j < |order| && (order[i], order[j]) in r :: (i, j)
  }

  /** The matrix over a graph's own node order is the matrix of its positions over `0 .. n - 1`. */
  lemma AdjacencyIsPositions(r: set<(nat, nat)>, order: seq<nat>)
    ensures Adjacency(r, order) == Adjacency(Positions(r, order), Upto(|order|))
    ensures Within(Positions(r, order), Upto(|order|))
  {
    var a, b := Adjacency(r, order), Adjacency(Positions(r, order), Upto(|order|));
    forall i | 0 <= i < |order| ensures a[i] == b[i] {
      forall j | 0 <= j < |order| ensures a[i][j] == b[i][j] {
        assert Upto(|order|)[i] == i && Upto(|order|)[j] == j;
      }
    }
    forall e | e in Positions(r, order) ensures e.0 in Upto(|order|) && e.1 in Upto(|order|) {
      assert Upto(|order|)[e.0] == e.0 && Upto(|order|)[e.1] == e.1;
    }
  }

  /**
   * Line 254 as written: `nx.adjacency_matrix` gets no node list, so each
   * matrix is indexed by its own graph's node order. Matrices of different
   * sizes do not subtract (`None`); otherwise the squared norm counts the
   * positions `(i, j)` on which the two graphs disagree, whichever nodes
   * sit at those positions.
   */
  function OwnOrderDistance(r1: set<(nat, nat)>, o1: seq<nat>, r2: set<(nat, nat)>, o2: seq<nat>): (d: Option<nat>)
    ensures d.Some? <==> |o1| == |o2|
    ensures d.Some? ==> d.value == |SymDiff(Positions(r1, o1), Positions(r2, o2))|
    ensures d.Some? ==> (d.value == 0 <==> Positions(r1, o1) == Positions(r2, o2))
  {
    if |o1| == |o2| then
      AdjacencyIsPositions(r1, o1);
      AdjacencyIsPositions(r2, o2);
      ZeroIffEqual(Positions(r1, o1), Positions(r2, o2), Upto(|o1|));
      FrobeniusIsSymDiff(Positions(r1, o1), Positions(r2, o2), Upto(|o1|));
      Some(FrobeniusSq(Adjacency(r1, o1), Adjacency(r2, o2)))
    else
      None
  }

  /** On a shared order the comparison as written is the one over a shared instruction list. */
  lemma OwnOrderShared(r1: set<(nat, nat)>, r2: set<(nat, nat)>, nodes: seq<nat>)
    requires NoDup(nodes) && Within(r1, nodes) && Within(r2, nodes)
    ensures OwnOrderDistance(r1, nodes, r2, nodes) == Some(|SymDiff(r1, r2)|)
  {
    FrobeniusIsSymDiff(r1, r2, nodes);
  }

  /**
   * When every instruction with an edge is below a common `count`, both
   * graphs get the node order `range(count)`, and the comparison as written
   * is the one over a shared instruction list: it counts the disagreeing
   * edges, and is zero exactly for equal relations.
   */
  lemma AlignedComparison(g1: Graph<nat>, g2: Graph<nat>, r1: set<(nat, nat)>, r2: set<(nat, nat)>, count: nat)
    requires Valid(g1) && forall e :: e in EdgeSet(g1) ==> e.0 < count && e.1 < count
    requires Valid(g2) && forall e :: e in EdgeSet(g2) ==> e.0 < count && e.1 < count
    requires Within(r1, Upto(count)) && Within(r2, Upto(count))
    ensures OwnOrderDistance(r1, NetworkXOrder(g1, count), r2, NetworkXOrder(g2, count)) == Some(|SymDiff(r1, r2)|)
    ensures OwnOrderDistance(r1, NetworkXOrder(g1, count), r2, NetworkXOrder(g2, count)) == Some(0) <==> r1 == r2
  {
    AlignedBelowCount(g1, count);
    AlignedBelowCount(g2, count);
    OwnOrderShared(r1, r2, Upto(count));
    ZeroIffEqual(r1, r2, Upto(count));
    FrobeniusIsSymDiff(r1, r2, Upto(count));
  }

  /** `add_node` of a node already present. */
  lemma InsertOld(order: seq<nat>, k: nat)
    requires k < |order|
    ensures Insert(order, order[k]) == order
  {
  }

  /** `add_node` of a node not yet present, checked against each present one. */
  lemma InsertNew(order: seq<nat>, x: nat)
    requires forall k :: 0 <= k < |order| ==> order[k] != x
    ensures Insert(order, x) == order + [x]
  {
  }

  /** `add_edge` over the walk `0 -> 1, 0 -> 2, 1 -> 2` orders the nodes `[0, 1, 2]`. */
  lemma WalkZeroFirst(e1: seq<(nat, nat)>)
    requires e1 == [(0, 1), (0, 2), (1, 2)]
    ensures InsertEdges([], e1) == [0, 1, 2]
  {
    assert InsertEdges([], e1) == InsertEdges([0, 1], e1[1..]) by {
      assert e1 != [] && e1[0] == (0, 1);
      InsertNew([], 0);
      InsertNew([0], 1);
      assert [0] + [1] == [0, 1];
      assert Insert(Insert([], 0), 1) == [0, 1];
    }
    assert InsertEdges([0, 1], e1[1..]) == InsertEdges([0, 1, 2], e1[2..]) by {
      InsertOld([0, 1], 0);
      InsertNew([0, 1], 2);
      assert [0, 1] + [2] == [0, 1, 2];
    }
    assert InsertEdges([0, 1, 2], e1[2..]) == [0, 1, 2] by {
      assert e1[2..] == [(1, 2)];
      InsertKnown([0, 1, 2], e1[2..]);
    }
  }

  /** `add_edge` over the walk `1 -> 2, 0 -> 1, 0 -> 2` orders the nodes `[1, 2, 0]`. */
  lemma WalkOneFirst(e2: seq<(nat, nat)>)
    requires e2 == [(1, 2), (0, 1), (0, 2)]
    ensures InsertEdges([], e2) == [1, 2, 0]
  {
    assert InsertEdges([], e2) == InsertEdges([1, 2], e2[1..]) by {
      assert e2 != [] && e2[0] == (1, 2);
      InsertNew([], 1);
      InsertNew([1], 2);
      assert [1] + [2] == [1, 2];
      assert Insert(Insert([], 1), 2) == [1, 2];
    }
    assert InsertEdges([1, 2], e2[1..]) == InsertEdges([1, 2, 0], e2[2..]) by {
      InsertNew([1, 2], 0);
      assert [1, 2] + [0] == [1, 2, 0];
      InsertOld([1, 2, 0], 0);
    }
    assert InsertEdges([1, 2, 0], e2[2..]) == [1, 2, 0] by {
      assert e2[2..] == [(0, 2)];
      InsertKnown([1, 2, 0], e2[2..]);
    }
  }

  /** Over `0 .. n - 1` in order, every edge sits at its own position. */
  lemma PositionsOfUpto(r: set<(nat, nat)>, n: nat)
    requires Within(r, Upto(n))
    ensures Positions(r, Upto(n)) == r
  {
    var o := Upto(n);
    forall e | e in r ensures e in Positions(r, o) {
      assert o[e.0] == e.0 && o[e.1] == e.1;
    }
    forall e | e in Positions(r, o) ensures e in r {
      assert o[e.0] == e.0 && o[e.1] == e.1;
    }
  }

  /** The positions of `{0 -> 1, 1 -> 2, 0 -> 2}` in the order `[1, 2, 0]`. */
  lemma RotatedPositions(r: set<(nat, nat)>, o: seq<nat>)
    requires r == {(0, 1), (1, 2), (0, 2)} && o == [1, 2, 0]
    ensures Positions(r, o) == {(0, 1), (2, 0), (2, 1)}
  {
    var q := Positions(r, o);
    forall e | e in q ensures e in {(0, 1), (2, 0), (2, 1)} {
      var i, j := e.0, e.1;
      assert (o[i], o[j]) in r;
      assert i < 3 && j < 3;
      if i == 0 {
        assert o[j] == 2;
      } else if i == 1 {
        assert false;
      }
    }
    assert (o[0], o[1]) in r && (o[2], o[0]) in r && (o[2], o[1]) in r;
  }

  /** `{0 -> 1}` in order `[0, 1]` and `{1 -> 0}` in order `[1, 0]` sit at the same positions. */
  lemma SwappedPositions()
    ensures Positions({(0, 1)}, [0, 1]) == Positions({(1, 0)}, [1, 0]) == {(0, 1)}
  {
    var p, q := Positions({(0, 1)}, [0, 1]), Positions({(1, 0)}, [1, 0]);
    forall e | e in p ensures e == (0, 1) {
      assert e.0 < 2 && e.1 < 2;
    }
    forall e | e in q ensures e == (0, 1) {
      assert e.0 < 2 && e.1 < 2;
    }
    assert ([1, 0][0], [1, 0][1]) in {(1, 0)};
  }

  /** The two walks list the same three edges. */
  lemma EqualWalks(w1: seq<(nat, nat)>, w2: seq<(nat, nat)>, r: set<(nat, nat)>)
    requires w1 == [(0, 1), (0, 2), (1, 2)] && w2 == [(1, 2), (0, 1), (0, 2)] && r == {(0, 1), (1, 2), (0, 2)}
    ensures (set e | e in w1) == r && (set e | e in w2) == r
  {
  }

  /** The positions on which `[0, 1, 2]` and `[1, 2, 0]` disagree for `{0 -> 1, 1 -> 2, 0 -> 2}`. */
  lemma RotatedDiff(p: set<(nat, nat)>, q: set<(nat, nat)>)
    requires p == {(0, 1), (1, 2), (0, 2)} && q == {(0, 1), (2, 0), (2, 1)}
    ensures |SymDiff(p, q)| == 4
  {
    var s: set<(nat, nat)> := {(1, 2), (0, 2)};
    assert |s| == 2;
    assert |s + {(2, 0)}| == 3;
    assert SymDiff(p, q) == s + {(2, 0)} + {(2, 1)};
  }

  lemma RotatedDistance(r: set<(nat, nat)>)
    requires r == {(0, 1), (1, 2), (0, 2)}
    ensures OwnOrderDistance(r, [0, 1, 2], r, [1, 2, 0]) == Some(4)
  {
    assert Upto(3) == [0, 1, 2];
    assert Within(r, Upto(3));
    PositionsOfUpto(r, 3);
    RotatedPositions(r, [1, 2, 0]);
    RotatedDiff(Positions(r, [0, 1, 2]), Positions(r, [1, 2, 0]));
  }

  /**
   * The comparison as written on equal relations. An adjacency list holding
   * `0: [1, 2]` and `1: [2]`, with key `0` inserted first, is walked as
   * `0 -> 1, 0 -> 2, 1 -> 2`; with key `1` inserted first, as
   * `1 -> 2, 0 -> 1, 0 -> 2`. Built with `count=0`, the two networkx graphs
   * have the node orders `[0, 1, 2]` and `[1, 2, 0]`, and the source's
   * entry is 2.0 (squared, 4) instead of 0. Conversely `{0 -> 1}` in order
   * `[0, 1]` and `{1 -> 0}` in order `[1, 0]` get 0.
   */
  lemma MisalignedComparison(w1: seq<(nat, nat)>, w2: seq<(nat, nat)>)
    requires w1 == [(0, 1), (0, 2), (1, 2)] && w2 == [(1, 2), (0, 1), (0, 2)]
    ensures (set e | e in w1) == (set e | e in w2)
    ensures OwnOrderDistance((set e | e in w1), InsertEdges(Upto(0), w1), (set e | e in w2), InsertEdges(Upto(0), w2)) == Some(4)
    ensures OwnOrderDistance({(0, 1)}, [0, 1], {(1, 0)}, [1, 0]) == Some(0)
  {
    var r := {(0, 1), (1, 2), (0, 2)};
    EqualWalks(w1, w2, r);
    assert Upto(0) == [];
    WalkZeroFirst(w1);
    WalkOneFirst(w2);
    RotatedDistance(r);
    SwappedPositions();
  }

  /**
   * A transitive relation made of the edges of `r` and of compositions of
   * two of them is the transitive closure of `r`.
   */
  lemma ClosureByOneStep(r: set<(nat, nat)>, t: set<(nat, nat)>)
    requires r <= t && Transitive(t) && t <= r + Compose(r, r)
    ensures TransClosure(r) == t
  {
    ClosureLeast(r, t);
    var c := TransClosure(r);
    forall e | e in t ensures e in c {
      if e !in r {
        ComposeWitness(r, r, e);
      }
    }
  }

  lemma ShortcutTransitive(shortcut: set<(nat, nat)>)
    requires shortcut == {(0, 1), (1, 2), (0, 2)}
    ensures Transitive(shortcut)
  {
    forall a, b, c | (a, b) in shortcut && (b, c) in shortcut ensures (a, c) in shortcut {
      assert (a, b) == (0, 1) && (b, c) == (1, 2);
    }
  }

  lemma ScenarioShapes(chain: set<(nat, nat)>, shortcut: set<(nat, nat)>, first: set<(nat, nat)>)
    requires chain == {(0, 1), (1, 2)} && shortcut == chain + {(0, 2)} && first == {(0, 1)}
    ensures chain <= shortcut <= chain + Compose(chain, chain)
    ensures Transitive(shortcut) && Transitive(first)
  {
    assert (0, 2) in Compose(chain, chain) by {
      assert (0, 1) in chain && (1, 2) in chain;
    }
    assert shortcut == {(0, 1), (1, 2), (0, 2)};
    ShortcutTransitive(shortcut);
  }

  /** The closures of the three relations of the scenario below. */
  lemma ScenarioClosures(chain: set<(nat, nat)>, shortcut: set<(nat, nat)>, first: set<(nat, nat)>)
    requires chain == {(0, 1), (1, 2)} && shortcut == chain + {(0, 2)} && first == {(0, 1)}
    ensures TransClosure(chain) == shortcut && TransClosure(shortcut) == shortcut && TransClosure(first) == first
  {
    ScenarioShapes(chain, shortcut, first);
    ClosureByOneStep(chain, shortcut);
    ClosureOfTransitive(shortcut);
    ClosureOfTransitive(first);
  }

  lemma ScenarioDiff(shortcut: set<(nat, nat)>, first: set<(nat, nat)>)
    requires shortcut == {(0, 1), (1, 2), (0, 2)} && first == {(0, 1)}
    ensures |SymDiff(shortcut, first)| == 2
  {
    assert first <= shortcut;
    assert SymDiff(shortcut, first) == shortcut - first;
    assert shortcut - first == {(1, 2), (0, 2)};
  }

  lemma ScenarioNodes(shortcut: set<(nat, nat)>, first: set<(nat, nat)>, nodes: seq<nat>)
    requires shortcut == {(0, 1), (1, 2), (0, 2)} && first == {(0, 1)}
    requires nodes == [0, 1, 2, 3]
    ensures NoDup(nodes) && Within(shortcut, nodes) && Within(first, nodes)
  {
    assert nodes[0] == 0 && nodes[1] == 1 && nodes[2] == 2;
    forall i, j | 0 <= i < j < |nodes| ensures nodes[i] != nodes[j] {
      assert nodes[i] == i && nodes[j] == j;
    }
  }

  lemma ScenarioDistances(shortcut: set<(nat, nat)>, first: set<(nat, nat)>, nodes: seq<nat>)
    requires shortcut == {(0, 1), (1, 2), (0, 2)} && first == {(0, 1)}
    requires nodes == [0, 1, 2, 3]
    ensures FrobeniusSq(Adjacency(shortcut, nodes), Adjacency(shortcut, nodes)) == 0
    ensures FrobeniusSq(Adjacency(shortcut, nodes), Adjacency(first, nodes)) == 2
    ensures FrobeniusSq(Adjacency(first, nodes), Adjacency(shortcut, nodes)) == 2
  {
    ScenarioNodes(shortcut, first, nodes);
    ScenarioDiff(shortcut, first);
    SelfZero(Adjacency(shortcut, nodes), |nodes|);
    FrobeniusIsSymDiff(shortcut, first, nodes);
    DistanceSymmetric(shortcut, first, nodes);
  }

  /** The matrix entries of the scenario below, once the closures are known. */
  lemma ScenarioEntries(graphs: seq<set<(nat, nat)>>, shortcut: set<(nat, nat)>, first: set<(nat, nat)>, nodes: seq<nat>)
    requires shortcut == {(0, 1), (1, 2), (0, 2)} && first == {(0, 1)}
    requires nodes == [0, 1, 2, 3] && graphs == [shortcut, shortcut, first]
    ensures Dissimilarity(graphs, nodes, 0, 1) == 0
    ensures Dissimilarity(graphs, nodes, 0, 2) == 2
    ensures Dissimilarity(graphs, nodes, 1, 2) == 2
  {
    ScenarioDistances(shortcut, first, nodes);
    assert graphs[0] == shortcut && graphs[1] == shortcut && graphs[2] == first;
  }

  /**
   * Three tools on a four-instruction function: a chain, the same chain
   * with its shortcut, and the chain's first edge alone. After closure the
   * first two agree, and the third misses two edges, so its norm from each
   * of them is the square root of 2.
   */
  lemma ThreeToolScenario(chain: set<(nat, nat)>, shortcut: set<(nat, nat)>, first: set<(nat, nat)>, nodes: seq<nat>)
    requires chain == {(0, 1), (1, 2)} && shortcut == chain + {(0, 2)} && first == {(0, 1)}
    requires nodes == [0, 1, 2, 3]
    ensures var graphs := [TransClosure(chain), TransClosure(shortcut), TransClosure(first)];
      Dissimilarity(graphs, nodes, 0, 1) == 0 &&
      Dissimilarity(graphs, nodes, 0, 2) == 2 &&
      Dissimilarity(graphs, nodes, 1, 2) == 2
  {
    ScenarioClosures(chain, shortcut, first);
    assert shortcut == {(0, 1), (1, 2), (0, 2)};
    ScenarioEntries([TransClosure(chain), TransClosure(shortcut), TransClosure(first)], shortcut, first, nodes);
  }
}

=== FILE: digits.dfy ===
/**
 * Decimal digit strings: what the `\d+` groups of the dump patterns capture
 * and what `int(...)` turns into a number, plus a greedy scanner for a run
 * of digits inside a longer string.
 */
module Digits {
  import opened Wrappers
  import opened Text

  predicate IsDigit(c: char) {
    '0' <= c <= '9'
  }

  predicate AllDigits(s: string) {
    forall i :: 0 <= i < |s| ==> IsDigit(s[i])
  }

  /** A non-empty run of decimal digits, as one `(\d+)` group captures. */
  type DigitString = s: string | |s| > 0 && AllDigits(s) witness "0"

  /** The digit strings `str(n)` prints: no leading zero except for "0" itself. */
  predicate Canonical(s: string) {
    |s| > 0 && AllDigits(s) && (s[0] == '0' ==> |s| == 1)
  }

  function DigitValue(c: char): nat
    requires IsDigit(c)
  {
    c as int - '0' as int
  }

  function DigitChar(d: nat): char
    requires d < 10
  {
    ('0' as int + d) as char
  }

  /** `int(s)` for a string of decimal digits. */
  function Value(s: string): nat
    requires AllDigits(s)
    decreases |s|
  {
    if |s| == 0 then 0 else Value(s[..|s| - 1]) * 10 + DigitValue(s[|s| - 1])
  }

  /** `str(n)` for a natural number. */
  function Show(n: nat): (s: string)
    ensures |s| > 0 && AllDigits(s)
    decreases n
  {
    if n < 10 then [DigitChar(n)] else Show(n / 10) + [DigitChar(n % 10)]
  }

  lemma {:induction false} ValueOfShow(n: nat)
    ensures Value(Show(n)) == n
    decreases n
  {
    if n >= 10 {
      var s := Show(n);
      assert s[..|s| - 1] == Show(n / 10);
      ValueOfShow(n / 10);
    }
  }

  lemma {:induction false} ShowIsCanonical(n: nat)
    ensures Canonical(Show(n))
    decreases n
  {
    if n >= 10 {
      ShowIsCanonical(n / 10);
      assert Show(n)[0] == Show(n / 10)[0];
    }
  }

  /** A canonical digit string with a non-zero leading digit has a positive value. */
  lemma {:induction false} LeadingDigitPositive(s: string)
    requires |s| > 0 && AllDigits(s) && s[0] != '0'
    ensures Value(s) >= 1
    decreases |s|
  {
    if |s| > 1 {
      LeadingDigitPositive(s[..|s| - 1]);
    }
  }

  /** Printing the value of a canonical digit string gives the string back. */
  lemma {:induction false} ShowOfValue(s: string)
    requires Canonical(s)
    ensures Show(Value(s)) == s
    decreases |s|
  {
    if |s| > 1 {
      var p := s[..|s| - 1];
      LeadingDigitPositive(p);
      var d := DigitValue(s[|s| - 1]);
      assert Value(s) == Value(p) * 10 + d;
      assert Value(s) / 10 == Value(p) && Value(s) % 10 == d;
      ShowOfValue(p);
      assert s == p + [s[|s| - 1]];
    }
  }

  /** On canonical strings, comparing the text and comparing the numbers agree. */
  lemma CanonicalTextEqualsValueEq(a: string, b: string)
    requires Canonical(a) && Canonical(b)
    ensures a == b <==> Value(a) == Value(b)
  {
    if Value(a) == Value(b) {
      ShowOfValue(a);
      ShowOfValue(b);
    }
  }

  /** Zero padding: two different digit strings with the same value. */
  lemma PaddedDigitsSameValue()
    ensures "05" != "5" && Value("05") == Value("5") == 5
  {
    assert "05"[..1] == "0";
  }

  /**
   * The digits from position `i` on, accumulated left to right onto `acc`:
   * the value read and the position of the first non-digit (or the end).
   */
  function ScanFrom(s: string, i: nat, acc: nat): (r: (nat, nat))
    requires i <= |s|
    ensures i <= r.1 <= |s|
    ensures r.1 == |s| || !IsDigit(s[r.1])
    decreases |s| - i
  {
    if i < |s| && IsDigit(s[i]) then ScanFrom(s, i + 1, acc * 10 + DigitValue(s[i])) else (acc, i)
  }

  /**
   * `(\d+)` matched at position `i`: its value and the position after it.
   * Greedy scanning agrees with the regex engine in every pattern of this
   * model, because each `\d+` there is followed by a non-digit literal or by
   * the end of the pattern.
   */
  function ScanNat(s: string, i: nat): (r: Option<(nat, nat)>)
    requires i <= |s|
    ensures r.None? <==> i == |s| || !IsDigit(s[i])
    ensures r.Some? ==> i < r.value.1 <= |s|
    ensures r.Some? ==> r.value.1 == |s| || !IsDigit(s[r.value.1])
  {
    if i < |s| && IsDigit(s[i]) then Some(ScanFrom(s, i, 0)) else None
  }

  /** Appending one digit to a digit string shifts its value by one place. */
  lemma ValueSnoc(w: string, k: nat)
    requires AllDigits(w) && k < |w|
    ensures Value(w[..k + 1]) == Value(w[..k]) * 10 + DigitValue(w[k])
  {
    assert w[..k + 1][..k] == w[..k];
  }

  /** What `ScanFrom` reads is a run of digits, and it adds that run's value onto `acc`. */
  lemma {:induction false} ScanFromSound(s: string, start: nat, j: nat, acc: nat)
    requires start <= j <= |s| && AllDigits(s[start..j]) && acc == Value(s[start..j])
    ensures var r := ScanFrom(s, j, acc);
      AllDigits(s[start..r.1]) && r.0 == Value(s[start..r.1])
    decreases |s| - j
  {
    if j < |s| && IsDigit(s[j]) {
      var t := s[start..j + 1];
      assert t[..j - start] == s[start..j];
      assert AllDigits(t);
      ValueSnoc(t, j - start);
      assert t[..j - start + 1] == t;
      ScanFromSound(s, start, j + 1, acc * 10 + DigitValue(s[j]));
    }
  }

  /** What `ScanNat` reads is the run of digits it stops after, and the value of that run. */
  lemma ScanNatSound(s: string, i: nat)
    requires i <= |s|
    ensures var r := ScanNat(s, i);
      r.Some? ==> AllDigits(s[i..r.value.1]) && r.value.0 == Value(s[i..r.value.1])
  {
    if i < |s| && IsDigit(s[i]) {
      assert s[i..i] == [];
      ScanFromSound(s, i, i, 0);
    }
  }

  /** Position `j` ends a run of digits: the text ends there or a non-digit follows. */
  predicate RunEnds(s: string, j: nat) {
    j == |s| || (j < |s| && !IsDigit(s[j]))
  }

  /** Scanning through a known run of digits `w` ends at its end with its value. */
  lemma {:induction false} ScanFromRun(s: string, i: nat, w: string, k: nat)
    requires AllDigits(w) && k <= |w|
    requires At(s, i, w) && RunEnds(s, i + |w|)
    ensures ScanFrom(s, i + k, Value(w[..k])) == (Value(w), i + |w|)
    decreases |w| - k
  {
    if k == |w| {
      assert w[..k] == w;
    } else {
      AtIndex(s, i, w, k);
      ValueSnoc(w, k);
      ScanFromRun(s, i, w, k + 1);
    }
  }

  /** Scanning a run of digits that is followed by a non-digit reads its value. */
  lemma ScanDigits(s: string, i: nat, w: string)
    requires |w| > 0 && AllDigits(w)
    requires At(s, i, w) && RunEnds(s, i + |w|)
    ensures ScanNat(s, i) == Some((Value(w), i + |w|))
  {
    assert w[..0] == [];
    ScanFromRun(s, i, w, 0);
  }
}

=== FILE: dispatch.dfy ===
/**
 * `build_graph_from_dot(dot, mark)`: picks the reconstructor by the name
 * of the tool that produced the dump, and rejects any other name.
 */
module Dispatch {
  import opened Wrappers
  import opened Closure
  import opened Dot
  import Wassail
  import Wasma
  import Binaryen

  /** The tools whose dumps can be read. */
  datatype Tool = WassailTool | WasmaTool | BinaryenTool

  /** The `ValueError` raised for an unknown mark. */
  datatype BuildError = UnknownMark(mark: string)

  /** The mark naming a tool. */
  function MarkOf(t: Tool): string {
    match t
    case WassailTool => "wassail"
    case WasmaTool => "wasma"
    case BinaryenTool => "binaryen"
  }

  /** The tool a mark names, or the error for a mark that names none. */
  function ParseMark(mark: string): (r: Result<Tool, BuildError>)
    ensures r.Ok? ==> MarkOf(r.value) == mark
    ensures r.Err? <==> forall t: Tool :: MarkOf(t) != mark
    ensures r.Err? ==> r.error == UnknownMark(mark)
  {
    if mark == "wassail" then Ok(WassailTool)
    else if mark == "wasma" then Ok(WasmaTool)
    else if mark == "binaryen" then Ok(BinaryenTool)
    else Err(UnknownMark(mark))
  }

  /** Reading back the mark of a tool gives the tool. */
  lemma MarkRoundTrip(t: Tool)
    ensures ParseMark(MarkOf(t)) == Ok(t)
  {
  }

  /**
   * `build_graph_from_dot`: the dependence relation reconstructed from a
   * dump by the tool `mark` names.
   */
  method BuildGraphFromDot(dot: DotGraph, mark: string) returns (r: Result<set<(nat, nat)>, BuildError>)
    ensures r.Err? <==> mark != "wassail" && mark != "wasma" && mark != "binaryen"
    ensures r.Err? ==> r.error == UnknownMark(mark)
    ensures mark == "wassail" ==> r == Ok(Wassail.Build(dot))
    ensures mark == "wasma" ==> r == Ok(Wasma.Build(dot))
    ensures mark == "binaryen" ==> r == Ok(TransClosure(Binaryen.LineEdges(dot, Binaryen.ByText)))
    ensures r.Ok? ==> Transitive(r.value)
  {
    match ParseMark(mark)
    case Err(e) =>
      assert MarkOf(WassailTool) != mark && MarkOf(WasmaTool) != mark && MarkOf(BinaryenTool) != mark;
      r := Err(e);
    case Ok(WassailTool) =>
      r := Ok(Wassail.Build(dot));
    case Ok(WasmaTool) =>
      r := Ok(Wasma.Build(dot));
    case Ok(BinaryenTool) =>
      var c := Binaryen.Build(dot);
      r := Ok(c);
  }
}

=== FILE: dot.dfy ===
/**
 * The already-parsed DOT dump the reconstructors read, and the two edge
 * patterns they match against `source + " -> " + destination`.
 *
 * Node labels and the `debugLoc` attribute are matched by patterns this
 * model does not re-implement; each node carries what those patterns
 * capture.
 */
module Dot {
  import opened Wrappers
  import opened Text
  import opened Digits

  /** One `index:opcode` record, after `split(":")` and `strip()`. */
  datatype InstrRecord = InstrRecord(index: nat, opcode: string)

  /**
   * A parsed DOT node.
   * - `records`: the instruction records of a wassail label, in label order;
   * - `header`: the `#k+index:content` match of a wasma label, if any;
   * - `debugLine`: the `Line: (\d+)` group of a binaryen `debugLoc`
   *   attribute, if the attribute is present and matches.
   */
  datatype DotNode = DotNode(
    name: string,
    text: string,
    records: seq<InstrRecord>,
    header: Option<InstrRecord>,
    debugLine: Option<DigitString>)

  datatype DotEdge = DotEdge(source: string, destination: string)

  datatype DotGraph = DotGraph(nodes: seq<DotNode>, edges: seq<DotEdge>)

  /** The string both edge patterns are matched against. */
  function EdgeText(e: DotEdge): string {
    e.source + " -> " + e.destination
  }

  /** The literal `lit` occurs at position `i`: the position after it, if so. */
  function ScanLiteral(s: string, i: nat, lit: string): (r: Option<nat>)
    requires i <= |s|
    ensures r.Some? <==> At(s, i, lit)
    ensures r.Some? ==> r.value == i + |lit|
  {
    if At(s, i, lit) then Some(i + |lit|) else None
  }

  /** A literal followed by `(\d+)` at position `i`: the number and the position after it. */
  function ScanNumberAfter(s: string, i: nat, lit: string): (r: Option<(nat, nat)>)
    requires i <= |s|
    ensures r.Some? ==> i + |lit| < r.value.1 <= |s|
  {
    match ScanLiteral(s, i, lit)
    case None => None
    case Some(k) => ScanNat(s, k)
  }

  /** `block\d+:instr(\d+)` at position `i`: the instruction number and the position after it. */
  function ScanBlockInstr(s: string, i: nat): (r: Option<(nat, nat)>)
    requires i <= |s|
    ensures r.Some? ==> i < r.value.1 <= |s|
  {
    match ScanNumberAfter(s, i, "block")
    case None => None
    case Some((_, k)) => ScanNumberAfter(s, k, ":instr")
  }

  /**
   * `re.match(r"block\d+:instr(\d+) -> block\d+:instr(\d+)", text)`: the two
   * instruction numbers. Like `re.match`, only a prefix of the text has to
   * match.
   */
  function MatchWassailEdge(e: DotEdge): Option<(nat, nat)> {
    MatchWassailText(EdgeText(e))
  }

  function MatchWassailText(s: string): Option<(nat, nat)> {
    match ScanBlockInstr(s, 0)
    case None => None
    case Some((x, i1)) =>
      match ScanLiteral(s, i1, " -> ")
      case None => None
      case Some(i2) =>
        match ScanBlockInstr(s, i2)
        case None => None
        case Some((y, _)) => Some((x, y))
  }

  /** `re.match(r"(\d+) -> (\d+)", text)`: the two numbers, in text order. */
  function MatchWasmaEdge(e: DotEdge): Option<(nat, nat)> {
    MatchWasmaText(EdgeText(e))
  }

  function MatchWasmaText(s: string): Option<(nat, nat)> {
    match ScanNat(s, 0)
    case None => None
    case Some((a, i1)) =>
      match ScanLiteral(s, i1, " -> ")
      case None => None
      case Some(i2) =>
        match ScanNat(s, i2)
        case None => None
        case Some((b, _)) => Some((a, b))
  }

  /** The successful results of `parse` over the edges, in edge order. */
  function Matches<T>(edges: seq<DotEdge>, parse: DotEdge -> Option<T>): (ps: seq<T>)
    ensures forall p :: p in ps ==> exists k :: 0 <= k < |edges| && parse(edges[k]) == Some(p)
    ensures forall k :: 0 <= k < |edges| && parse(edges[k]).Some? ==> parse(edges[k]).value in ps
    decreases |edges|
  {
    if |edges| == 0 then []
    else
      var tail := Matches(edges[1..], parse);
      assert forall k :: 1 <= k < |edges| ==> edges[1..][k - 1] == edges[k];
      match parse(edges[0])
      case None => tail
      case Some(p) => [p] + tail
  }

  /** The text `block<b>:instr<x>` for two digit strings. */
  function BlockInstrText(b: string, x: string): string {
    "block" + b + ":instr" + x
  }

  /** The wassail node name of instruction `instr` in block `block`. */
  function BlockInstrName(block: nat, instr: nat): string {
    BlockInstrText(Show(block), Show(instr))
  }

  predicate StartsWithNonDigit(s: string) {
    |s| == 0 || !IsDigit(s[0])
  }

  /** The scan succeeds exactly when the next |lit| characters spell `lit`, and then skips them. */
  lemma ScanLiteralSpec(s: string, i: nat, lit: string)
    requires i <= |s|
    ensures ScanLiteral(s, i, lit).Some? <==> i + |lit| <= |s| && s[i..i + |lit|] == lit
    ensures ScanLiteral(s, i, lit).Some? ==> ScanLiteral(s, i, lit).value - i == |lit|
  {
    AtSlice(s, i, lit);
  }

  /** A literal that occurs at `i` is found there. */
  lemma ScanLiteralAt(s: string, i: nat, lit: string)
    requires At(s, i, lit)
    ensures ScanLiteral(s, i, lit) == Some(i + |lit|)
  {
  }

  /** A literal that starts with a non-digit ends any digit run just before it. */
  lemma LiteralEndsRun(s: string, i: nat, lit: string)
    requires At(s, i, lit) && |lit| > 0 && !IsDigit(lit[0])
    ensures RunEnds(s, i)
  {
  }

  /** A run of digits that occurs at `i` and is not continued is scanned whole. */
  lemma ScanNatAt(s: string, i: nat, w: DigitString)
    requires At(s, i, w) && RunEnds(s, i + |w|)
    ensures ScanNat(s, i) == Some((Value(w), i + |w|))
  {
    ScanDigits(s, i, w);
  }

  /** The three pieces of `a + m + (v + rest)`, one lemma each. */
  lemma LayoutFirst(a: string, m: string, v: string, rest: string)
    ensures At(a + m + (v + rest), 0, a)
  {
    AtLeft(a, m);
    AtExtend(a + m, v + rest, 0, a);
  }

  lemma LayoutSecond(a: string, m: string, v: string, rest: string)
    ensures At(a + m + (v + rest), |a|, m)
  {
    AtRight(a, m);
    AtExtend(a + m, v + rest, |a|, m);
  }

  lemma LayoutThird(a: string, m: string, v: string, rest: string)
    ensures At(a + m + (v + rest), |a| + |m|, v)
  {
    AtMiddle(a + m, v, rest);
  }

  /** What follows `v` in `a + m + (v + rest)` is the start of `rest`. */
  lemma LayoutEnd(a: string, m: string, v: string, rest: string)
    requires StartsWithNonDigit(rest)
    ensures RunEnds(a + m + (v + rest), |a| + |m| + |v|)
  {
    if |rest| > 0 {
      assert (a + m + (v + rest))[|a| + |m| + |v|] == rest[0];
    }
  }

  /** Where the pieces of the text `u + " -> " + (v + rest)` sit. */
  lemma ArrowLayout(u: string, v: string, rest: string)
    requires StartsWithNonDigit(rest)
    ensures var s := u + " -> " + (v + rest);
      At(s, 0, u) && At(s, |u|, " -> ") && At(s, |u| + 4, v) && RunEnds(s, |u| + 4 + |v|)
  {
    LayoutFirst(u, " -> ", v, rest);
    LayoutSecond(u, " -> ", v, rest);
    LayoutThird(u, " -> ", v, rest);
    LayoutEnd(u, " -> ", v, rest);
  }

  /** The text of a wasma edge: two numbers joined by an arrow at the start of `s`. */
  lemma WasmaTextMatches(s: string, a: DigitString, b: DigitString)
    requires At(s, 0, a) && At(s, |a|, " -> ") && At(s, |a| + 4, b) && RunEnds(s, |a| + 4 + |b|)
    ensures MatchWasmaText(s) == Some((Value(a), Value(b)))
  {
    LiteralEndsRun(s, |a|, " -> ");
    ScanNatAt(s, 0, a);
    ScanLiteralAt(s, |a|, " -> ");
    ScanNatAt(s, |a| + 4, b);
  }

  /** Rendering a wasma edge between two numbered nodes and matching it gives the numbers back. */
  lemma WasmaEdgeRoundTrip(a: nat, b: nat, rest: string)
    requires StartsWithNonDigit(rest)
    ensures MatchWasmaEdge(DotEdge(Show(a), Show(b) + rest)) == Some((a, b))
  {
    ArrowLayout(Show(a), Show(b), rest);
    WasmaTextMatches(Show(a) + " -> " + (Show(b) + rest), Show(a), Show(b));
    ValueOfShow(a);
    ValueOfShow(b);
  }

  /** A literal followed by a run of digits that is not continued is scanned whole. */
  lemma ScanNumberAfterAt(s: string, i: nat, lit: string, w: DigitString)
    requires At(s, i, lit) && At(s, i + |lit|, w) && RunEnds(s, i + |lit| + |w|)
    ensures ScanNumberAfter(s, i, lit) == Some((Value(w), i + |lit| + |w|))
  {
    ScanLiteralAt(s, i, lit);
    ScanNatAt(s, i + |lit|, w);
  }

  /** Where `block<b>` and the `:instr` after it sit in a block-instruction name at `i`. */
  lemma BlockPieces(s: string, i: nat, b: string, x: string)
    requires At(s, i, BlockInstrText(b, x))
    ensures At(s, i, "block") && At(s, i + 5, b) && At(s, i + 5 + |b|, ":instr")
  {
    AtAppend(s, i, "block" + b + ":instr", x);
    AtAppend(s, i, "block" + b, ":instr");
    AtAppend(s, i, "block", b);
  }

  /** Where `:instr<x>` sits in a block-instruction name at `i`. */
  lemma InstrPieces(s: string, i: nat, b: string, x: string)
    requires At(s, i, BlockInstrText(b, x))
    ensures At(s, i + 5 + |b|, ":instr") && At(s, i + 5 + |b| + 6, x)
  {
    assert BlockInstrText(b, x) == ("block" + b) + (":instr" + x);
    AtAppend(s, i, "block" + b, ":instr" + x);
    AtAppend(s, i + 5 + |b|, ":instr", x);
  }

  /** The `block\d+` half of a block-instruction name is scanned whole. */
  lemma ScanBlockHalf(s: string, i: nat, b: DigitString, x: string)
    requires At(s, i, BlockInstrText(b, x))
    ensures ScanNumberAfter(s, i, "block") == Some((Value(b), i + 5 + |b|))
  {
    BlockPieces(s, i, b, x);
    LiteralEndsRun(s, i + 5 + |b|, ":instr");
    ScanNumberAfterAt(s, i, "block", b);
  }

  /** The `:instr(\d+)` half of a block-instruction name is scanned whole. */
  lemma ScanInstrHalf(s: string, i: nat, b: string, x: DigitString)
    requires At(s, i, BlockInstrText(b, x)) && RunEnds(s, i + 5 + |b| + 6 + |x|)
    ensures ScanNumberAfter(s, i + 5 + |b|, ":instr") == Some((Value(x), i + 5 + |b| + 6 + |x|))
  {
    InstrPieces(s, i, b, x);
    ScanNumberAfterAt(s, i + 5 + |b|, ":instr", x);
  }

  lemma ScanBlockInstrSteps(s: string, i: nat, k: nat, x: nat, j: nat)
    requires i <= |s|
    requires ScanNumberAfter(s, i, "block").Some? && ScanNumberAfter(s, i, "block").value.1 == k
    requires k <= |s| && ScanNumberAfter(s, k, ":instr") == Some((x, j))
    ensures ScanBlockInstr(s, i) == Some((x, j))
  {
  }

  /** A block-instruction name that occurs at `i` and is not continued by a digit is scanned whole. */
  lemma ScanBlockInstrAt(s: string, i: nat, b: DigitString, x: DigitString)
    requires At(s, i, BlockInstrText(b, x)) && RunEnds(s, i + |BlockInstrText(b, x)|)
    ensures ScanBlockInstr(s, i) == Some((Value(x), i + |BlockInstrText(b, x)|))
  {
    assert |BlockInstrText(b, x)| == 5 + |b| + 6 + |x|;
    ScanBlockHalf(s, i, b, x);
    ScanInstrHalf(s, i, b, x);
    ScanBlockInstrSteps(s, i, i + 5 + |b|, Value(x), i + 5 + |b| + 6 + |x|);
  }

  lemma WassailSteps(s: string, x: nat, i1: nat, i2: nat, y: nat, j: nat)
    requires i1 <= |s|
    requires ScanBlockInstr(s, 0) == Some((x, i1))
    requires ScanLiteral(s, i1, " -> ") == Some(i2)
    requires i2 <= |s| && ScanBlockInstr(s, i2) == Some((y, j))
    ensures MatchWassailText(s) == Some((x, y))
  {
  }

  /** The text of a wassail edge: two block-instruction names joined by an arrow at the start of `s`. */
  lemma WassailTextMatches(s: string, b1: DigitString, x: DigitString, b2: DigitString, y: DigitString)
    requires var n1, n2 := BlockInstrText(b1, x), BlockInstrText(b2, y);
      At(s, 0, n1) && At(s, |n1|, " -> ") && At(s, |n1| + 4, n2) && RunEnds(s, |n1| + 4 + |n2|)
    ensures MatchWassailText(s) == Some((Value(x), Value(y)))
  {
    var n1, n2 := BlockInstrText(b1, x), BlockInstrText(b2, y);
    LiteralEndsRun(s, |n1|, " -> ");
    ScanBlockInstrAt(s, 0, b1, x);
    ScanLiteralAt(s, |n1|, " -> ");
    ScanBlockInstrAt(s, |n1| + 4, b2, y);
    WassailSteps(s, Value(x), |n1|, |n1| + 4, Value(y), |n1| + 4 + |n2|);
  }

  /** Rendering a wassail edge and matching it gives back its two instruction numbers. */
  lemma WassailEdgeRoundTrip(b1: nat, x: nat, b2: nat, y: nat, rest: string)
    requires StartsWithNonDigit(rest)
    ensures MatchWassailEdge(DotEdge(BlockInstrName(b1, x), BlockInstrName(b2, y) + rest)) == Some((x, y))
  {
    var n1, n2 := BlockInstrName(b1, x), BlockInstrName(b2, y);
    ArrowLayout(n1, n2, rest);
    WassailTextMatches(n1 + " -> " + (n2 + rest), Show(b1), Show(x), Show(b2), Show(y));
    ValueOfShow(x);
    ValueOfShow(y);
  }
}

=== FILE: graph.dfy ===
/**
 * The adjacency-list `Graph` of src/graph.py: a dictionary from node id to
 * (text, list of successors). Python dictionaries iterate in insertion
 * order, so the model keeps that order next to the map.
 */
module AdjGraph {

  /** One dictionary entry: the node's text and its successors, in insertion order. */
  datatype Entry<N> = Entry(text: string, succs: seq<N>)

  /** `order` lists the keys of `adj` in the order they were inserted. */
  datatype Graph<N> = Graph(order: seq<N>, adj: map<N, Entry<N>>)

  predicate NoDup<T(==)>(s: seq<T>) {
    forall i, j :: 0 <= i < j < |s| ==> s[i] != s[j]
  }

  /**
   * What every graph built through `AddNode` and `AddEdge` satisfies: the key
   * order lists each key once, successor lists hold no duplicates, and every
   * successor is itself a node (no dangling edges).
   */
  ghost predicate Valid<N>(g: Graph<N>) {
    && NoDup(g.order)
    && (forall n :: n in g.adj ==> n in g.order)
    && (forall i :: 0 <= i < |g.order| ==> g.order[i] in g.adj)
    && (forall n :: n in g.adj ==> NoDup(g.adj[n].succs))
    && (forall n, m :: n in g.adj && m in g.adj[n].succs ==> m in g.adj)
  }

  function Empty<N>(): (g: Graph<N>)
    ensures Valid(g) && g.adj == map[] && EdgeSet(g) == {}
  {
    Graph([], map[])
  }

  /** The pairs `get_edges` enumerates, as a set. */
  function EdgeSet<N>(g: Graph<N>): set<(N, N)> {
    set a, b | a in g.adj && b in g.adj[a].succs :: (a, b)
  }

  /** `(a, b)` is an edge exactly when `b` is listed among the successors of the node `a`. */
  lemma EdgeSetMember<N>(g: Graph<N>, a: N, b: N)
    ensures (a, b) in EdgeSet(g) <==> a in g.adj && b in g.adj[a].succs
  {
  }

  /** Graph paths of at least one step. */
  ghost predicate IsPath<N>(g: Graph<N>, p: seq<N>) {
    |p| >= 2 && forall i :: 0 <= i < |p| - 1 ==> p[i] in g.adj && p[i + 1] in g.adj[p[i]].succs
  }

  lemma OneStepPath<N>(g: Graph<N>, a: N, b: N)
    requires (a, b) in EdgeSet(g)
    ensures IsPath(g, [a, b])
  {
    EdgeSetMember(g, a, b);
  }

  /** `add_node`: registers `id` unless it is already a node; the first text written wins. */
  function AddNode<N>(g: Graph<N>, id: N, text: string): (r: Graph<N>)
    requires Valid(g)
    ensures Valid(r)
    ensures r.adj.Keys == g.adj.Keys + {id}
    ensures id in g.adj ==> r == g
    ensures id !in g.adj ==> r.adj[id] == Entry(text, []) && r.order == g.order + [id]
    ensures forall n :: n in g.adj ==> n in r.adj && r.adj[n] == g.adj[n]
    ensures EdgeSet(r) == EdgeSet(g)
  {
    if id in g.adj then g
    else
      AddFresh(g, id, text);
      Graph(g.order + [id], g.adj[id := Entry(text, [])])
  }

  /** A fresh node without successors keeps the graph valid and adds no edge. */
  lemma AddFresh<N>(g: Graph<N>, id: N, text: string)
    requires Valid(g) && id !in g.adj
    ensures Valid(Graph(g.order + [id], g.adj[id := Entry(text, [])]))
    ensures EdgeSet(Graph(g.order + [id], g.adj[id := Entry(text, [])])) == EdgeSet(g)
  {
    var r := Graph(g.order + [id], g.adj[id := Entry(text, [])]);
    forall e | e in EdgeSet(r) ensures e in EdgeSet(g) {
      EdgeSetMember(r, e.0, e.1);
      EdgeSetMember(g, e.0, e.1);
    }
  }

  /** Replaces the successor list of `a`. */
  function WithSuccs<N>(g: Graph<N>, a: N, succs: seq<N>): Graph<N>
    requires a in g.adj
  {
    g.(adj := g.adj[a := g.adj[a].(succs := succs)])
  }

  /** Appending a new successor that is a node keeps the graph valid and adds exactly that edge. */
  lemma AppendSucc<N>(g: Graph<N>, a: N, b: N)
    requires Valid(g) && a in g.adj && b in g.adj && b !in g.adj[a].succs
    ensures Valid(WithSuccs(g, a, g.adj[a].succs + [b]))
    ensures EdgeSet(WithSuccs(g, a, g.adj[a].succs + [b])) == EdgeSet(g) + {(a, b)}
  {
    var r := WithSuccs(g, a, g.adj[a].succs + [b]);
    forall e | e in EdgeSet(r) ensures e in EdgeSet(g) + {(a, b)} {
      if e.0 == a && e.1 != b {
        assert e.1 in g.adj[a].succs;
      }
    }
  }

  /**
   * `add_edge`: appends `b` to the successors of `a` when both are nodes and
   * `b` is not already there; otherwise the graph is unchanged.
   */
  function AddEdge<N>(g: Graph<N>, a: N, b: N): (r: Graph<N>)
    requires Valid(g)
    ensures Valid(r)
    ensures r.order == g.order && r.adj.Keys == g.adj.Keys
    ensures forall n :: n in g.adj ==> r.adj[n].text == g.adj[n].text
    ensures forall n :: n in g.adj && n != a ==> r.adj[n] == g.adj[n]
    ensures EdgeSet(r) == if a in g.adj && b in g.adj then EdgeSet(g) + {(a, b)} else EdgeSet(g)
    ensures a in g.adj && b in g.adj && b !in g.adj[a].succs ==> r.adj[a].succs == g.adj[a].succs + [b]
    ensures !(a in g.adj && b in g.adj && b !in g.adj[a].succs) ==> r == g
  {
    if a in g.adj && b in g.adj && b !in g.adj[a].succs then
      AppendSucc(g, a, b);
      WithSuccs(g, a, g.adj[a].succs + [b])
    else g
  }

  /** Re-adding a node changes nothing, whatever label the second call carries. */
  lemma AddNodeIdempotent<N>(g: Graph<N>, id: N, first: string, second: string)
    requires Valid(g)
    ensures AddNode(AddNode(g, id, first), id, second) == AddNode(g, id, first)
    ensures AddNode(AddNode(g, id, first), id, second).adj[id].text ==
            if id in g.adj then g.adj[id].text else first
  {
  }

  /** Adding the same edge twice is the same as adding it once. */
  lemma AddEdgeIdempotent<N>(g: Graph<N>, a: N, b: N)
    requires Valid(g)
    ensures AddEdge(AddEdge(g, a, b), a, b) == AddEdge(g, a, b)
  {
  }

  /** The edge set does not depend on the order in which edges are added. */
  lemma AddEdgeCommutes<N>(g: Graph<N>, a: N, b: N, c: N, d: N)
    requires Valid(g)
    ensures EdgeSet(AddEdge(AddEdge(g, a, b), c, d)) == EdgeSet(AddEdge(AddEdge(g, c, d), a, b))
  {
  }

  /** The ids of a list of (id, text) pairs. */
  function Ids<N>(nodes: seq<(N, string)>): set<N> {
    set k | 0 <= k < |nodes| :: nodes[k].0
  }

  lemma IdsSplit<N>(nodes: seq<(N, string)>)
    requires |nodes| > 0
    ensures Ids(nodes) == {nodes[0].0} + Ids(nodes[1..])
  {
    forall x | x in Ids(nodes) ensures x in {nodes[0].0} + Ids(nodes[1..]) {
      var k :| 0 <= k < |nodes| && nodes[k].0 == x;
      if k > 0 { assert nodes[1..][k - 1].0 == x; }
    }
  }

  /** `add_node` over a list, in list order. */
  function AddNodes<N>(g: Graph<N>, nodes: seq<(N, string)>): (r: Graph<N>)
    requires Valid(g)
    ensures Valid(r)
    ensures r.adj.Keys == g.adj.Keys + Ids(nodes)
    ensures forall n :: n in g.adj ==> r.adj[n] == g.adj[n]
    ensures EdgeSet(r) == EdgeSet(g)
    decreases |nodes|
  {
    if |nodes| == 0 then g
    else
      IdsSplit(nodes);
      AddNodes(AddNode(g, nodes[0].0, nodes[0].1), nodes[1..])
  }

  /** First writer wins: a new id gets the text of its first occurrence in the list. */
  lemma {:induction false} AddNodesText<N>(g: Graph<N>, nodes: seq<(N, string)>, k: nat)
    requires Valid(g) && k < |nodes| && nodes[k].0 !in g.adj
    requires forall i :: 0 <= i < k ==> nodes[i].0 != nodes[k].0
    ensures AddNodes(g, nodes).adj[nodes[k].0].text == nodes[k].1
    decreases k
  {
    var g' := AddNode(g, nodes[0].0, nodes[0].1);
    var r := AddNodes(g', nodes[1..]);
    assert AddNodes(g, nodes) == r;
    if k == 0 {
      assert g'.adj[nodes[0].0].text == nodes[0].1;
    } else {
      var tail := nodes[1..];
      assert tail[k - 1] == nodes[k];
      forall i | 0 <= i < k - 1 ensures tail[i].0 != tail[k - 1].0 {
        assert tail[i] == nodes[i + 1];
      }
      assert nodes[k].0 != nodes[0].0;
      AddNodesText(g', tail, k - 1);
    }
  }

  /** The pairs of `edges` whose endpoints are both nodes of `g`. */
  function Admitted<N>(g: Graph<N>, edges: seq<(N, N)>): set<(N, N)> {
    set k | 0 <= k < |edges| && edges[k].0 in g.adj && edges[k].1 in g.adj :: edges[k]
  }

  lemma AdmittedSplit<N>(g: Graph<N>, edges: seq<(N, N)>)
    requires |edges| > 0
    ensures Admitted(g, edges) ==
            (if edges[0].0 in g.adj && edges[0].1 in g.adj then {edges[0]} else {}) + Admitted(g, edges[1..])
  {
    var tail := edges[1..];
    forall e | e in Admitted(g, edges)
      ensures e in (if edges[0].0 in g.adj && edges[0].1 in g.adj then {edges[0]} else {}) + Admitted(g, tail)
    {
      var k :| 0 <= k < |edges| && edges[k].0 in g.adj && edges[k].1 in g.adj && edges[k] == e;
      if k > 0 { assert tail[k - 1] == e; }
    }
    forall e | e in Admitted(g, tail) ensures e in Admitted(g, edges) {
      var k :| 0 <= k < |tail| && tail[k].0 in g.adj && tail[k].1 in g.adj && tail[k] == e;
      assert edges[k + 1] == e;
    }
  }

  lemma AdmittedSameKeys<N>(g: Graph<N>, h: Graph<N>, edges: seq<(N, N)>)
    requires g.adj.Keys == h.adj.Keys
    ensures Admitted(g, edges) == Admitted(h, edges)
  {
  }

  /** `add_edge` over a list, in list order. */
  function AddEdges<N>(g: Graph<N>, edges: seq<(N, N)>): (r: Graph<N>)
    requires Valid(g)
    ensures Valid(r)
    ensures r.order == g.order && r.adj.Keys == g.adj.Keys
    ensures forall n :: n in g.adj ==> r.adj[n].text == g.adj[n].text
    decreases |edges|
  {
    if |edges| == 0 then g
    else AddEdges(AddEdge(g, edges[0].0, edges[0].1), edges[1..])
  }

  /** The edges added are exactly the listed pairs whose endpoints are both nodes. */
  lemma {:induction false} AddEdgesEdges<N>(g: Graph<N>, edges: seq<(N, N)>)
    requires Valid(g)
    ensures EdgeSet(AddEdges(g, edges)) == EdgeSet(g) + Admitted(g, edges)
    decreases |edges|
  {
    if |edges| == 0 {
      assert Admitted(g, edges) == {};
    } else {
      var e := edges[0];
      var g' := AddEdge(g, e.0, e.1);
      AddEdgesEdges(g', edges[1..]);
      AdmittedSameKeys(g, g', edges[1..]);
      AdmittedSplit(g, edges);
    }
  }

  /** The edges leaving `a`, in successor order. */
  function OutEdges<N>(a: N, succs: seq<N>): (es: seq<(N, N)>)
    ensures |es| == |succs|
    ensures forall i :: 0 <= i < |es| ==> es[i] == (a, succs[i])
  {
    seq(|succs|, i requires 0 <= i < |succs| => (a, succs[i]))
  }

  /** `get_edges` from the key at position `k` onwards. */
  function EdgesFrom<N>(g: Graph<N>, k: nat): (es: seq<(N, N)>)
    requires Valid(g) && k <= |g.order|
    ensures forall e :: e in es ==> e in EdgeSet(g) && e.0 in g.order[k..]
    ensures forall e :: e in EdgeSet(g) && e.0 in g.order[k..] ==> e in es
    ensures NoDup(es)
    decreases |g.order| - k
  {
    if k == |g.order| then []
    else
      var a := g.order[k];
      var head := OutEdges(a, g.adj[a].succs);
      var tail := EdgesFrom(g, k + 1);
      assert g.order[k..] == [a] + g.order[k + 1..];
      assert a !in g.order[k + 1..] by {
        forall i | k + 1 <= i < |g.order| ensures g.order[i] != a { }
      }
      forall e | e in head + tail ensures e in EdgeSet(g) && e.0 in g.order[k..] {
        if e in head {
          var i :| 0 <= i < |head| && head[i] == e;
        }
      }
      forall e | e in EdgeSet(g) && e.0 in g.order[k..] ensures e in head + tail {
        if e.0 == a {
          var i :| 0 <= i < |g.adj[a].succs| && g.adj[a].succs[i] == e.1;
          assert head[i] == e;
        }
      }
      assert forall i, j :: 0 <= i < j < |head| ==> head[i] != head[j];
      forall i, j | 0 <= i < j < |head + tail| ensures (head + tail)[i] != (head + tail)[j] {
        if i < |head| && j >= |head| {
          assert (head + tail)[j] in tail;
        }
      }
      head + tail
  }

  /**
   * `get_edges`: every edge exactly once, grouped by source in key order;
   * its elements are exactly `EdgeSet`, which is also what `get_edges_set`
   * collects.
   */
  function EdgeList<N>(g: Graph<N>): (es: seq<(N, N)>)
    requires Valid(g)
    ensures forall e :: e in es ==> e in EdgeSet(g)
    ensures forall e :: e in EdgeSet(g) ==> e in es
    ensures NoDup(es)
  {
    EdgesFrom(g, 0)
  }

  /** No dangling edges: both endpoints of every edge are nodes. */
  lemma EdgesAreBetweenNodes<N>(g: Graph<N>, e: (N, N))
    requires Valid(g) && e in EdgeSet(g)
    ensures e.0 in g.adj && e.1 in g.adj
  {
  }

  /** A graph built by `add_node` over `nodes`, then `add_edge` over `edges`, both in list order. */
  function FromLists<N>(nodes: seq<(N, string)>, edges: seq<(N, N)>): (r: Graph<N>)
    ensures Valid(r)
    ensures r.adj.Keys == Ids(nodes)
  {
    AddEdges(AddNodes(Empty(), nodes), edges)
  }

  /** Its edges are the listed pairs whose endpoints are both listed nodes. */
  lemma FromListsEdges<N>(nodes: seq<(N, string)>, edges: seq<(N, N)>)
    ensures EdgeSet(FromLists(nodes, edges)) == set e | e in edges && e.0 in Ids(nodes) && e.1 in Ids(nodes)
  {
    var g := AddNodes(Empty(), nodes);
    AddEdgesEdges(g, edges);
    forall e | e in edges && e.0 in g.adj && e.1 in g.adj ensures e in Admitted(g, edges) {
      var k :| 0 <= k < |edges| && edges[k] == e;
    }
  }

  /** In a graph built from lists, each node carries the text of its first occurrence. */
  lemma FromListsText<N>(nodes: seq<(N, string)>, edges: seq<(N, N)>, k: nat)
    requires k < |nodes| && forall i :: 0 <= i < k ==> nodes[i].0 != nodes[k].0
    ensures FromLists(nodes, edges).adj[nodes[k].0].text == nodes[k].1
  {
    AddNodesText(Empty(), nodes, k);
  }
}

=== FILE: simplify.dfy ===
/**
 * `Graph.simplify`: for every node `a` and every two distinct successors
 * x, y of `a` (taken from a snapshot of a's successor list) with y a
 * successor of x, the edge a -> y is deleted with `list.remove`.
 *
 * `list.remove` raises when its argument is absent, which happens as soon
 * as a second x justifies deleting the same y. `Simplify` models the code
 * as written, error included; `SimplifyFixed` deletes only edges still
 * present and never fails.
 */
module Simplify {
  import opened Wrappers
  import opened AdjGraph

  /** The `ValueError` of `list.remove`: `succ` is no longer a successor of `node`. */
  datatype SimplifyError<N> = MissingSuccessor(node: N, succ: N)

  /** Index of the first occurrence of `x`. */
  function FirstIndex<T(==)>(s: seq<T>, x: T): (k: nat)
    requires x in s
    ensures k < |s| && s[k] == x && x !in s[..k]
  {
    if s[0] == x then 0 else 1 + FirstIndex(s[1..], x)
  }

  /** `list.remove(x)`: deletes the first occurrence of `x`, or fails when there is none. */
  function RemoveFirst<T(==)>(s: seq<T>, x: T): (r: Option<seq<T>>)
    ensures r.None? <==> x !in s
    ensures r.Some? ==> r.value == s[..FirstIndex(s, x)] + s[FirstIndex(s, x) + 1..]
  {
    if x in s then Some(s[..FirstIndex(s, x)] + s[FirstIndex(s, x) + 1..]) else None
  }

  /**
   * What `list.remove(x)` leaves: one element shorter, one copy of `x` fewer,
   * and each element before the first `x` in place, each after it moved one left.
   */
  lemma RemoveFirstSpec<T>(s: seq<T>, x: T)
    requires x in s
    ensures var r := RemoveFirst(s, x).value;
      && |r| == |s| - 1
      && multiset(r) == multiset(s) - multiset{x}
      && (forall m :: 0 <= m < |r| && x !in s[..m + 1] ==> r[m] == s[m])
      && (forall m :: 0 <= m < |r| && x in s[..m + 1] ==> r[m] == s[m + 1])
  {
    var k := FirstIndex(s, x);
    var r := RemoveFirst(s, x).value;
    assert s == s[..k] + [s[k]] + s[k + 1..];
    assert multiset(s) == multiset(s[..k]) + multiset{x} + multiset(s[k + 1..]);
    forall m | 0 <= m < |r| ensures r[m] == if x in s[..m + 1] then s[m + 1] else s[m] {
      RemoveFirstAt(s, x, m);
    }
  }

  /** One position of what `list.remove(x)` leaves. */
  lemma RemoveFirstAt<T>(s: seq<T>, x: T, m: nat)
    requires x in s && m + 1 < |s|
    ensures RemoveFirst(s, x).value[m] == if x in s[..m + 1] then s[m + 1] else s[m]
  {
    var k := FirstIndex(s, x);
    if k <= m {
      assert s[..m + 1][k] == x;
    } else {
      assert s[..m + 1] == s[..k][..m + 1];
    }
  }

  /** On a duplicate-free list, removing `x` leaves every other element and nothing else. */
  lemma RemoveFromNoDup<T>(s: seq<T>, x: T)
    requires NoDup(s) && x in s
    ensures NoDup(RemoveFirst(s, x).value)
    ensures forall y :: y in RemoveFirst(s, x).value <==> y in s && y != x
  {
    var k := FirstIndex(s, x);
    var r := s[..k] + s[k + 1..];
    assert forall i :: 0 <= i < |r| ==> r[i] == if i < k then s[i] else s[i + 1];
    forall y | y in s && y != x ensures y in r {
      var i :| 0 <= i < |s| && s[i] == y;
      assert r[if i < k then i else i - 1] == y;
    }
  }

  /** `list.remove` never adds an element. */
  lemma RemoveFirstSubset<T>(s: seq<T>, x: T)
    requires x in s
    ensures forall y :: y in RemoveFirst(s, x).value ==> y in s
  {
    var k := FirstIndex(s, x);
    assert forall y :: y in s[..k] + s[k + 1..] ==> y in s[..k] || y in s[k + 1..];
  }

  /** Removing a present successor of `a` keeps the graph valid and deletes exactly that edge. */
  lemma RemoveEdge<N>(g: Graph<N>, a: N, y: N)
    requires Valid(g) && a in g.adj && y in g.adj[a].succs
    ensures Valid(WithSuccs(g, a, RemoveFirst(g.adj[a].succs, y).value))
    ensures EdgeSet(WithSuccs(g, a, RemoveFirst(g.adj[a].succs, y).value)) == EdgeSet(g) - {(a, y)}
  {
    RemoveFromNoDup(g.adj[a].succs, y);
  }

  /**
   * Everything simplification keeps: same keys, order and labels, and edges
   * only ever removed. Validity is stated separately.
   */
  ghost predicate Thinned<N>(g: Graph<N>, r: Graph<N>) {
    && r.order == g.order
    && r.adj.Keys == g.adj.Keys
    && (forall n :: n in g.adj ==> r.adj[n].text == g.adj[n].text)
    && EdgeSet(r) <= EdgeSet(g)
  }

  /** Every edge a -> y that `g` has and `r` lacks is implied by a path a -> x -> y of `g`, x != y. */
  ghost predicate RemovalsJustified<N>(g: Graph<N>, r: Graph<N>) {
    forall e :: e in EdgeSet(g) && e !in EdgeSet(r) ==>
      exists x :: x in g.adj && x != e.1 && (e.0, x) in EdgeSet(g) && (x, e.1) in EdgeSet(g)
  }

  /**
   * The part of `Valid` the loops of `simplify` rely on to look entries up:
   * the key order lists only nodes, and every successor is a node.
   */
  ghost predicate Closed<N>(g: Graph<N>) {
    && (forall i :: 0 <= i < |g.order| ==> g.order[i] in g.adj)
    && (forall n, m :: n in g.adj && m in g.adj[n].succs ==> m in g.adj)
  }

  /**
   * What the pair loop of node `a` over the snapshot `copy` may do: keep
   * every other entry and the text of `a`, and delete from the successors
   * of `a` only nodes y for which some x != y of `copy` has y as successor,
   * without introducing duplicates.
   */
  ghost predicate PairStep<N>(g: Graph<N>, r: Graph<N>, a: N, copy: seq<N>)
    requires a in g.adj
  {
    && r.order == g.order
    && r.adj.Keys == g.adj.Keys
    && (forall n :: n in g.adj && n != a ==> r.adj[n] == g.adj[n])
    && r.adj[a].text == g.adj[a].text
    && (NoDup(g.adj[a].succs) ==> NoDup(r.adj[a].succs))
    && (forall y :: y in r.adj[a].succs ==> y in g.adj[a].succs)
    && (forall y :: y in g.adj[a].succs && y !in r.adj[a].succs ==>
          exists x :: x in copy && x in g.adj && x != y && y in g.adj[x].succs)
  }

  lemma PairStepRefl<N>(g: Graph<N>, a: N, copy: seq<N>)
    requires a in g.adj
    ensures PairStep(g, g, a, copy)
  {
  }

  /** Deleting a -> y, with x -> y present and x != y, is one allowed step. */
  lemma PairStepRemove<N>(g: Graph<N>, a: N, copy: seq<N>, x: N, y: N)
    requires a in g.adj && y in g.adj[a].succs
    requires x in copy && x in g.adj && x != y && y in g.adj[x].succs
    ensures PairStep(g, WithSuccs(g, a, RemoveFirst(g.adj[a].succs, y).value), a, copy)
  {
    RemoveFirstSubset(g.adj[a].succs, y);
    if NoDup(g.adj[a].succs) {
      RemoveFromNoDup(g.adj[a].succs, y);
    }
  }

  lemma PairStepTrans<N>(g: Graph<N>, h: Graph<N>, r: Graph<N>, a: N, copy: seq<N>)
    requires a in g.adj && PairStep(g, h, a, copy) && PairStep(h, r, a, copy)
    ensures PairStep(g, r, a, copy)
  {
    forall y | y in g.adj[a].succs && y !in r.adj[a].succs
      ensures exists x :: x in copy && x in g.adj && x != y && y in g.adj[x].succs
    {
      if y !in h.adj[a].succs {
      } else {
        var x :| x in copy && x in h.adj && x != y && y in h.adj[x].succs;
        if x != a {
          assert h.adj[x] == g.adj[x];
        }
      }
    }
  }

  /** An allowed step keeps a valid graph valid. */
  lemma PairStepValid<N>(g: Graph<N>, r: Graph<N>, a: N, copy: seq<N>)
    requires Valid(g) && a in g.adj && PairStep(g, r, a, copy)
    ensures Valid(r)
  {
  }

  /** An allowed step keeps successors inside the node set. */
  lemma PairStepClosed<N>(g: Graph<N>, r: Graph<N>, a: N, copy: seq<N>)
    requires Closed(g) && a in g.adj && PairStep(g, r, a, copy)
    ensures Closed(r)
  {
  }

  /** An allowed pair loop over the successors of `a` removes only implied edges. */
  lemma PairStepJustified<N>(g: Graph<N>, r: Graph<N>, a: N)
    requires a in g.adj && PairStep(g, r, a, g.adj[a].succs)
    ensures Thinned(g, r) && RemovalsJustified(g, r)
  {
    forall e | e in EdgeSet(r) ensures e in EdgeSet(g) {
      EdgeSetMember(r, e.0, e.1);
      EdgeSetMember(g, e.0, e.1);
    }
    forall e | e in EdgeSet(g) && e !in EdgeSet(r)
      ensures exists x :: x in g.adj && x != e.1 && (e.0, x) in EdgeSet(g) && (x, e.1) in EdgeSet(g)
    {
      EdgeSetMember(r, e.0, e.1);
      EdgeSetMember(g, e.0, e.1);
      assert e.0 == a;
      var x :| x in g.adj[a].succs && x in g.adj && x != e.1 && e.1 in g.adj[x].succs;
      EdgeSetMember(g, a, x);
      EdgeSetMember(g, x, e.1);
    }
  }

  lemma JustifiedTrans<N>(g: Graph<N>, h: Graph<N>, r: Graph<N>)
    requires Thinned(g, h) && RemovalsJustified(g, h)
    requires Thinned(h, r) && RemovalsJustified(h, r)
    ensures Thinned(g, r) && RemovalsJustified(g, r)
  {
  }

  /**
   * The pair loop of one node `a` over the snapshot `copy`, from pair (i, j)
   * on. The membership test reads the current graph; the snapshot is not
   * updated by the removals.
   */
  function SimplifyPairs<N>(g: Graph<N>, a: N, copy: seq<N>, i: nat, j: nat): (r: Result<Graph<N>, SimplifyError<N>>)
    requires a in g.adj
    requires forall x :: x in copy ==> x in g.adj
    requires i <= |copy| && j <= |copy|
    ensures r.Ok? ==> r.value.order == g.order && r.value.adj.Keys == g.adj.Keys
    decreases |copy| - i, |copy| - j
  {
    if i == |copy| then Ok(g)
    else if j == |copy| then SimplifyPairs(g, a, copy, i + 1, 0)
    else
      var x, y := copy[i], copy[j];
      if x != y && y in g.adj[x].succs then
        match RemoveFirst(g.adj[a].succs, y)
        case None => Err(MissingSuccessor(a, y))
        case Some(rest) => SimplifyPairs(WithSuccs(g, a, rest), a, copy, i, j + 1)
      else SimplifyPairs(g, a, copy, i, j + 1)
  }

  /** A successful pair loop performs only allowed steps. */
  lemma {:induction false} PairsStep<N>(g: Graph<N>, a: N, copy: seq<N>, i: nat, j: nat)
    requires a in g.adj
    requires forall x :: x in copy ==> x in g.adj
    requires i <= |copy| && j <= |copy|
    ensures SimplifyPairs(g, a, copy, i, j).Ok? ==> PairStep(g, SimplifyPairs(g, a, copy, i, j).value, a, copy)
    decreases |copy| - i, |copy| - j
  {
    if i == |copy| {
      PairStepRefl(g, a, copy);
    } else if j == |copy| {
      PairsStep(g, a, copy, i + 1, 0);
    } else {
      var x, y := copy[i], copy[j];
      if x != y && y in g.adj[x].succs && y in g.adj[a].succs {
        var h := WithSuccs(g, a, RemoveFirst(g.adj[a].succs, y).value);
        PairStepRemove(g, a, copy, x, y);
        PairsStep(h, a, copy, i, j + 1);
        if SimplifyPairs(h, a, copy, i, j + 1).Ok? {
          PairStepTrans(g, h, SimplifyPairs(h, a, copy, i, j + 1).value, a, copy);
        }
      } else if !(x != y && y in g.adj[x].succs) {
        PairsStep(g, a, copy, i, j + 1);
      }
    }
  }

  /** The outer loop of `simplify`, over the keys from position `k` on. */
  function SimplifyFrom<N>(g: Graph<N>, k: nat): Result<Graph<N>, SimplifyError<N>>
    requires Closed(g) && k <= |g.order|
    decreases |g.order| - k
  {
    if k == |g.order| then Ok(g)
    else
      var a := g.order[k];
      match SimplifyPairs(g, a, g.adj[a].succs, 0, 0)
      case Err(e) => Err(e)
      case Ok(g') =>
        PairsStep(g, a, g.adj[a].succs, 0, 0);
        PairStepClosed(g, g', a, g.adj[a].succs);
        SimplifyFrom(g', k + 1)
  }

  /**
   * One successful round of the outer loop as written followed by a
   * thinning of its result is a thinning of the input that removes only
   * implied edges.
   */
  lemma RowThen<N>(g: Graph<N>, a: N, r: Graph<N>)
    requires Closed(g) && a in g.adj && SimplifyPairs(g, a, g.adj[a].succs, 0, 0).Ok?
    requires Thinned(SimplifyPairs(g, a, g.adj[a].succs, 0, 0).value, r)
    requires RemovalsJustified(SimplifyPairs(g, a, g.adj[a].succs, 0, 0).value, r)
    ensures Thinned(g, r) && RemovalsJustified(g, r)
  {
    var h := SimplifyPairs(g, a, g.adj[a].succs, 0, 0).value;
    PairsStep(g, a, g.adj[a].succs, 0, 0);
    PairStepJustified(g, h, a);
    JustifiedTrans(g, h, r);
  }

  /** One successful round of the outer loop as written keeps successors inside the node set. */
  lemma RowClosed<N>(g: Graph<N>, a: N)
    requires Closed(g) && a in g.adj
    ensures SimplifyPairs(g, a, g.adj[a].succs, 0, 0).Ok? ==> Closed(SimplifyPairs(g, a, g.adj[a].succs, 0, 0).value)
  {
    PairsStep(g, a, g.adj[a].succs, 0, 0);
    if SimplifyPairs(g, a, g.adj[a].succs, 0, 0).Ok? {
      PairStepClosed(g, SimplifyPairs(g, a, g.adj[a].succs, 0, 0).value, a, g.adj[a].succs);
    }
  }

  /** One successful round of the outer loop as written keeps the graph valid. */
  lemma RowValid<N>(g: Graph<N>, a: N)
    requires Valid(g) && a in g.adj
    ensures SimplifyPairs(g, a, g.adj[a].succs, 0, 0).Ok? ==> Valid(SimplifyPairs(g, a, g.adj[a].succs, 0, 0).value)
  {
    PairsStep(g, a, g.adj[a].succs, 0, 0);
    if SimplifyPairs(g, a, g.adj[a].succs, 0, 0).Ok? {
      PairStepValid(g, SimplifyPairs(g, a, g.adj[a].succs, 0, 0).value, a, g.adj[a].succs);
    }
  }

  lemma {:induction false} FromJustified<N>(g: Graph<N>, k: nat)
    requires Closed(g) && k <= |g.order|
    ensures SimplifyFrom(g, k).Ok? ==> Thinned(g, SimplifyFrom(g, k).value) && RemovalsJustified(g, SimplifyFrom(g, k).value)
    decreases |g.order| - k
  {
    if k < |g.order| {
      var a := g.order[k];
      var p := SimplifyPairs(g, a, g.adj[a].succs, 0, 0);
      if p.Ok? {
        RowClosed(g, a);
        FromJustified(p.value, k + 1);
        assert SimplifyFrom(g, k) == SimplifyFrom(p.value, k + 1);
        if SimplifyFrom(p.value, k + 1).Ok? {
          RowThen(g, a, SimplifyFrom(p.value, k + 1).value);
        }
      }
    } else {
      assert SimplifyFrom(g, k) == Ok(g);
    }
  }

  lemma {:induction false} FromValid<N>(g: Graph<N>, k: nat)
    requires Valid(g) && k <= |g.order|
    ensures SimplifyFrom(g, k).Ok? ==> Valid(SimplifyFrom(g, k).value)
    decreases |g.order| - k
  {
    if k < |g.order| {
      var a := g.order[k];
      var p := SimplifyPairs(g, a, g.adj[a].succs, 0, 0);
      if p.Ok? {
        RowValid(g, a);
        FromValid(p.value, k + 1);
        assert SimplifyFrom(g, k) == SimplifyFrom(p.value, k + 1);
      }
    } else {
      assert SimplifyFrom(g, k) == Ok(g);
    }
  }

  /**
   * The only shape that makes `list.remove` fail: `y` and two other distinct
   * successors x1, x2 of `a` are successors of `a`, and both x1 and x2 list `y`.
   */
  ghost predicate ImpliedTwice<N>(g: Graph<N>, a: N, x1: N, x2: N, y: N) {
    && a in g.adj && x1 in g.adj && x2 in g.adj
    && x1 != x2 && x1 != y && x2 != y
    && x1 in g.adj[a].succs && x2 in g.adj[a].succs && y in g.adj[a].succs
    && y in g.adj[x1].succs && y in g.adj[x2].succs
  }

  /** Node `a` of `g` has a successor implied twice. */
  ghost predicate RowImpliedTwice<N>(g: Graph<N>, a: N) {
    && a in g.adj
    && exists x1, x2, y {:trigger ImpliedTwice(g, a, x1, x2, y)} :: (x1 in g.adj[a].succs && x2 in g.adj[a].succs && y in g.adj[a].succs &&
      ImpliedTwice(g, a, x1, x2, y))
  }

  /** Some node of `g` has a successor implied twice. */
  ghost predicate SomeImpliedTwice<N>(g: Graph<N>) {
    exists a {:trigger RowImpliedTwice(g, a)} :: a in g.adj && RowImpliedTwice(g, a)
  }

  /** Snapshot entry `m` is no longer a successor of `a`. */
  ghost predicate Gone<N>(h: Graph<N>, a: N, copy: seq<N>, m: int) {
    a in h.adj && 0 <= m < |copy| && copy[m] !in h.adj[a].succs
  }

  /**
   * Every snapshot entry missing from the current row of `a` was deleted by
   * an earlier pair (p, m): copy[p] differs from copy[m] and lists it in `g0`.
   */
  ghost predicate RemovedBefore<N>(g0: Graph<N>, h: Graph<N>, a: N, copy: seq<N>, i: nat, j: nat) {
    forall m {:trigger Gone(h, a, copy, m)} :: Gone(h, a, copy, m) ==>
      exists p :: 0 <= p < |copy| && (p < i || (p == i && m < j)) && copy[p] != copy[m] &&
        copy[p] in g0.adj && copy[m] in g0.adj[copy[p]].succs
  }

  /** A later position keeps every earlier witness. */
  lemma RemovedBeforeLater<N>(g0: Graph<N>, h: Graph<N>, a: N, copy: seq<N>, i: nat, j: nat, i': nat, j': nat)
    requires RemovedBefore(g0, h, a, copy, i, j)
    requires i < i' || (i == i' && j <= j')
    ensures RemovedBefore(g0, h, a, copy, i', j')
  {
  }

  /** Deleting y = copy[j] at pair (i, j) keeps the record, with (i, j) as its witness. */
  lemma RemovedBeforeStep<N>(g0: Graph<N>, h: Graph<N>, a: N, copy: seq<N>, i: nat, j: nat)
    requires a in g0.adj && copy == g0.adj[a].succs && NoDup(copy)
    requires forall x :: x in copy ==> x in g0.adj
    requires PairStep(g0, h, a, copy) && RemovedBefore(g0, h, a, copy, i, j)
    requires i < |copy| && j < |copy|
    requires copy[i] != copy[j] && copy[j] in h.adj[copy[i]].succs && copy[j] in h.adj[a].succs
    ensures RemovedBefore(g0, WithSuccs(h, a, RemoveFirst(h.adj[a].succs, copy[j]).value), a, copy, i, j + 1)
  {
    var x, y := copy[i], copy[j];
    var h' := WithSuccs(h, a, RemoveFirst(h.adj[a].succs, y).value);
    RemoveFromNoDup(h.adj[a].succs, y);
    assert y in g0.adj[x].succs by {
      if x != a {
        assert h.adj[x] == g0.adj[x];
      }
    }
    forall m | Gone(h', a, copy, m)
      ensures exists p :: (0 <= p < |copy| && (p < i || (p == i && m < j + 1)) && copy[p] != copy[m] &&
        copy[p] in g0.adj && copy[m] in g0.adj[copy[p]].succs)
    {
      if copy[m] in h.adj[a].succs {
        assert copy[m] == copy[j];
        assert m == j;
        assert copy[i] in g0.adj;
      } else {
        assert Gone(h, a, copy, m);
        var p :| 0 <= p < |copy| && (p < i || (p == i && m < j)) && copy[p] != copy[m] &&
          copy[p] in g0.adj && copy[m] in g0.adj[copy[p]].succs;
        assert p < i || (p == i && m < j + 1);
      }
    }
  }

  /** The failing pair (i, j): copy[j] was deleted earlier by another successor that lists it. */
  lemma PairsErrHere<N>(g0: Graph<N>, h: Graph<N>, a: N, copy: seq<N>, i: nat, j: nat)
    requires a in g0.adj && copy == g0.adj[a].succs && NoDup(copy)
    requires forall x :: x in copy ==> x in g0.adj
    requires PairStep(g0, h, a, copy) && RemovedBefore(g0, h, a, copy, i, j)
    requires i < |copy| && j < |copy|
    requires copy[i] != copy[j] && copy[j] in h.adj[copy[i]].succs && copy[j] !in h.adj[a].succs
    ensures RowImpliedTwice(g0, a)
  {
    var x, y := copy[i], copy[j];
    assert Gone(h, a, copy, j);
    var p :| 0 <= p < |copy| && (p < i || (p == i && j < j)) && copy[p] != copy[j] &&
      copy[p] in g0.adj && copy[j] in g0.adj[copy[p]].succs;
    assert p < i && copy[p] != copy[i];
    assert y in g0.adj[x].succs by {
      if x != a {
        assert h.adj[x] == g0.adj[x];
      }
    }
    assert ImpliedTwice(g0, a, copy[p], x, y);
  }

  /** One deletion of the pair loop as written, with what the rest of the loop needs of it. */
  lemma PairsErrRemoval<N>(g0: Graph<N>, h: Graph<N>, a: N, copy: seq<N>, i: nat, j: nat) returns (h': Graph<N>)
    requires a in g0.adj && copy == g0.adj[a].succs && NoDup(copy)
    requires forall x :: x in copy ==> x in g0.adj
    requires PairStep(g0, h, a, copy) && RemovedBefore(g0, h, a, copy, i, j)
    requires i < |copy| && j < |copy|
    requires copy[i] != copy[j] && copy[j] in h.adj[copy[i]].succs && copy[j] in h.adj[a].succs
    ensures PairStep(g0, h', a, copy) && RemovedBefore(g0, h', a, copy, i, j + 1)
    ensures SimplifyPairs(h, a, copy, i, j) == SimplifyPairs(h', a, copy, i, j + 1)
  {
    h' := WithSuccs(h, a, RemoveFirst(h.adj[a].succs, copy[j]).value);
    PairStepRemove(h, a, copy, copy[i], copy[j]);
    PairStepTrans(g0, h, h', a, copy);
    RemovedBeforeStep(g0, h, a, copy, i, j);
  }

  /**
   * The pair loop as written, from (i, j) on, fails only when the row of `a`
   * at its start has a successor implied twice.
   */
  lemma {:induction false} PairsErr<N>(g0: Graph<N>, h: Graph<N>, a: N, copy: seq<N>, i: nat, j: nat)
    requires a in g0.adj && copy == g0.adj[a].succs && NoDup(copy)
    requires forall x :: x in copy ==> x in g0.adj
    requires PairStep(g0, h, a, copy) && RemovedBefore(g0, h, a, copy, i, j)
    requires i <= |copy| && j <= |copy|
    ensures SimplifyPairs(h, a, copy, i, j).Err? ==> RowImpliedTwice(g0, a)
    decreases |copy| - i, |copy| - j, 1
  {
    if i == |copy| {
    } else if j == |copy| {
      RemovedBeforeLater(g0, h, a, copy, i, j, i + 1, 0);
      PairsErr(g0, h, a, copy, i + 1, 0);
      assert SimplifyPairs(h, a, copy, i, j) == SimplifyPairs(h, a, copy, i + 1, 0);
    } else {
      PairErr(g0, h, a, copy, i, j);
    }
  }

  /** Pair (i, j) of the loop as written: it deletes, fails, or passes on to (i, j + 1). */
  lemma {:induction false} PairErr<N>(g0: Graph<N>, h: Graph<N>, a: N, copy: seq<N>, i: nat, j: nat)
    requires a in g0.adj && copy == g0.adj[a].succs && NoDup(copy)
    requires forall x :: x in copy ==> x in g0.adj
    requires PairStep(g0, h, a, copy) && RemovedBefore(g0, h, a, copy, i, j)
    requires i < |copy| && j < |copy|
    ensures SimplifyPairs(h, a, copy, i, j).Err? ==> RowImpliedTwice(g0, a)
    decreases |copy| - i, |copy| - j, 0
  {
    if copy[i] != copy[j] && copy[j] in h.adj[copy[i]].succs {
      if copy[j] in h.adj[a].succs {
        var h' := PairsErrRemoval(g0, h, a, copy, i, j);
        PairsErr(g0, h', a, copy, i, j + 1);
      } else {
        PairsErrHere(g0, h, a, copy, i, j);
      }
    } else {
      RemovedBeforeLater(g0, h, a, copy, i, j, i, j + 1);
      PairsErr(g0, h, a, copy, i, j + 1);
      assert SimplifyPairs(h, a, copy, i, j) == SimplifyPairs(h, a, copy, i, j + 1);
    }
  }

  /** A successor implied twice after an allowed step was implied twice before it. */
  lemma ImpliedTwiceBefore<N>(g: Graph<N>, h: Graph<N>, b: N, copy: seq<N>)
    requires b in g.adj && PairStep(g, h, b, copy) && SomeImpliedTwice(h)
    ensures SomeImpliedTwice(g)
  {
    var a :| a in h.adj && RowImpliedTwice(h, a);
    var x1, x2, y :| x1 in h.adj[a].succs && x2 in h.adj[a].succs && y in h.adj[a].succs &&
      ImpliedTwice(h, a, x1, x2, y);
    assert ImpliedTwice(g, a, x1, x2, y);
    assert RowImpliedTwice(g, a);
  }

  /** The outer loop as written, from position `k`, fails only on a successor implied twice. */
  lemma {:induction false} FromErr<N>(g: Graph<N>, k: nat)
    requires Valid(g) && k <= |g.order|
    ensures SimplifyFrom(g, k).Err? ==> SomeImpliedTwice(g)
    decreases |g.order| - k
  {
    if k < |g.order| {
      var a := g.order[k];
      var copy := g.adj[a].succs;
      var p := SimplifyPairs(g, a, copy, 0, 0);
      if p.Err? {
        PairStepRefl(g, a, copy);
        PairsErr(g, g, a, copy, 0, 0);
      } else {
        RowValid(g, a);
        PairsStep(g, a, copy, 0, 0);
        FromErr(p.value, k + 1);
        assert SimplifyFrom(g, k) == SimplifyFrom(p.value, k + 1);
        if SimplifyFrom(p.value, k + 1).Err? {
          ImpliedTwiceBefore(g, p.value, a, copy);
        }
      }
    } else {
      assert SimplifyFrom(g, k) == Ok(g);
    }
  }

  /**
   * `simplify` as written: on success the graph keeps its nodes and labels,
   * loses only edges, and every lost edge a -> y was implied by a two-step
   * path a -> x -> y of the input.
   */
  function Simplify<N>(g: Graph<N>): (r: Result<Graph<N>, SimplifyError<N>>)
    requires Valid(g)
    ensures r.Ok? ==> Valid(r.value) && Thinned(g, r.value) && RemovalsJustified(g, r.value)
    ensures r.Ok? ==> NoShortcuts(r.value)
    ensures r.Err? ==> SomeImpliedTwice(g)
  {
    FromValid(g, 0);
    FromJustified(g, 0);
    FixedNoShortcuts(g);
    FromErr(g, 0);
    var r := SimplifyFrom(g, 0);
    if r.Ok? then FromAgree(g, 0); r else r
  }

  /**
   * The pair loop with the evident intent: delete a -> y only while it is
   * still there, so a second justification for the same y is harmless.
   */
  function SimplifyPairsFixed<N>(g: Graph<N>, a: N, copy: seq<N>, i: nat, j: nat): (r: Graph<N>)
    requires a in g.adj
    requires forall x :: x in copy ==> x in g.adj
    requires i <= |copy| && j <= |copy|
    ensures r.order == g.order && r.adj.Keys == g.adj.Keys
    decreases |copy| - i, |copy| - j
  {
    if i == |copy| then g
    else if j == |copy| then SimplifyPairsFixed(g, a, copy, i + 1, 0)
    else
      var x, y := copy[i], copy[j];
      if x != y && y in g.adj[x].succs && y in g.adj[a].succs then
        SimplifyPairsFixed(WithSuccs(g, a, RemoveFirst(g.adj[a].succs, y).value), a, copy, i, j + 1)
      else SimplifyPairsFixed(g, a, copy, i, j + 1)
  }

  lemma {:induction false} PairsFixedStep<N>(g: Graph<N>, a: N, copy: seq<N>, i: nat, j: nat)
    requires a in g.adj
    requires forall x :: x in copy ==> x in g.adj
    requires i <= |copy| && j <= |copy|
    ensures PairStep(g, SimplifyPairsFixed(g, a, copy, i, j), a, copy)
    decreases |copy| - i, |copy| - j
  {
    if i == |copy| {
      PairStepRefl(g, a, copy);
    } else if j == |copy| {
      PairsFixedStep(g, a, copy, i + 1, 0);
    } else {
      var x, y := copy[i], copy[j];
      if x != y && y in g.adj[x].succs && y in g.adj[a].succs {
        var h := WithSuccs(g, a, RemoveFirst(g.adj[a].succs, y).value);
        PairStepRemove(g, a, copy, x, y);
        PairsFixedStep(h, a, copy, i, j + 1);
        PairStepTrans(g, h, SimplifyPairsFixed(h, a, copy, i, j + 1), a, copy);
      } else {
        PairsFixedStep(g, a, copy, i, j + 1);
      }
    }
  }

  function SimplifyFromFixed<N>(g: Graph<N>, k: nat): Graph<N>
    requires Closed(g) && k <= |g.order|
    decreases |g.order| - k
  {
    if k == |g.order| then g
    else
      var a := g.order[k];
      var g' := SimplifyPairsFixed(g, a, g.adj[a].succs, 0, 0);
      PairsFixedStep(g, a, g.adj[a].succs, 0, 0);
      PairStepClosed(g, g', a, g.adj[a].succs);
      SimplifyFromFixed(g', k + 1)
  }

  /**
   * One round of the corrected outer loop followed by a thinning of its
   * result is a thinning of the input that removes only implied edges.
   */
  lemma RowFixedThen<N>(g: Graph<N>, a: N, r: Graph<N>)
    requires Closed(g) && a in g.adj
    requires Thinned(SimplifyPairsFixed(g, a, g.adj[a].succs, 0, 0), r)
    requires RemovalsJustified(SimplifyPairsFixed(g, a, g.adj[a].succs, 0, 0), r)
    ensures Thinned(g, r) && RemovalsJustified(g, r)
  {
    var h := SimplifyPairsFixed(g, a, g.adj[a].succs, 0, 0);
    PairsFixedStep(g, a, g.adj[a].succs, 0, 0);
    PairStepJustified(g, h, a);
    JustifiedTrans(g, h, r);
  }

  /** One round of the corrected outer loop keeps successors inside the node set. */
  lemma RowFixedClosed<N>(g: Graph<N>, a: N)
    requires Closed(g) && a in g.adj
    ensures Closed(SimplifyPairsFixed(g, a, g.adj[a].succs, 0, 0))
  {
    PairsFixedStep(g, a, g.adj[a].succs, 0, 0);
    PairStepClosed(g, SimplifyPairsFixed(g, a, g.adj[a].succs, 0, 0), a, g.adj[a].succs);
  }

  /** One round of the corrected outer loop keeps the graph valid. */
  lemma RowFixedValid<N>(g: Graph<N>, a: N)
    requires Valid(g) && a in g.adj
    ensures Valid(SimplifyPairsFixed(g, a, g.adj[a].succs, 0, 0))
  {
    PairsFixedStep(g, a, g.adj[a].succs, 0, 0);
    PairStepValid(g, SimplifyPairsFixed(g, a, g.adj[a].succs, 0, 0), a, g.adj[a].succs);
  }

  lemma {:induction false} FromFixedJustified<N>(g: Graph<N>, k: nat)
    requires Closed(g) && k <= |g.order|
    ensures Thinned(g, SimplifyFromFixed(g, k)) && RemovalsJustified(g, SimplifyFromFixed(g, k))
    decreases |g.order| - k
  {
    if k < |g.order| {
      var a := g.order[k];
      var h := SimplifyPairsFixed(g, a, g.adj[a].succs, 0, 0);
      RowFixedClosed(g, a);
      FromFixedJustified(h, k + 1);
      var r := SimplifyFromFixed(h, k + 1);
      assert SimplifyFromFixed(g, k) == r;
      RowFixedThen(g, a, r);
    } else {
      assert SimplifyFromFixed(g, k) == g;
    }
  }

  lemma {:induction false} FromFixedValid<N>(g: Graph<N>, k: nat)
    requires Valid(g) && k <= |g.order|
    ensures Valid(SimplifyFromFixed(g, k))
    decreases |g.order| - k
  {
    if k < |g.order| {
      var a := g.order[k];
      var h := SimplifyPairsFixed(g, a, g.adj[a].succs, 0, 0);
      RowFixedValid(g, a);
      FromFixedValid(h, k + 1);
      assert SimplifyFromFixed(g, k) == SimplifyFromFixed(h, k + 1);
    } else {
      assert SimplifyFromFixed(g, k) == g;
    }
  }

  /**
   * The corrected `simplify`: it never fails, keeps nodes and labels, only
   * removes edges, and every removed edge a -> y was implied by a two-step
   * path a -> x -> y of the input.
   */
  function SimplifyFixed<N>(g: Graph<N>): (r: Graph<N>)
    requires Valid(g)
    ensures Valid(r) && Thinned(g, r) && RemovalsJustified(g, r)
    ensures NoShortcuts(r)
  {
    FromFixedValid(g, 0);
    FromFixedJustified(g, 0);
    FixedNoShortcuts(g);
    SimplifyFromFixed(g, 0)
  }

  lemma {:induction false} PairsAgree<N>(g: Graph<N>, a: N, copy: seq<N>, i: nat, j: nat)
    requires a in g.adj
    requires forall x :: x in copy ==> x in g.adj
    requires i <= |copy| && j <= |copy|
    requires SimplifyPairs(g, a, copy, i, j).Ok?
    ensures SimplifyPairs(g, a, copy, i, j).value == SimplifyPairsFixed(g, a, copy, i, j)
    decreases |copy| - i, |copy| - j
  {
    if i == |copy| {
    } else if j == |copy| {
      PairsAgree(g, a, copy, i + 1, 0);
    } else {
      var x, y := copy[i], copy[j];
      if x != y && y in g.adj[x].succs {
        PairsAgree(WithSuccs(g, a, RemoveFirst(g.adj[a].succs, y).value), a, copy, i, j + 1);
      } else {
        PairsAgree(g, a, copy, i, j + 1);
      }
    }
  }

  lemma {:induction false} FromAgree<N>(g: Graph<N>, k: nat)
    requires Closed(g) && k <= |g.order|
    requires SimplifyFrom(g, k).Ok?
    ensures SimplifyFrom(g, k).value == SimplifyFromFixed(g, k)
    decreases |g.order| - k
  {
    if k < |g.order| {
      var a := g.order[k];
      var p := SimplifyPairs(g, a, g.adj[a].succs, 0, 0).value;
      PairsAgree(g, a, g.adj[a].succs, 0, 0);
      RowClosed(g, a);
      FromAgree(p, k + 1);
      assert SimplifyFrom(g, k) == SimplifyFrom(p, k + 1);
      assert SimplifyFromFixed(g, k) == SimplifyFromFixed(p, k + 1);
    }
  }

  /** Whenever the code as written succeeds, the corrected version computes the same graph. */
  lemma SimplifyFixedAgrees<N>(g: Graph<N>)
    requires Valid(g) && Simplify(g).Ok?
    ensures Simplify(g).value == SimplifyFixed(g)
  {
    FromAgree(g, 0);
  }

  /** Every successor list is free of duplicates. */
  ghost predicate RowsNoDup<N>(g: Graph<N>) {
    forall n :: n in g.adj ==> NoDup(g.adj[n].succs)
  }

  /** No successor y of `a` is also a successor of another successor x of `a`. */
  ghost predicate NoShortcutFrom<N>(g: Graph<N>, a: N) {
    && a in g.adj
    && forall x, y :: x in g.adj[a].succs && y in g.adj[a].succs && x != y && x in g.adj ==> y !in g.adj[x].succs
  }

  /**
   * The promise of `simplify`: no edge a -> y is left next to a two-step
   * path a -> x -> y with x != y.
   */
  ghost predicate NoShortcuts<N>(g: Graph<N>) {
    forall a, x, y :: a in g.adj && x in g.adj && x in g.adj[a].succs && y in g.adj[a].succs && x != y ==>
      y !in g.adj[x].succs
  }

  /**
   * Every pair (ii, jj) of the snapshot at or after (i, j) is settled by the
   * corrected pair loop: if copy[jj] is still a successor of `a` at the end,
   * it is not a successor of copy[ii].
   */
  lemma {:induction false} PairsFixedNoShortcut<N>(g: Graph<N>, a: N, copy: seq<N>, i: nat, j: nat, ii: nat, jj: nat)
    requires a in g.adj && NoDup(g.adj[a].succs)
    requires forall x :: x in copy ==> x in g.adj
    requires i <= |copy| && j <= |copy|
    requires ii < |copy| && jj < |copy| && (i < ii || (i == ii && j <= jj))
    ensures var r := SimplifyPairsFixed(g, a, copy, i, j);
      copy[ii] != copy[jj] && copy[jj] in r.adj[a].succs ==> copy[jj] !in r.adj[copy[ii]].succs
    decreases |copy| - i, |copy| - j
  {
    if j == |copy| {
      PairsFixedNoShortcut(g, a, copy, i + 1, 0, ii, jj);
      assert SimplifyPairsFixed(g, a, copy, i, j) == SimplifyPairsFixed(g, a, copy, i + 1, 0);
    } else {
      var x, y := copy[i], copy[j];
      if x != y && y in g.adj[x].succs && y in g.adj[a].succs {
        var h := PairsFixedRemoval(g, a, copy, i, j);
        if ii == i && jj == j {
          PairsFixedKept(h, a, copy, i, j + 1);
        } else {
          PairsFixedNoShortcut(h, a, copy, i, j + 1, ii, jj);
        }
      } else {
        assert SimplifyPairsFixed(g, a, copy, i, j) == SimplifyPairsFixed(g, a, copy, i, j + 1);
        if ii == i && jj == j {
          PairsFixedKept(g, a, copy, i, j + 1);
        } else {
          PairsFixedNoShortcut(g, a, copy, i, j + 1, ii, jj);
        }
      }
    }
  }

  /** One deletion of the corrected pair loop, with what the rest of the loop needs of it. */
  lemma PairsFixedRemoval<N>(g: Graph<N>, a: N, copy: seq<N>, i: nat, j: nat) returns (h: Graph<N>)
    requires a in g.adj && NoDup(g.adj[a].succs)
    requires forall x :: x in copy ==> x in g.adj
    requires i < |copy| && j < |copy|
    requires copy[i] != copy[j] && copy[j] in g.adj[copy[i]].succs && copy[j] in g.adj[a].succs
    ensures h.adj.Keys == g.adj.Keys && NoDup(h.adj[a].succs) && copy[j] !in h.adj[a].succs
    ensures SimplifyPairsFixed(g, a, copy, i, j) == SimplifyPairsFixed(h, a, copy, i, j + 1)
  {
    RemoveFromNoDup(g.adj[a].succs, copy[j]);
    h := WithSuccs(g, a, RemoveFirst(g.adj[a].succs, copy[j]).value);
  }

  /**
   * A pair the corrected loop leaves alone stays settled: y was not a
   * successor of x (other than through the row of `a`), or not one of `a`.
   */
  lemma PairsFixedKept<N>(g: Graph<N>, a: N, copy: seq<N>, i: nat, j: nat)
    requires a in g.adj
    requires forall x :: x in copy ==> x in g.adj
    requires i < |copy| && 0 < j <= |copy|
    requires var x, y := copy[i], copy[j - 1]; !(x != y && y in g.adj[x].succs && y in g.adj[a].succs)
    ensures var r, x, y := SimplifyPairsFixed(g, a, copy, i, j), copy[i], copy[j - 1];
      x != y && y in r.adj[a].succs ==> y !in r.adj[x].succs
  {
    PairsFixedStep(g, a, copy, i, j);
  }

  /** After the corrected pair loop of `a`, the row of `a` has no shortcut. */
  lemma RowFixedNoShortcut<N>(g: Graph<N>, a: N)
    requires Closed(g) && a in g.adj && NoDup(g.adj[a].succs)
    ensures NoShortcutFrom(SimplifyPairsFixed(g, a, g.adj[a].succs, 0, 0), a)
  {
    var copy := g.adj[a].succs;
    var r := SimplifyPairsFixed(g, a, copy, 0, 0);
    PairsFixedStep(g, a, copy, 0, 0);
    forall x, y | x in r.adj[a].succs && y in r.adj[a].succs && x != y && x in r.adj
      ensures y !in r.adj[x].succs
    {
      var ii :| 0 <= ii < |copy| && copy[ii] == x;
      var jj :| 0 <= jj < |copy| && copy[jj] == y;
      PairsFixedNoShortcut(g, a, copy, 0, 0, ii, jj);
    }
  }

  /** A pair loop of another node keeps the row of `a` and only removes edges. */
  lemma OtherRowKeepsNoShortcut<N>(g: Graph<N>, h: Graph<N>, b: N, copy: seq<N>, a: N)
    requires b in g.adj && PairStep(g, h, b, copy) && b != a && NoShortcutFrom(g, a)
    ensures NoShortcutFrom(h, a)
  {
  }

  /**
   * The corrected outer loop from position `k` leaves no shortcut in the
   * row of a node that had none or that is still to be processed.
   */
  lemma {:induction false} FromFixedNoShortcut<N>(g: Graph<N>, k: nat, a: N)
    requires Closed(g) && RowsNoDup(g) && k <= |g.order| && a in g.adj
    requires NoShortcutFrom(g, a) || a in g.order[k..]
    ensures NoShortcutFrom(SimplifyFromFixed(g, k), a)
    decreases |g.order| - k
  {
    if k == |g.order| {
      assert SimplifyFromFixed(g, k) == g;
    } else {
      var b := g.order[k];
      var h := SimplifyPairsFixed(g, b, g.adj[b].succs, 0, 0);
      PairsFixedStep(g, b, g.adj[b].succs, 0, 0);
      RowFixedClosed(g, b);
      assert RowsNoDup(h);
      if b == a {
        RowFixedNoShortcut(g, a);
      } else if NoShortcutFrom(g, a) {
        OtherRowKeepsNoShortcut(g, h, b, g.adj[b].succs, a);
      } else {
        var m :| 0 <= m < |g.order[k..]| && g.order[k..][m] == a;
        assert g.order[k + 1..][m - 1] == a;
      }
      FromFixedNoShortcut(h, k + 1, a);
      assert SimplifyFromFixed(g, k) == SimplifyFromFixed(h, k + 1);
    }
  }

  /** The corrected `simplify` leaves no shortcut anywhere. */
  lemma FixedNoShortcuts<N>(g: Graph<N>)
    requires Valid(g)
    ensures NoShortcuts(SimplifyFromFixed(g, 0))
  {
    var r := SimplifyFromFixed(g, 0);
    FromFixedJustified(g, 0);
    forall a | a in r.adj ensures NoShortcutFrom(r, a) {
      var m :| 0 <= m < |g.order| && g.order[m] == a;
      assert g.order[0..][m] == a;
      FromFixedNoShortcut(g, 0, a);
    }
  }

  /**
   * The shape on which the code as written fails: node `a` has the
   * distinct successors [x1, x2, y] in that order, both x1 and x2 lead to
   * y, and neither of x1, x2 leads to the other.
   */
  ghost predicate DoublyImplied<N>(g: Graph<N>, a: N, x1: N, x2: N, y: N) {
    && a in g.adj && x1 in g.adj && x2 in g.adj && y in g.adj
    && g.adj[a].succs == [x1, x2, y] && NoDup(g.adj[a].succs)
    && y in g.adj[x1].succs && y in g.adj[x2].succs
    && x2 !in g.adj[x1].succs && x1 !in g.adj[x2].succs
  }

  lemma DoublyImpliedFacts<N>(g: Graph<N>, a: N, x1: N, x2: N, y: N)
    requires DoublyImplied(g, a, x1, x2, y)
    ensures x1 != x2 && x1 != y && x2 != y && x1 != a && x2 != a
    ensures RemoveFirst([x1, x2, y], y) == Some([x1, x2])
    ensures RemoveFirst([x1, x2], y) == None
  {
    var s := [x1, x2, y];
    assert s[0] == x1 && s[1] == x2 && s[2] == y;
    assert s[..2] + s[3..] == [x1, x2];
  }

  /**
   * The pair loop of `a` as written: pair (x1, y) deletes a -> y, and pair
   * (x2, y) then asks `list.remove` for the missing y.
   */
  lemma PairLoopRaises<N>(g: Graph<N>, a: N, x1: N, x2: N, y: N)
    requires DoublyImplied(g, a, x1, x2, y)
    ensures SimplifyPairs(g, a, [x1, x2, y], 0, 0) == Err(MissingSuccessor(a, y))
  {
    DoublyImpliedFacts(g, a, x1, x2, y);
    var copy := [x1, x2, y];
    var h := WithSuccs(g, a, [x1, x2]);
    assert h.adj[x1] == g.adj[x1] && h.adj[x2] == g.adj[x2] && h.adj[a].succs == [x1, x2];
    assert SimplifyPairs(h, a, copy, 1, 2) == Err(MissingSuccessor(a, y));
    assert SimplifyPairs(h, a, copy, 1, 0) == SimplifyPairs(h, a, copy, 1, 1) == SimplifyPairs(h, a, copy, 1, 2);
    assert SimplifyPairs(g, a, copy, 0, 2) == SimplifyPairs(h, a, copy, 0, 3) == SimplifyPairs(h, a, copy, 1, 0);
    assert SimplifyPairs(g, a, copy, 0, 0) == SimplifyPairs(g, a, copy, 0, 1) == SimplifyPairs(g, a, copy, 0, 2);
  }

  /** `simplify` as written raises when the first node has the doubly implied shape. */
  lemma SimplifyRaises<N>(g: Graph<N>, a: N, x1: N, x2: N, y: N)
    requires Valid(g) && DoublyImplied(g, a, x1, x2, y) && |g.order| > 0 && g.order[0] == a
    ensures Simplify(g) == Err(MissingSuccessor(a, y))
  {
    PairLoopRaises(g, a, x1, x2, y);
  }

  /** A row of the corrected pair loop in which no pair deletes anything leaves the graph alone. */
  lemma {:induction false} QuietRow<N>(g: Graph<N>, a: N, copy: seq<N>, i: nat, j: nat)
    requires a in g.adj
    requires forall x :: x in copy ==> x in g.adj
    requires i < |copy| && j <= |copy|
    requires forall m :: j <= m < |copy| ==>
      !(copy[i] != copy[m] && copy[m] in g.adj[copy[i]].succs && copy[m] in g.adj[a].succs)
    ensures SimplifyPairsFixed(g, a, copy, i, j) == SimplifyPairsFixed(g, a, copy, i + 1, 0)
    decreases |copy| - j
  {
    if j < |copy| {
      QuietRow(g, a, copy, i, j + 1);
    }
  }

  /** The corrected pair loop of `a` deletes a -> y once; `y` has no successors. */
  lemma PairLoopFixedRemovesOnce<N>(g: Graph<N>, a: N, x1: N, x2: N, y: N)
    requires DoublyImplied(g, a, x1, x2, y) && g.adj[y].succs == []
    ensures SimplifyPairsFixed(g, a, [x1, x2, y], 0, 0) == WithSuccs(g, a, [x1, x2])
  {
    DoublyImpliedFacts(g, a, x1, x2, y);
    var copy := [x1, x2, y];
    var h := WithSuccs(g, a, [x1, x2]);
    assert SimplifyPairsFixed(g, a, copy, 0, 0) == SimplifyPairsFixed(h, a, copy, 1, 0) by {
      assert SimplifyPairsFixed(g, a, copy, 0, 0) == SimplifyPairsFixed(g, a, copy, 0, 1) == SimplifyPairsFixed(g, a, copy, 0, 2);
      assert SimplifyPairsFixed(g, a, copy, 0, 2) == SimplifyPairsFixed(h, a, copy, 0, 3);
    }
    assert h.adj[x2] == g.adj[x2] && h.adj[y] == g.adj[y];
    QuietRow(h, a, copy, 1, 0);
    QuietRow(h, a, copy, 2, 0);
  }

  /** A node with at most one successor has no pair to look at. */
  lemma SinglePairLoop<N>(g: Graph<N>, a: N)
    requires a in g.adj && |g.adj[a].succs| <= 1
    requires forall x :: x in g.adj[a].succs ==> x in g.adj
    ensures SimplifyPairsFixed(g, a, g.adj[a].succs, 0, 0) == g
  {
    var copy := g.adj[a].succs;
    if |copy| == 1 {
      assert SimplifyPairsFixed(g, a, copy, 0, 0) == SimplifyPairsFixed(g, a, copy, 0, 1);
      assert SimplifyPairsFixed(g, a, copy, 0, 1) == SimplifyPairsFixed(g, a, copy, 1, 0);
    }
  }

  /** Nodes with at most one successor each leave the corrected outer loop nothing to do. */
  lemma {:induction false} QuietTail<N>(g: Graph<N>, k: nat)
    requires Closed(g) && k <= |g.order|
    requires forall m :: k <= m < |g.order| ==> |g.adj[g.order[m]].succs| <= 1
    ensures SimplifyFromFixed(g, k) == g
    decreases |g.order| - k
  {
    if k < |g.order| {
      SinglePairLoop(g, g.order[k]);
      QuietTail(g, k + 1);
    }
  }

  /**
   * The corrected `simplify` on the doubly implied shape, every other node
   * having at most one successor: exactly the edge a -> y goes.
   */
  lemma SimplifyFixedRemovesOnce<N>(g: Graph<N>, a: N, x1: N, x2: N, y: N)
    requires Valid(g) && DoublyImplied(g, a, x1, x2, y) && g.adj[y].succs == []
    requires |g.order| > 0 && g.order[0] == a
    requires forall m :: 1 <= m < |g.order| ==> |g.adj[g.order[m]].succs| <= 1
    ensures SimplifyFixed(g) == WithSuccs(g, a, [x1, x2])
    ensures EdgeSet(SimplifyFixed(g)) == EdgeSet(g) - {(a, y)}
  {
    DoublyImpliedFacts(g, a, x1, x2, y);
    PairLoopFixedRemovesOnce(g, a, x1, x2, y);
    RemoveEdge(g, a, y);
    var h := WithSuccs(g, a, [x1, x2]);
    forall m | 1 <= m < |h.order| ensures |h.adj[h.order[m]].succs| <= 1 {
      assert g.order[m] != a;
    }
    QuietTail(h, 1);
  }

  /** 0 -> 1, 0 -> 2, 0 -> 3, 1 -> 3, 2 -> 3: edge 0 -> 3 is implied twice. */
  function Diamond(): (g: Graph<nat>)
    ensures g.order == [0, 1, 2, 3] && g.adj.Keys == {0, 1, 2, 3}
    ensures g.adj[0].succs == [1, 2, 3] && g.adj[1].succs == [3] && g.adj[2].succs == [3] && g.adj[3].succs == []
  {
    Graph([0, 1, 2, 3], map[0 := Entry("a", [1, 2, 3]), 1 := Entry("b", [3]),
                           2 := Entry("c", [3]), 3 := Entry("d", [])])
  }

  lemma DiamondValid()
    ensures Valid(Diamond())
  {
    var g := Diamond();
    forall n | n in g.adj ensures NoDup(g.adj[n].succs) && forall m :: m in g.adj[n].succs ==> m in g.adj {
      assert n == 0 || n == 1 || n == 2 || n == 3;
    }
  }

  lemma DiamondShape()
    ensures DoublyImplied(Diamond(), 0, 1, 2, 3)
    ensures forall m :: 1 <= m < |Diamond().order| ==> |Diamond().adj[Diamond().order[m]].succs| <= 1
  {
  }

  /**
   * The code as written raises on `Diamond`: pair (1, 3) removes 0 -> 3 and
   * pair (2, 3) then calls `remove(3)` on the list [1, 2].
   */
  lemma SimplifyRaisesOnDiamond()
    ensures Valid(Diamond()) && Simplify(Diamond()) == Err(MissingSuccessor(0, 3))
  {
    DiamondValid();
    DiamondShape();
    SimplifyRaises(Diamond(), 0, 1, 2, 3);
  }

  /** The corrected version removes 0 -> 3 once and keeps every other edge. */
  lemma SimplifyFixedOnDiamond()
    ensures Valid(Diamond()) && EdgeSet(SimplifyFixed(Diamond())) == EdgeSet(Diamond()) - {(0, 3)}
  {
    DiamondValid();
    DiamondShape();
    SimplifyFixedRemovesOnce(Diamond(), 0, 1, 2, 3);
  }
}

=== FILE: text.dfy ===
/**
 * Where a piece of text occurs inside a longer one. The scanners of the
 * edge patterns are proved against this relation rather than against
 * whole-string equalities.
 */
module Text {
  /**
   * `w` occurs in `s` at position `i`, stated one character at a time so
   * that the verifier unfolds it only as far as a proof asks.
   */
  predicate At(s: string, i: nat, w: string)
    decreases |w|
  {
    i + |w| <= |s| && (|w| == 0 || (s[i] == w[0] && At(s, i + 1, w[1..])))
  }

  /** Each character of an occurrence is where it should be. */
  lemma {:induction false} AtIndex(s: string, i: nat, w: string, k: nat)
    requires At(s, i, w) && k < |w|
    ensures s[i + k] == w[k]
    decreases k
  {
    if k > 0 {
      AtIndex(s, i + 1, w[1..], k - 1);
    }
  }

  /** `At` is slice equality: `w` is the piece of `s` from `i` of its length. */
  lemma {:induction false} AtSlice(s: string, i: nat, w: string)
    ensures At(s, i, w) <==> i + |w| <= |s| && s[i..i + |w|] == w
    decreases |w|
  {
    if |w| > 0 && i + |w| <= |s| {
      AtSlice(s, i + 1, w[1..]);
      assert s[i..i + |w|] == [s[i]] + s[i + 1..i + 1 + |w[1..]|];
      assert w == [w[0]] + w[1..];
    }
  }

  /** Every suffix of a string occurs where it starts. */
  lemma {:induction false} AtSuffix(s: string, i: nat)
    requires i <= |s|
    ensures At(s, i, s[i..])
    decreases |s| - i
  {
    if i < |s| {
      assert s[i..][1..] == s[i + 1..];
      AtSuffix(s, i + 1);
    }
  }

  /** A string occurs in itself at position 0. */
  lemma AtWhole(s: string)
    ensures At(s, 0, s)
  {
    assert s[0..] == s;
    AtSuffix(s, 0);
  }

  /** Appending text after the containing string keeps an occurrence. */
  lemma {:induction false} AtExtend(s: string, t: string, i: nat, w: string)
    requires At(s, i, w)
    ensures At(s + t, i, w)
    decreases |w|
  {
    if |w| > 0 {
      AtExtend(s, t, i + 1, w[1..]);
    }
  }

  /** Prepending text before the containing string moves an occurrence along. */
  lemma {:induction false} AtShift(p: string, s: string, i: nat, w: string)
    requires At(s, i, w)
    ensures At(p + s, |p| + i, w)
    decreases |w|
  {
    if |w| > 0 {
      AtShift(p, s, i + 1, w[1..]);
    }
  }

  /** An occurrence of `u + v` is an occurrence of `u` followed by one of `v`. */
  lemma {:induction false} AtAppend(s: string, i: nat, u: string, v: string)
    requires At(s, i, u + v)
    ensures At(s, i, u) && At(s, i + |u|, v)
    decreases |u|
  {
    if |u| == 0 {
      assert u + v == v;
    } else {
      assert (u + v)[1..] == u[1..] + v;
      AtAppend(s, i + 1, u[1..], v);
    }
  }

  /** The left part of a concatenation occurs at its start. */
  lemma AtLeft(s: string, t: string)
    ensures At(s + t, 0, s)
  {
    AtWhole(s);
    AtExtend(s, t, 0, s);
  }

  /** The right part of a concatenation occurs right after the left part. */
  lemma AtRight(p: string, s: string)
    ensures At(p + s, |p|, s)
  {
    AtWhole(s);
    AtShift(p, s, 0, s);
    assert |p| + 0 == |p|;
  }

  /** The middle part of `p + (w + r)` occurs right after `p`. */
  lemma AtMiddle(p: string, w: string, r: string)
    ensures At(p + (w + r), |p|, w)
  {
    AtLeft(w, r);
    AtShift(p, w + r, 0, w);
  }
}

=== FILE: wasma.dfy ===
/**
 * `build_graph_from_dot_wasma`: every node whose label carries an
 * instruction header `#k+index:content` becomes a node keyed by its index,
 * and every edge `a -> b` becomes the dependence `(b, a)`, in the reverse
 * direction. The result is the transitive closure of that graph's edges.
 */
module Wasma {
  import opened Wrappers
  import opened AdjGraph
  import opened Closure
  import opened Digits
  import opened Dot

  /** Instruction `x` is the header of some node. */
  ghost predicate IsInstr(g: DotGraph, x: nat) {
    exists k :: 0 <= k < |g.nodes| && g.nodes[k].header.Some? && g.nodes[k].header.value.index == x
  }

  /** Some edge of the dump matches the edge pattern and reads `a -> b`. */
  ghost predicate MatchedEdge(g: DotGraph, a: nat, b: nat) {
    exists k :: 0 <= k < |g.edges| && MatchWasmaEdge(g.edges[k]) == Some((a, b))
  }

  /** The `(index, content)` pairs of the nodes with a header, in node order. */
  function Headers(nodes: seq<DotNode>): (ps: seq<(nat, string)>)
    ensures forall p :: p in ps ==> exists k :: 0 <= k < |nodes| && nodes[k].header == Some(InstrRecord(p.0, p.1))
    ensures forall k :: 0 <= k < |nodes| && nodes[k].header.Some? ==>
      (nodes[k].header.value.index, nodes[k].header.value.opcode) in ps
    decreases |nodes|
  {
    if |nodes| == 0 then []
    else
      var tail := Headers(nodes[1..]);
      assert forall k :: 1 <= k < |nodes| ==> nodes[1..][k - 1] == nodes[k];
      match nodes[0].header
      case None => tail
      case Some(h) => [(h.index, h.opcode)] + tail
  }

  /** The edge pattern's match `a -> b`, read as the dependence `(b, a)`. */
  function ReversedMatch(e: DotEdge): Option<(nat, nat)> {
    match MatchWasmaEdge(e)
    case None => None
    case Some((a, b)) => Some((b, a))
  }

  lemma HeaderIds(g: DotGraph, x: nat)
    ensures x in Ids(Headers(g.nodes)) <==> IsInstr(g, x)
  {
    var nodes := Headers(g.nodes);
    if x in Ids(nodes) {
      var i :| 0 <= i < |nodes| && nodes[i].0 == x;
      assert nodes[i] in nodes;
    }
    if IsInstr(g, x) {
      var k :| 0 <= k < |g.nodes| && g.nodes[k].header.Some? && g.nodes[k].header.value.index == x;
      var p := (x, g.nodes[k].header.value.opcode);
      var i :| 0 <= i < |nodes| && nodes[i] == p;
    }
  }

  lemma PairReversed(g: DotGraph, a: nat, b: nat)
    ensures (b, a) in Matches(g.edges, ReversedMatch) <==> MatchedEdge(g, a, b)
  {
    if (b, a) in Matches(g.edges, ReversedMatch) {
      var k :| 0 <= k < |g.edges| && ReversedMatch(g.edges[k]) == Some((b, a));
      assert MatchWasmaEdge(g.edges[k]) == Some((a, b));
    }
    if MatchedEdge(g, a, b) {
      var k :| 0 <= k < |g.edges| && MatchWasmaEdge(g.edges[k]) == Some((a, b));
      assert ReversedMatch(g.edges[k]) == Some((b, a));
    }
  }

  /** The adjacency-list graph `ret` before the closure is taken. */
  function BuildGraph(g: DotGraph): (r: Graph<nat>)
    ensures Valid(r)
    ensures forall x: nat :: x in r.adj <==> IsInstr(g, x)
    ensures forall a: nat, b: nat :: (b, a) in EdgeSet(r) <==> IsInstr(g, a) && IsInstr(g, b) && MatchedEdge(g, a, b)
  {
    var nodes, pairs := Headers(g.nodes), Matches(g.edges, ReversedMatch);
    var r := FromLists(nodes, pairs);
    FromListsEdges(nodes, pairs);
    forall x: nat ensures x in r.adj <==> IsInstr(g, x) {
      HeaderIds(g, x);
    }
    forall a: nat, b: nat ensures (b, a) in EdgeSet(r) <==> IsInstr(g, a) && IsInstr(g, b) && MatchedEdge(g, a, b) {
      HeaderIds(g, a);
      HeaderIds(g, b);
      PairReversed(g, a, b);
    }
    r
  }

  /** `build_graph_from_dot_wasma`: the transitive closure of the constructed edges. */
  function Build(g: DotGraph): (c: set<(nat, nat)>)
    ensures forall a: nat, b: nat :: IsInstr(g, a) && IsInstr(g, b) && MatchedEdge(g, a, b) ==> (b, a) in c
    ensures Transitive(c)
    ensures forall e :: e in c ==> IsInstr(g, e.0) && IsInstr(g, e.1)
  {
    FieldInstrs(g);
    TransClosure(EdgeSet(BuildGraph(g)))
  }

  /** Every instruction an edge of the constructed graph mentions is registered. */
  lemma FieldInstrs(g: DotGraph)
    ensures forall x :: x in Field(EdgeSet(BuildGraph(g))) ==> IsInstr(g, x)
  {
    var r := EdgeSet(BuildGraph(g));
    forall x | x in Field(r) ensures IsInstr(g, x) {
      FieldMember(r, x);
      var b :| (x, b) in r || (b, x) in r;
    }
  }

  /**
   * Edge direction: the dump edge `a -> b` between two registered
   * instructions yields the dependence `(b, a)`.
   */
  lemma EdgeReversed(g: DotGraph, k: nat, a: nat, b: nat, rest: string)
    requires k < |g.edges| && StartsWithNonDigit(rest)
    requires g.edges[k] == DotEdge(Show(a), Show(b) + rest)
    requires IsInstr(g, a) && IsInstr(g, b)
    ensures (b, a) in EdgeSet(BuildGraph(g)) && (b, a) in Build(g)
  {
    WasmaEdgeRoundTrip(a, b, rest);
    assert MatchedEdge(g, a, b);
  }

  /** Without both endpoints registered, no matched edge enters the result. */
  lemma UnregisteredEndpointDropped(g: DotGraph, a: nat, b: nat)
    requires !IsInstr(g, a) || !IsInstr(g, b)
    ensures (b, a) !in Build(g)
  {
  }

  /** The result is exactly reachability along the constructed edges, and taking the closure again changes nothing. */
  lemma BuildIsReachability(g: DotGraph, a: nat, b: nat)
    ensures (a, b) in Build(g) <==> Reaches(EdgeSet(BuildGraph(g)), a, b)
    ensures TransClosure(Build(g)) == Build(g)
  {
    ClosureIsReachability(EdgeSet(BuildGraph(g)), a, b);
    ClosureIdempotent(EdgeSet(BuildGraph(g)));
  }
}

=== FILE: wassail.dfy ===
/**
 * `build_graph_from_dot_wassail`: every instruction record of every node
 * label becomes a node keyed by its index, and every edge
 * `block<b>:instr<x> -> block<c>:instr<y>` becomes the dependence `(x, y)`.
 * The result is the transitive closure of that graph's edges.
 */
module Wassail {
  import opened Wrappers
  import opened AdjGraph
  import opened Closure
  import opened Dot

  /** Instruction `x` is one of the records of some node. */
  ghost predicate IsInstr(g: DotGraph, x: nat) {
    exists k, j :: 0 <= k < |g.nodes| && 0 <= j < |g.nodes[k].records| && g.nodes[k].records[j].index == x
  }

  /** Some edge of the dump matches the edge pattern with instruction numbers `(a, b)`. */
  ghost predicate MatchedEdge(g: DotGraph, a: nat, b: nat) {
    exists k :: 0 <= k < |g.edges| && MatchWassailEdge(g.edges[k]) == Some((a, b))
  }

  /** The `(index, opcode)` pairs of one label's records, in label order. */
  function RecordPairs(rs: seq<InstrRecord>): (ps: seq<(nat, string)>)
    ensures |ps| == |rs|
    ensures forall j :: 0 <= j < |rs| ==> ps[j] == (rs[j].index, rs[j].opcode)
  {
    seq(|rs|, j requires 0 <= j < |rs| => (rs[j].index, rs[j].opcode))
  }

  /** The records of all nodes, node by node: the order of the `add_node` calls. */
  function Records(nodes: seq<DotNode>): (ps: seq<(nat, string)>)
    ensures forall p :: p in ps ==>
      exists k, j :: 0 <= k < |nodes| && 0 <= j < |nodes[k].records| && p == (nodes[k].records[j].index, nodes[k].records[j].opcode)
    ensures forall k, j :: 0 <= k < |nodes| && 0 <= j < |nodes[k].records| ==>
      (nodes[k].records[j].index, nodes[k].records[j].opcode) in ps
    decreases |nodes|
  {
    if |nodes| == 0 then []
    else
      var head := RecordPairs(nodes[0].records);
      var tail := Records(nodes[1..]);
      forall p | p in head + tail
        ensures exists k, j :: 0 <= k < |nodes| && 0 <= j < |nodes[k].records| && p == (nodes[k].records[j].index, nodes[k].records[j].opcode)
      {
        if p in head {
          var j :| 0 <= j < |head| && head[j] == p;
          assert p == (nodes[0].records[j].index, nodes[0].records[j].opcode);
        } else {
          var k, j :| 0 <= k < |nodes[1..]| && 0 <= j < |nodes[1..][k].records| && p == (nodes[1..][k].records[j].index, nodes[1..][k].records[j].opcode);
          assert nodes[1..][k] == nodes[k + 1];
        }
      }
      forall k, j | 0 <= k < |nodes| && 0 <= j < |nodes[k].records|
        ensures (nodes[k].records[j].index, nodes[k].records[j].opcode) in head + tail
      {
        if k == 0 {
          assert head[j] == (nodes[k].records[j].index, nodes[k].records[j].opcode);
        } else {
          assert nodes[1..][k - 1] == nodes[k];
        }
      }
      head + tail
  }

  lemma RecordIds(g: DotGraph, x: nat)
    ensures x in Ids(Records(g.nodes)) <==> IsInstr(g, x)
  {
    var nodes := Records(g.nodes);
    if x in Ids(nodes) {
      var i :| 0 <= i < |nodes| && nodes[i].0 == x;
      assert nodes[i] in nodes;
    }
    if IsInstr(g, x) {
      var k, j :| 0 <= k < |g.nodes| && 0 <= j < |g.nodes[k].records| && g.nodes[k].records[j].index == x;
      var p := (x, g.nodes[k].records[j].opcode);
      var i :| 0 <= i < |nodes| && nodes[i] == p;
    }
  }

  lemma PairMatched(g: DotGraph, a: nat, b: nat)
    ensures (a, b) in Matches(g.edges, MatchWassailEdge) <==> MatchedEdge(g, a, b)
  {
  }

  /** The adjacency-list graph `ret` before the closure is taken. */
  function BuildGraph(g: DotGraph): (r: Graph<nat>)
    ensures Valid(r)
    ensures forall x :: x in r.adj <==> IsInstr(g, x)
    ensures forall a: nat, b: nat :: (a, b) in EdgeSet(r) <==> IsInstr(g, a) && IsInstr(g, b) && MatchedEdge(g, a, b)
  {
    var nodes, pairs := Records(g.nodes), Matches(g.edges, MatchWassailEdge);
    var r := FromLists(nodes, pairs);
    FromListsEdges(nodes, pairs);
    forall x ensures x in r.adj <==> IsInstr(g, x) {
      RecordIds(g, x);
    }
    forall a: nat, b: nat ensures (a, b) in EdgeSet(r) <==> IsInstr(g, a) && IsInstr(g, b) && MatchedEdge(g, a, b) {
      RecordIds(g, a);
      RecordIds(g, b);
      PairMatched(g, a, b);
    }
    r
  }

  /** `build_graph_from_dot_wassail`: the transitive closure of the constructed edges. */
  function Build(g: DotGraph): (c: set<(nat, nat)>)
    ensures forall a: nat, b: nat :: IsInstr(g, a) && IsInstr(g, b) && MatchedEdge(g, a, b) ==> (a, b) in c
    ensures Transitive(c)
    ensures forall e :: e in c ==> IsInstr(g, e.0) && IsInstr(g, e.1)
  {
    FieldInstrs(g);
    TransClosure(EdgeSet(BuildGraph(g)))
  }

  /** Every instruction an edge of the constructed graph mentions is registered. */
  lemma FieldInstrs(g: DotGraph)
    ensures forall x :: x in Field(EdgeSet(BuildGraph(g))) ==> IsInstr(g, x)
  {
    var r := EdgeSet(BuildGraph(g));
    forall x | x in Field(r) ensures IsInstr(g, x) {
      FieldMember(r, x);
      var b :| (x, b) in r || (b, x) in r;
    }
  }

  /**
   * Edge direction: the dump edge from instruction `x` to instruction `y`
   * yields the dependence `(x, y)` once both are registered instructions.
   */
  lemma EdgeDirection(g: DotGraph, k: nat, b1: nat, x: nat, b2: nat, y: nat, rest: string)
    requires k < |g.edges| && StartsWithNonDigit(rest)
    requires g.edges[k] == DotEdge(BlockInstrName(b1, x), BlockInstrName(b2, y) + rest)
    requires IsInstr(g, x) && IsInstr(g, y)
    ensures (x, y) in EdgeSet(BuildGraph(g)) && (x, y) in Build(g)
  {
    WassailEdgeRoundTrip(b1, x, b2, y, rest);
    assert MatchedEdge(g, x, y);
  }

  /** Without both endpoints registered, no matched edge enters the result. */
  lemma UnregisteredEndpointDropped(g: DotGraph, a: nat, b: nat)
    requires !IsInstr(g, a) || !IsInstr(g, b)
    ensures (a, b) !in Build(g)
  {
  }

  /** The result is exactly reachability along the constructed edges, and taking the closure again changes nothing. */
  lemma BuildIsReachability(g: DotGraph, a: nat, b: nat)
    ensures (a, b) in Build(g) <==> Reaches(EdgeSet(BuildGraph(g)), a, b)
    ensures TransClosure(Build(g)) == Build(g)
  {
    ClosureIsReachability(EdgeSet(BuildGraph(g)), a, b);
    ClosureIdempotent(EdgeSet(BuildGraph(g)));
  }
}

=== FILE: wrappers.dfy ===
/** Failure-compatible return values shared by every module of the model. */
module Wrappers {

  /** A value that may be absent, as a regex match or a dictionary lookup can be. */
  datatype Option<T> = None | Some(value: T)

  /** Either a value or the error the source would raise instead of returning. */
  datatype Result<T, E> = Ok(value: T) | Err(error: E)
}
